=== FILE: README.md ===
# demux-sapio-watcher, modelled in Dafny

This project models the core of a watcher for sequencing runs. The watcher
finds BCL Convert run-output folders on disk. In each folder it reads three
reports: the fastq list, the demultiplexing statistics and the quality
metrics. It joins their rows per sample into combined records, and it maps
each record to the `SequencingFile` payload sent to the LIMS. The model also
covers the older copy of the record validators. It also covers the FASTQ pair
finder of the standalone watcher.

The modules follow the program's structure:

| module | models |
|---|---|
| `Wrappers` | `Result` and `Option`, with `:-` propagation |
| `Text` | `str.split`, `str.join`, `in`, `endswith`, integer text |
| `Paths` | POSIX `pathlib` paths, parsed and resolved lexically, and their ordering |
| `Glob` | `fnmatch.fnmatch` (`*`, `?`, `[...]`, `[!...]`) |
| `FileSystem` | a directory tree with a working directory; `exists`, `is_file`, `is_dir`, reading lines |
| `Sorting` | `sorted()` on paths |
| `FindFolders` | `filter_folders`, `find_bclconvert_folders` |
| `Models` | `BCLConvertFolder`, `QualityMetrics`, `DemuxStats`, `FastqListEntry`, `CombinedSampleData` |
| `LegacyModels` | the same records in `src/bclconvert/models.py` |
| `ParseFolder` | `parse_bclconvert_folder`: row decoding, the per-sample join, final validation |
| `Uuids` | `UUID_RE` search and the canonical text of a `UUID` |
| `SapioTypes` | `SequencingFile`: computed fields, `from_bclconvert`, `update_payload` |
| `FastqPairs` | `find_fastq_pairs` of the standalone watcher, as written and corrected |

Modelling choices:
- Every pydantic constructor is a function returning `Result`. A
  `ValidationError` is an `Err`.
- A Python exception that ends the run is also an `Err`. The cases are a
  `KeyError`, a `TypeError`, a `StopIteration` turned into a `RuntimeError`,
  a `ZeroDivisionError` and an `UnboundLocalError`.
- A generator becomes a function returning the whole sequence of what it
  yields. Each generator that can fail does so before its first `yield`, so
  nothing is lost by this.
- The file system is a parameter. It is a tree of named directories and
  files, where a file is its lines, plus a working directory.
- Glob expansion results are a parameter, because expansion is I/O.
- Float fields are `real`.

## Model

| member | source | states |
|---|---|---|
| Text.Split | demux_sapio_watcher/bclconvert/parse_folder.py:27 | the pieces of a split line never contain the separator, and there is always at least one |
| Text.JoinSplit | demux_sapio_watcher/bclconvert/parse_folder.py:27 | joining the pieces of a split line with the separator gives the line back |
| Text.SplitJoin | demux_sapio_watcher/bclconvert/parse_folder.py:27 | splitting comma-joined values that contain no comma gives the values back |
| Text.SplitNoSep | demux_sapio_watcher/bclconvert/parse_folder.py:27 | a line without a comma is one field |
| Text.SplitPrefix | demux_sapio_watcher/bclconvert/parse_folder.py:27 | the first field is the text before the first comma, and the rest is split the same way |
| Text.NatToDigits | demux_sapio_watcher/sapio_types.py:131-134 | the decimal text of a number is a non-empty run of digits |
| Text.DigitsRoundTrip | demux_sapio_watcher/sapio_types.py:134 | `int()` of the decimal text of a number is that number |
| Text.ParseInt | demux_sapio_watcher/bclconvert/models.py:83 | integer text is accepted exactly when it is an optional sign followed by one or more digits |
| Text.IntRoundTrip | demux_sapio_watcher/bclconvert/models.py:83 | the text form of any integer is read back as that integer |
| Paths.Parse | demux_sapio_watcher/bclconvert/models.py:121-122 | `Path(s)` is well formed, and it is absolute exactly when `s` starts with `/` |
| Paths.ParseToString | demux_sapio_watcher/sapio_types.py:41-52 | printing a well-formed path and parsing the text gives the same path |
| Paths.ParseAbsolute | demux_sapio_watcher/sapio_types.py:41-52 | an absolute path of valid segments survives printing and parsing |
| Paths.ParseRelative | demux_sapio_watcher/sapio_types.py:41-52 | a relative path of valid segments survives printing and parsing |
| Paths.JoinPathAssociative | demux_sapio_watcher/bclconvert/models.py:133 | `(a / b) / c` is `a / (b / c)` for every `a`, `b` and `c`, relative or absolute |
| Paths.Parent | demux_sapio_watcher/bclconvert/models.py:133 | the parent joined with the name gives the path back, and `/` is its own parent |
| Paths.WithName | fastq_watcher/cli.py:55 | `with_name` keeps the parent and sets the name |
| Paths.Collapse | demux_sapio_watcher/bclconvert/models.py:133-135 | collapsing `..` leaves no `..` and never adds segments |
| Paths.Resolve | demux_sapio_watcher/bclconvert/models.py:133-135 | a resolved path is absolute and holds no `..` |
| Paths.CollapseNoDots | demux_sapio_watcher/bclconvert/models.py:133-135 | collapsing changes nothing when there is no `..` |
| Paths.ResolveIdempotent | demux_sapio_watcher/bclconvert/models.py:34 | resolving a resolved path changes nothing |
| Paths.ResolveChild | demux_sapio_watcher/bclconvert/find_folders.py:48 | resolving a child of a directory appends the child's name to the resolved directory |
| Paths.LexTotal | demux_sapio_watcher/bclconvert/find_folders.py:53 | lexicographic order from a total element order is total |
| Paths.StrTrichotomy | demux_sapio_watcher/bclconvert/find_folders.py:53 | any two strings are equal or one is smaller |
| Paths.PathLeTotal | demux_sapio_watcher/bclconvert/find_folders.py:53 | any two paths are comparable, so `sorted` is defined on the scan result |
| Glob.LiteralMatchesOnlyItself | demux_sapio_watcher/bclconvert/find_folders.py:44-46 | a pattern without wildcards matches exactly the name spelled the same way, case included |
| Glob.StarPatternMatchesAll | demux_sapio_watcher/bclconvert/find_folders.py:24 | `*` matches every name |
| Glob.QuestionMatchesOneChar | demux_sapio_watcher/bclconvert/find_folders.py:37-39 | `?` matches exactly the names of one character |
| Glob.NegatedClassMatches | demux_sapio_watcher/bclconvert/find_folders.py:37-39 | `[!ab]` matches a character exactly when it is neither `a` nor `b` |
| Glob.ClassPatternMatches | demux_sapio_watcher/bclconvert/find_folders.py:37-46 | for any non-empty class body with no `]` after its first character, `[body]` matches exactly the one-character names whose character is in the class, and `[!body]` exactly those whose character is not |
| Glob.RangeClassMatches | demux_sapio_watcher/bclconvert/find_folders.py:37-46 | `[lo-hi]` matches a character exactly when it lies between `lo` and `hi` inclusive |
| Glob.UnclosedBracketPrefix | demux_sapio_watcher/bclconvert/find_folders.py:37-39 | a `[` with no `]` after it is an ordinary character: the pattern matches exactly the names that start with `[` and whose rest the remaining pattern matches |
| Glob.UnclosedBracketIsLiteral | demux_sapio_watcher/bclconvert/find_folders.py:37-39 | a `[` followed by any text without wildcards or `]` matches exactly its own spelling |
| Sorting.Sort | demux_sapio_watcher/bclconvert/find_folders.py:53 | the result is sorted and a permutation of the input |
| Sorting.SortKeepsMembers | demux_sapio_watcher/bclconvert/find_folders.py:53 | sorting neither adds nor drops a path |
| FindFolders.CollectSelects | demux_sapio_watcher/bclconvert/find_folders.py:30-51 | the loop over a listing returns exactly the folders the reference reading selects |
| FindFolders.FoundSelects | demux_sapio_watcher/bclconvert/find_folders.py:31-51 | one entry adds exactly the selected folders at or below it |
| FindFolders.FoundIncluded | demux_sapio_watcher/bclconvert/find_folders.py:43-48 | an included directory adds only itself, resolved |
| FindFolders.DescendRelation | demux_sapio_watcher/bclconvert/find_folders.py:49-51 | a path below `dir/name` is a path below `dir` whose first relative segment is `name` |
| FindFolders.SelectedSplit | demux_sapio_watcher/bclconvert/find_folders.py:30-51 | selection in a listing is selection through its first entry or through the rest |
| FindFolders.DefaultIncludes | demux_sapio_watcher/bclconvert/find_folders.py:24 | the include list is never empty; a missing or empty one becomes `["*"]` |
| FindFolders.FilterFolders | demux_sapio_watcher/bclconvert/find_folders.py:5-53 | no result for a root that is not a directory; otherwise exactly the selected folders, sorted |
| FindFolders.SelectedSegments | demux_sapio_watcher/bclconvert/find_folders.py:37-51 | on the way to a selected folder no segment is excluded, none before the last is included, and the last is included |
| FindFolders.ExcludedNeverReturned | demux_sapio_watcher/bclconvert/find_folders.py:37-41 | no segment between the root and a returned folder matches an exclude pattern |
| FindFolders.ReturnedNameIncluded | demux_sapio_watcher/bclconvert/find_folders.py:43-48 | a returned folder's own name matches an include pattern |
| FindFolders.NoNestedMatches | demux_sapio_watcher/bclconvert/find_folders.py:47-51 | no returned folder lies inside another returned folder |
| FindFolders.DefaultIncludesImmediateChildren | demux_sapio_watcher/bclconvert/find_folders.py:24-25 | with no include patterns, the result is exactly the non-excluded immediate subdirectories |
| FindFolders.FindBclconvertFolders | demux_sapio_watcher/bclconvert/find_folders.py:56-76 | the result is the set union over roots of the scans with include `BCLConvert` |
| FindFolders.FoundFoldersNamedBclConvert | demux_sapio_watcher/bclconvert/find_folders.py:73 | every folder found is named exactly `BCLConvert` |
| FindFolders.FilteredNamedBclConvert | demux_sapio_watcher/bclconvert/find_folders.py:73 | one root's scan with include `BCLConvert` returns only folders of that name |
| FindFolders.SinglePatternMatch | demux_sapio_watcher/bclconvert/find_folders.py:44-46 | a name matching a single literal pattern equals it |
| FindFolders.FindDistributes | demux_sapio_watcher/bclconvert/find_folders.py:68-76 | scanning `a + b` is the union of scanning `a` and scanning `b` |
| FindFolders.MissingRootContributesNothing | demux_sapio_watcher/bclconvert/find_folders.py:21-22 | a root that is missing or not a directory adds nothing, and the other roots are still scanned |
| Models.IntFieldReadsFormatted | demux_sapio_watcher/bclconvert/models.py:83 | a column holding the decimal text of any integer is read back as that integer |
| Models.ColumnReadersAgree | demux_sapio_watcher/bclconvert/models.py:82-112 | a field depends only on its own column |
| Models.DecodeQualityMetrics | demux_sapio_watcher/bclconvert/models.py:82-93 | decoding succeeds exactly when every aliased column is present and well typed, and then each field holds its column |
| Models.QualityMetricsIgnoresOtherColumns | demux_sapio_watcher/bclconvert/models.py:85 | rows that agree on the aliased columns decode alike; `Sample_Project` is ignored |
| Models.DecodeDemuxStats | demux_sapio_watcher/bclconvert/models.py:96-112 | decoding succeeds exactly when every aliased column is present and well typed, and then each field holds its column |
| Models.DemuxStatsIgnoresOtherColumns | demux_sapio_watcher/bclconvert/models.py:99 | rows that agree on the aliased columns decode alike |
| Models.EmptyToNoneRoundTrip | demux_sapio_watcher/bclconvert/models.py:124-128 | the text of any well-formed path is read back as that same path, never as a missing read-2 file |
| Models.ResolveReadStable | demux_sapio_watcher/bclconvert/models.py:131-135 | a stored read path is final: resolving it again changes nothing, and a relative one becomes absolute with no `..` left |
| Models.MakeFastqListEntry | demux_sapio_watcher/bclconvert/models.py:115-144 | an entry is built exactly when the list file is a file, the columns are present, the resolved reads differ and exist; its fields hold the resolved values |
| Models.MissingRead1Rejected | demux_sapio_watcher/bclconvert/models.py:140-141 | a read-1 file missing from disk makes the entry invalid |
| Models.Combine | demux_sapio_watcher/bclconvert/models.py:147-193 | a fragment combines exactly when its three required parts are present and they satisfy the three validators |
| Models.Candidates | demux_sapio_watcher/bclconvert/models.py:40-65 | each report has six candidate locations, all ending in the report's file name |
| Models.Filter | demux_sapio_watcher/bclconvert/models.py:67-73 | filtering never lengthens a sequence |
| Models.FilterMembers | demux_sapio_watcher/bclconvert/models.py:67-73 | an element is kept exactly when it is in the input and passes the test |
| Models.FilterAppend | demux_sapio_watcher/bclconvert/models.py:67-73 | filtering keeps the input order |
| Models.ExistingFiles | demux_sapio_watcher/bclconvert/models.py:67-73 | the kept candidates are exactly those that are regular files |
| Models.ExistingFilesAppend | demux_sapio_watcher/bclconvert/models.py:67-73 | files among earlier candidates are listed before files among later ones |
| Models.SomeFileKept | demux_sapio_watcher/bclconvert/models.py:32-33 | the kept list is non-empty exactly when some candidate is a regular file |
| Models.ResolveAllIdempotent | demux_sapio_watcher/bclconvert/models.py:34 | stored report paths are final: resolving them again changes nothing, and each is absolute |
| Models.ReportErrors | demux_sapio_watcher/bclconvert/models.py:18-34 | a report tuple has no error exactly when it is non-empty and every element is a regular file; a non-file element fails the element type, so the emptiness check does not run |
| Models.MakeBclConvertFolder | demux_sapio_watcher/bclconvert/models.py:15-34 | construction succeeds exactly when the folder is a directory, every report path is an existing regular file and all three path lists are non-empty; the error names every failing field, the non-directory, each empty tuple and each tuple with a non-file path; the stored paths are the resolved inputs |
| Models.EmptyQualityNamedBesideFileError | demux_sapio_watcher/bclconvert/models.py:18-34 | a non-file statistics path and an empty quality tuple are both reported: one field's failure does not hide another's |
| Models.NonFileReportRejected | demux_sapio_watcher/bclconvert/models.py:18-20 | one report path that is not an existing regular file, in any of the three lists, makes construction fail |
| Models.FromPath | demux_sapio_watcher/bclconvert/models.py:36-79 | every candidate that is a regular file is kept, in listed order, and construction fails when a report has none |
| Models.FolderPathsAreFiles | demux_sapio_watcher/bclconvert/models.py:18-20 | every stored fastq-list path names a regular file |
| LegacyModels.DecodeLegacyQualityMetrics | src/bclconvert/models.py:7-18 | the legacy quality record also needs `Sample_Project` and keeps its text; otherwise it decodes as the current one |
| LegacyModels.DecodeLegacyDemuxStats | src/bclconvert/models.py:21-37 | the legacy demultiplexing record also needs `Sample_Project` and keeps its text; otherwise it decodes as the current one |
| LegacyModels.ProjectColumnRequired | src/bclconvert/models.py:10 | a row without `Sample_Project` fails under the legacy records and not under the current ones |
| LegacyModels.ProjectColumnSuffices | src/bclconvert/models.py:10 | adding the project column is all the legacy quality record needs more |
| LegacyModels.CombineLegacy | src/bclconvert/models.py:72-118 | a legacy combined record is valid exactly when the current validators accept its parts |
| LegacyModels.ProjectsIgnoredByValidation | src/bclconvert/models.py:78-118 | the project texts play no part in combining |
| ParseFolder.ZipRow | demux_sapio_watcher/bclconvert/parse_folder.py:28 | the keys are exactly the header names within the shorter of header and fields |
| ParseFolder.ZipRowLastWins | demux_sapio_watcher/bclconvert/parse_folder.py:28 | a repeated header name holds the field under its last occurrence |
| ParseFolder.DecodeEncodedLine | demux_sapio_watcher/bclconvert/parse_folder.py:25-28 | a line of comma-free values under distinct header names decodes to exactly those values |
| ParseFolder.FastqListRowsNeverUndetermined | demux_sapio_watcher/bclconvert/parse_folder.py:29 | a row without a `SampleID` column is never skipped as `Undetermined` |
| ParseFolder.Put | demux_sapio_watcher/bclconvert/parse_folder.py:41 | storing under a key keeps insertion order: an existing key keeps its place, a new key goes last |
| ParseFolder.FastqStep | demux_sapio_watcher/bclconvert/parse_folder.py:32-41 | a `file` column aborts the run; an invalid row changes nothing; a valid one replaces its sample's whole fragment |
| ParseFolder.DemuxStep | demux_sapio_watcher/bclconvert/parse_folder.py:51-64 | an invalid row changes nothing; a valid one sets only its sample's statistics, creating the fragment if needed |
| ParseFolder.QualityStep | demux_sapio_watcher/bclconvert/parse_folder.py:74-87 | read 1 and read 2 go to their slot; an unknown sample aborts; other read numbers and invalid rows change nothing |
| ParseFolder.FoldFile | demux_sapio_watcher/bclconvert/parse_folder.py:24-25 | an unreadable or empty report file aborts the run |
| ParseFolder.LastFastq | demux_sapio_watcher/bclconvert/parse_folder.py:37-41 | the last entry for a sample is one of its entries, and absent only when the sample has none |
| ParseFolder.FastqLinesLastWins | demux_sapio_watcher/bclconvert/parse_folder.py:23-41 | after a fastq list a sample's fragment holds exactly its last valid entry, and a sample without entries is untouched |
| ParseFolder.LastDemux | demux_sapio_watcher/bclconvert/parse_folder.py:56-64 | the last statistics row for a sample is one of its rows, and absent only when the sample has none |
| ParseFolder.DemuxStepAt | demux_sapio_watcher/bclconvert/parse_folder.py:56-64 | one statistics row changes only the fragment of its own sample |
| ParseFolder.DemuxLinesLastWins | demux_sapio_watcher/bclconvert/parse_folder.py:43-64 | a statistics report never aborts; a sample ends with its last row's statistics and keeps its other parts |
| ParseFolder.UnknownSampleQualityRowAborts | demux_sapio_watcher/bclconvert/parse_folder.py:80-87 | a valid read-1 or read-2 row for a sample with no fragment ends the run |
| ParseFolder.QualityStepAt | demux_sapio_watcher/bclconvert/parse_folder.py:80-87 | a read-1 or read-2 row fills only its own slot of its own sample; the key set, fastq entry and statistics stay |
| ParseFolder.QualityLinesLastWins | demux_sapio_watcher/bclconvert/parse_folder.py:66-87 | after a quality report that does not abort, each read slot of a sample holds its last row's metrics, or is untouched without rows; keys, fastq entries and statistics are unchanged |
| ParseFolder.QualityLinesKeepOrder | demux_sapio_watcher/bclconvert/parse_folder.py:80-87 | a quality report never adds or moves a sample in the insertion order |
| ParseFolder.PutKeepsInv | demux_sapio_watcher/bclconvert/parse_folder.py:41 | storing a fragment that belongs to its key keeps every fragment tied to its key |
| ParseFolder.FastqStepKeepsInv | demux_sapio_watcher/bclconvert/parse_folder.py:33-41 | a fastq-list row keeps every fragment tied to its key |
| ParseFolder.DemuxStepKeepsInv | demux_sapio_watcher/bclconvert/parse_folder.py:56-64 | a statistics row keeps every fragment tied to its key |
| ParseFolder.QualityStepKeepsInv | demux_sapio_watcher/bclconvert/parse_folder.py:80-87 | a quality row keeps every fragment tied to its key |
| ParseFolder.ApplyKeepsInv | demux_sapio_watcher/bclconvert/parse_folder.py:23-87 | every kind of row keeps every fragment tied to its key |
| ParseFolder.FoldLinesKeepsInv | demux_sapio_watcher/bclconvert/parse_folder.py:26-41 | the data lines of a report keep every fragment tied to its key |
| ParseFolder.FoldFilesKeepsInv | demux_sapio_watcher/bclconvert/parse_folder.py:23-87 | the report files of one kind keep every fragment tied to its key |
| ParseFolder.Emit | demux_sapio_watcher/bclconvert/parse_folder.py:89-94 | every emitted record is valid, and there is at most one per key |
| ParseFolder.EmitMembers | demux_sapio_watcher/bclconvert/parse_folder.py:89-94 | a record is emitted exactly when some key's fragment combines into it |
| ParseFolder.EmitFollowsKeys | demux_sapio_watcher/bclconvert/parse_folder.py:89-94 | each record's sample id is its key, so records have distinct sample ids |
| ParseFolder.EmitAppend | demux_sapio_watcher/bclconvert/parse_folder.py:89-94 | emitting two key runs one after the other gives the records of the first run followed by those of the second |
| ParseFolder.EmitAt | demux_sapio_watcher/bclconvert/parse_folder.py:89-94 | a key whose fragment validates yields its record right after the records of the keys before it |
| ParseFolder.EmitAllCombine | demux_sapio_watcher/bclconvert/parse_folder.py:89-94 | when every fragment validates, there is one record per key, in key order |
| ParseFolder.JoinReports | demux_sapio_watcher/bclconvert/parse_folder.py:21-87 | the joined table keeps each fragment under its own sample id, with read metrics in their read's slot and fastq entries from the folder's lists |
| ParseFolder.ParseBclconvertFolder | demux_sapio_watcher/bclconvert/parse_folder.py:17-94 | the run fails exactly when joining the reports fails, and otherwise yields the validating fragments of the joined table in insertion order; every record is valid, comes from one of the folder's fastq lists, and no two share a sample id |
| ParseFolder.SampleRecordAtInsertion | demux_sapio_watcher/bclconvert/parse_folder.py:89-94 | a sample whose joined fragment validates yields exactly one record, placed after the records of the samples inserted before it |
| ParseFolder.EverySampleEmitted | demux_sapio_watcher/bclconvert/parse_folder.py:89-94 | when every joined fragment validates, the run yields one record per sample, in first-insertion order |
| Uuids.FindUuidFrom | demux_sapio_watcher/sapio_types.py:9-11 | the result is the leftmost UUID-shaped position at or after the start, or none exists |
| Uuids.SearchUuid | demux_sapio_watcher/sapio_types.py:152-156 | the match is the leftmost UUID-shaped substring, and there is none exactly when no position matches |
| Uuids.CanonicalUuid | demux_sapio_watcher/sapio_types.py:36-40 | the canonical text of a UUID is still UUID-shaped |
| Uuids.CanonicalUuidStable | demux_sapio_watcher/sapio_types.py:36-40 | canonical text is stable, and searching it finds it whole |
| SapioTypes.EmptyStringToNone | demux_sapio_watcher/sapio_types.py:94-104 | an absent or empty path is `None`; a path value is kept |
| SapioTypes.PathTextRoundTrip | demux_sapio_watcher/sapio_types.py:94-104 | the text of a well-formed path is read back as that path |
| SapioTypes.DataReadPasses | demux_sapio_watcher/sapio_types.py:106-114 | 2 when R1 and R2 are set, 1 when only R1 is, none without R1 |
| SapioTypes.OraCompressionEnabled | demux_sapio_watcher/sapio_types.py:116-123 | none without R1; otherwise whether `.ora` occurs in the R1 file name |
| SapioTypes.DigitRunEnd | demux_sapio_watcher/sapio_types.py:131 | `\d+` takes the longest run of digits |
| SapioTypes.PositionFrom | demux_sapio_watcher/sapio_types.py:131-135 | the search finds the leftmost `_S<digits>_` token, or there is none |
| SapioTypes.PositionInName | demux_sapio_watcher/sapio_types.py:131-135 | the position is that of the leftmost `_S<digits>_` token, and none without one |
| SapioTypes.SampleSheetPosition | demux_sapio_watcher/sapio_types.py:125-135 | none without R1; otherwise the position in the R1 file name |
| SapioTypes.PositionOfBclConvertName | demux_sapio_watcher/sapio_types.py:125-135 | a name `<sample>_S<n>_<rest>` gives position `n` whenever the sample part has no newline and no `_S` followed by a digit; underscores elsewhere in it are allowed |
| SapioTypes.PositionOfUnderscoredSampleName | demux_sapio_watcher/sapio_types.py:125-135 | `Sample_1_S1_L001_R1_001.fastq.gz` gives position 1 |
| SapioTypes.DigitRunExact | demux_sapio_watcher/sapio_types.py:131 | a run of digits followed by a non-digit ends there |
| SapioTypes.PositionFromSkips | demux_sapio_watcher/sapio_types.py:131 | the search passes over positions without a token |
| SapioTypes.OnboardAnalysisType | demux_sapio_watcher/sapio_types.py:137-148 | `DragenGermline` is tested before `BCLConvert` on the R1 path text, and none without R1 or either |
| SapioTypes.SyntheticRead2 | demux_sapio_watcher/sapio_types.py:158-165 | the stand-in read 2 is read number 2 with zero yield, zero Q30 yield and zero score sum |
| SapioTypes.FromBclconvert | demux_sapio_watcher/sapio_types.py:150-193 | mapping fails exactly without a UUID or with zero total yield; the copied fields hold their sources |
| SapioTypes.PairedEndMetrics | demux_sapio_watcher/sapio_types.py:187-192 | with read 2, yield, Q30 and mean score pool both reads |
| SapioTypes.SingleEndMetrics | demux_sapio_watcher/sapio_types.py:158-192 | without read 2, the metrics are those of read 1 alone |
| SapioTypes.ZeroYieldRejected | demux_sapio_watcher/sapio_types.py:187-192 | zero total yield is a division error |
| SapioTypes.RatioPercent | demux_sapio_watcher/sapio_types.py:188-190 | a part of a positive whole is between 0 and 100 percent of it |
| SapioTypes.Q30PercentIsPercentage | demux_sapio_watcher/sapio_types.py:188-190 | with Q30 yields within yields, the Q30 percentage is between 0 and 100 |
| SapioTypes.DumpFieldsKeys | demux_sapio_watcher/sapio_types.py:26-28 | the dumped fields are every alias except `RecordId` |
| SapioTypes.UpdatePayload | demux_sapio_watcher/sapio_types.py:21-31 | the payload names the class, carries the record id outside the fields, includes the computed fields, and passes the flags |
| SapioTypes.DefaultPayload | demux_sapio_watcher/sapio_types.py:21 | both flags default to false, and the fields do not depend on them |
| SapioTypes.PathJsonRoundTrip | demux_sapio_watcher/sapio_types.py:41-52 | a dumped path reads back as that path |
| SapioTypes.StoredFieldsDumped | demux_sapio_watcher/sapio_types.py:26-28 | every stored field is present in the dump |
| SapioTypes.IdentityReadBack | demux_sapio_watcher/sapio_types.py:36-63 | the GUID, availability flag, sample name and read count read back from the dump |
| SapioTypes.ReadPathsReadBack | demux_sapio_watcher/sapio_types.py:41-46 | the R1 and R2 paths read back from the dump |
| SapioTypes.IndexPathsReadBack | demux_sapio_watcher/sapio_types.py:47-52 | the I1 and I2 paths read back from the dump |
| SapioTypes.IndexMetricsReadBack | demux_sapio_watcher/sapio_types.py:65-77 | the three demultiplexing percentages read back from the dump |
| SapioTypes.YieldMetricsReadBack | demux_sapio_watcher/sapio_types.py:79-92 | yield, Q30 percentage and mean score read back from the dump |
| SapioTypes.ReadBack | demux_sapio_watcher/sapio_types.py:21-31 | the record id and dumped fields determine the record |
| SapioTypes.PayloadRoundTrip | demux_sapio_watcher/sapio_types.py:21-31 | reading a payload back gives the original record, whatever the flags |
| FastqPairs.Candidates | fastq_watcher/cli.py:45-47 | the candidates are the matches of all patterns |
| FastqPairs.CandidatesAppend | fastq_watcher/cli.py:45-47 | the candidates of two pattern lists are those of the first followed by those of the second, so matches keep pattern order |
| FastqPairs.CandidatesSingle | fastq_watcher/cli.py:45-47 | one pattern's candidates are exactly its matches, in their order |
| FastqPairs.PairOf | fastq_watcher/cli.py:50-63 | a candidate binds exactly when its name ends in `_R1.fastq`, the `_R2.fastq` partner of the same prefix exists and the prefix holds a UUID; the key is the canonical first UUID of the prefix and the two resolved paths |
| FastqPairs.UuidFreePrefixSkipped | fastq_watcher/cli.py:58-60 | a candidate whose prefix has no UUID-shaped text at any position binds nothing |
| FastqPairs.PairUuidIsLeftmost | fastq_watcher/cli.py:58-61 | the key's UUID is the lower-cased UUID at the first position of the prefix that holds one |
| FastqPairs.PairNeedsPartner | fastq_watcher/cli.py:55-57 | a candidate binds only when its `_R2.fastq` partner exists beside it |
| FastqPairs.Bindings | fastq_watcher/cli.py:50-64 | each candidate's binding, in candidate order |
| FastqPairs.BindingsMembers | fastq_watcher/cli.py:50-64 | a key is bound exactly when some candidate binds it |
| FastqPairs.LastBound | fastq_watcher/cli.py:61-68 | no value is left bound exactly when no candidate binds; otherwise the value comes from a candidate |
| FastqPairs.LastBoundIsLast | fastq_watcher/cli.py:61-68 | the value left bound is that of the last candidate that binds |
| FastqPairs.FindFastqPairsAsWritten | fastq_watcher/cli.py:39-68 | as written: one tuple from some candidate, or an error exactly when no candidate binds |
| FastqPairs.NewPairs | fastq_watcher/cli.py:64-67 | yielded keys are distinct and were not seen before |
| FastqPairs.NewPairsMembers | fastq_watcher/cli.py:64-67 | exactly the bound keys not seen before are yielded |
| FastqPairs.NewPairsAppend | fastq_watcher/cli.py:64-67 | the corrected loop over two candidate runs yields the first run's new pairs, then the second run's pairs not yet seen, so pairs come out in the order of their first binding candidate |
| FastqPairs.BindingsAppend | fastq_watcher/cli.py:45-63 | the bindings of concatenated candidates are the bindings of each part in turn |
| FastqPairs.FindFastqPairs | fastq_watcher/cli.py:39-44 | corrected: every discovered pair exactly once |
| FastqPairs.FindFastqPairsAppend | fastq_watcher/cli.py:39-67 | corrected: pairs found through earlier patterns come first, and a later pattern adds only pairs not yet found, in its candidate order |
| FastqPairs.TwoKeysTwoPairs | fastq_watcher/cli.py:64-68 | two different bound keys give two yielded pairs |
| FastqPairs.AsWrittenLosesPairs | fastq_watcher/cli.py:68 | two different pairs are found, but the code as written yields one |
| FastqPairs.AsWrittenFailsWithoutPairs | fastq_watcher/cli.py:68 | with no complete pair, the corrected finder yields nothing and the code as written fails |

## Left out

- The HTTP and LIMS clients, the command-line entry points and logging are
  left out. They are network I/O, argument parsing and side effects.
- `src/sapio_types.py` is not part of this model. It is a schema whose only
  method wraps `model_dump` in a dict literal.
- Floating-point arithmetic is left out. Float columns and derived metrics
  are exact `real`s, so IEEE-754 rounding and number formatting are not
  modelled.
- Pydantic's lax coercion is modelled only in part. Integer text is an
  optional sign and digits. Float text is an optional sign, digits and an
  optional fraction. Other forms pydantic also accepts are not modelled:
  integer text with an all-zero fraction such as `12.0`, exponents, `inf`,
  `nan`, whitespace and underscores. `Text.ParseInt` is this model's
  reading rule, not pydantic's full one.
- Symlinks are left out. `Path.resolve` is a lexical join with the working
  directory plus `..` collapsing.
- The file system is a parameter. File contents arrive as lines with the
  newline already removed.
- Glob expansion in `find_fastq_pairs` is a parameter: the matches of each
  pattern, in pattern order. `recursive=True` and glob ordering are left to
  the caller.
- `fnmatch` is POSIX-only. `os.path.normcase` is the identity there, so
  case folding is not modelled.
- In `SapioTypes`, `\d` in the sample-sheet regex is ASCII digits only. Python's
  `\d` also matches other Unicode decimal digits, which are not modelled.
- The frozen `BCLConvertFolder` is an immutable datatype. Frozenness holds
  by construction, so no lemma states it.
- The `UUID` type is its canonical lower-case text. Parsing other UUID
  spellings is not modelled.
- The legacy `FastqListEntry` (src/bclconvert/models.py:40-69) differs from
  the current one only in naming its list-file field `filename`. It is
  modelled by `Models.MakeFastqListEntry`.
- ParseFolder.ParseBclconvertFolder: there is no end-to-end lemma from
  concrete report files to records. The end-to-end test scenarios (N
  samples giving N records, single-end input, a deleted read-1 file) are
  covered only in parts: the per-report last-wins lemmas, the joined-table
  lemmas `ParseFolder.SampleRecordAtInsertion` and
  `ParseFolder.EverySampleEmitted`, and `Models.MissingRead1Rejected`.
  That every sample of a well-formed folder reaches the joined table with a
  validating fragment is not proved.
- Directory entry names are assumed well formed. Names such as `""`, `.`,
  `..` or names containing `/`, and two entries of one name in a directory,
  are not excluded by the file-system model and are not modelled.
- Models.MakeBclConvertFolder: pydantic reports one error per failing
  element, with its index, location and error type. The model reports one
  message per failing field, in its own wording, joined by newlines.
- Paths.Parse: a leading `//` is folded into `/`, while `PurePosixPath`
  keeps exactly two leading slashes as a distinct root.
- Completion marker files are not modelled, because the scan never reads
  them (demux_sapio_watcher/bclconvert/find_folders.py:21-76 looks only at
  directory names). The tests create `CopyComplete.txt`
  (tests/test_find_bclconvert_folders.py:21,64), and the test data generator
  writes `FastqComplete.txt` (tests/data_generation.py:72).
- `find_bclconvert_folders` takes no `include_patterns` argument
  (demux_sapio_watcher/bclconvert/find_folders.py:56-58), but
  demux_sapio_watcher/cli.py:113-117 passes one. That call would raise
  `TypeError`. The model follows find_folders.py: the include pattern is
  always `BCLConvert`.

Behaviour of the code that the model keeps and a reader might not expect:
- Include and exclude patterns are tested against a child directory's own
  name (demux_sapio_watcher/bclconvert/find_folders.py:34-46), not its path
  relative to the root.
- `from_path` keeps every candidate location that is a regular file
  (demux_sapio_watcher/bclconvert/models.py:67-73), so one report kind can
  have several paths.
- The folders found under several roots form a set of resolved paths
  (demux_sapio_watcher/bclconvert/find_folders.py:68-76), so a folder found
  twice appears once.
- A zero total yield raises `ZeroDivisionError`
  (demux_sapio_watcher/sapio_types.py:187-192).
- A quality row for a sample with no fragment raises `KeyError` and ends the
  run (demux_sapio_watcher/bclconvert/parse_folder.py:80-87).
- A completely empty report file, with no header line, makes `next(f)` fail
  and ends the run (demux_sapio_watcher/bclconvert/parse_folder.py:25,45,68).
  A header-only file yields no rows.

## Findings

| source | as written | input that shows it | evidently intended | confidence | as-written member | corrected member |
|---|---|---|---|---|---|---|
| fastq_watcher/cli.py:68 | the `yield` sits after the loop, so the generator yields at most the values bound by the last candidate that binds, and raises `UnboundLocalError` when none binds | two candidates `a_<uuid1>_R1.fastq` and `b_<uuid2>_R1.fastq`, each with its `_R2.fastq` partner, give one tuple instead of two; no candidate with a partner gives an error instead of nothing | a `yield` inside the loop for every new `(uuid, r1, r2)` key, as the docstring says | not executed | FastqPairs.FindFastqPairsAsWritten | FastqPairs.FindFastqPairs |

=== FILE: fastq_pairs.dfy ===
/** The FASTQ pair finder of the standalone watcher: candidate files come
    from glob patterns, an `_R1.fastq` file is paired with the `_R2.fastq`
    file of the same prefix in its directory, and the prefix must carry a
    UUID. The glob expansion itself is filesystem I/O and arrives as a
    parameter: the list of matches of each pattern, in pattern order. */
module FastqPairs {
  import opened Wrappers
  import opened Text
  import opened Paths
  import opened FileSystem
  import opened Uuids

  /** `(uuid, r1_abs, r2_abs)`; the UUID in its canonical text form. */
  datatype FastqPair = FastqPair(uuid: string, r1: string, r2: string)

  const R1Suffix: string := "_R1.fastq"
  const R2Suffix: string := "_R2.fastq"

  /** `r1_files`: the matches of every pattern, concatenated in pattern order. */
  function Candidates(matches: seq<seq<string>>): (r: seq<string>)
    ensures forall s :: s in r <==> exists i :: 0 <= i < |matches| && s in matches[i]
  {
    if matches == [] then []
    else
      var rest := Candidates(matches[1..]);
      assert forall i :: 1 <= i < |matches| ==> matches[i] == matches[1..][i - 1];
      matches[0] + rest
  }

  /** The candidates of a pattern list are those of its first part followed
      by those of the rest, repeats kept: `extend` in pattern order. */
  lemma {:induction false} CandidatesAppend(a: seq<seq<string>>, b: seq<seq<string>>)
    ensures Candidates(a + b) == Candidates(a) + Candidates(b)
  {
    if a == [] {
      assert a + b == b;
    } else {
      assert (a + b)[0] == a[0] && (a + b)[1..] == a[1..] + b;
      CandidatesAppend(a[1..], b);
    }
  }

  /** One pattern's candidates are exactly its matches, in glob order. */
  lemma CandidatesSingle(m: seq<string>)
    ensures Candidates([m]) == m
  {
    assert [m][1..] == [];
  }

  /** What one candidate binds at its `key`, or `None` when the loop moves on
      before that: the name does not end in `_R1.fastq`, the read-2 partner
      does not exist, or the prefix holds no UUID. */
  function PairOf(fs: FS, pathText: string): (r: Option<FastqPair>)
    ensures r.Some? ==> EndsWith(Name(Parse(pathText)), R1Suffix)
    ensures r.Some? ==> UuidShaped(r.value.uuid)
    ensures var p := Parse(pathText);
            var name := Name(p);
            r.Some? <==>
              && EndsWith(name, R1Suffix)
              && Exists(fs, WithName(p, name[..|name| - |R1Suffix|] + R2Suffix))
              && SearchUuid(name[..|name| - |R1Suffix|]).Some?
    ensures r.Some? ==>
              var p := Parse(pathText);
              var name := Name(p);
              var prefix := name[..|name| - |R1Suffix|];
              && r.value.uuid == CanonicalUuid(SearchUuid(prefix).value)
              && r.value.r1 == ToString(Resolve(fs.cwd, p))
              && r.value.r2 == ToString(Resolve(fs.cwd, WithName(p, prefix + R2Suffix)))
  {
    var p := Parse(pathText);
    var name := Name(p);
    if !EndsWith(name, R1Suffix) then None
    else
      var prefix := name[..|name| - |R1Suffix|];
      var r2 := WithName(p, prefix + R2Suffix);
      if !Exists(fs, r2) then None
      else match SearchUuid(prefix)
        case None => None
        case Some(m) =>
          Some(FastqPair(CanonicalUuid(m), ToString(Resolve(fs.cwd, p)), ToString(Resolve(fs.cwd, r2))))
  }

  /** The name of an `_R1.fastq` file without that suffix. */
  function R1Prefix(name: string): string
    requires EndsWith(name, R1Suffix)
  {
    name[..|name| - |R1Suffix|]
  }

  /** A candidate whose prefix holds no UUID binds nothing, even with its
      partner present. */
  lemma UuidFreePrefixSkipped(fs: FS, pathText: string)
    requires EndsWith(Name(Parse(pathText)), R1Suffix)
    requires forall k :: 0 <= k <= |R1Prefix(Name(Parse(pathText)))| ==> !UuidAt(R1Prefix(Name(Parse(pathText))), k)
    ensures PairOf(fs, pathText).None?
  {
    var name := Name(Parse(pathText));
    var prefix := R1Prefix(name);
    assert SearchUuid(prefix).None?;
    assert prefix == name[..|name| - |R1Suffix|];
  }

  /** The key's UUID is the first UUID-shaped text of the prefix, in lower
      case: text before it holds none. */
  lemma PairUuidIsLeftmost(fs: FS, pathText: string)
    requires PairOf(fs, pathText).Some?
    ensures var name := Name(Parse(pathText));
            var prefix := name[..|name| - |R1Suffix|];
            exists k :: 0 <= k <= |prefix| && UuidAt(prefix, k)
              && PairOf(fs, pathText).value.uuid == CanonicalUuid(prefix[k..k + 36])
              && forall j :: 0 <= j < k ==> !UuidAt(prefix, j)
  {
  }

  /** A pair is only reported when the read-2 partner exists. */
  lemma PairNeedsPartner(fs: FS, pathText: string)
    requires PairOf(fs, pathText).Some?
    ensures var p := Parse(pathText);
            var name := Name(p);
            |p.parts| > 0 &&
            Exists(fs, WithName(p, name[..|name| - |R1Suffix|] + R2Suffix))
  {
  }

  /** What each candidate binds, in candidate order. */
  function Bindings(fs: FS, cands: seq<string>): (r: seq<Option<FastqPair>>)
    ensures |r| == |cands|
    ensures forall i :: 0 <= i < |cands| ==> r[i] == PairOf(fs, cands[i])
  {
    if cands == [] then []
    else [PairOf(fs, cands[0])] + Bindings(fs, cands[1..])
  }

  /** A key is bound exactly when some candidate string binds it. */
  lemma BindingsMembers(fs: FS, cands: seq<string>, t: FastqPair)
    ensures Some(t) in Bindings(fs, cands) <==> exists s :: s in cands && PairOf(fs, s) == Some(t)
  {
    var bs := Bindings(fs, cands);
    if Some(t) in bs {
      var i :| 0 <= i < |bs| && bs[i] == Some(t);
      assert cands[i] in cands;
    }
    if exists s :: s in cands && PairOf(fs, s) == Some(t) {
      var s :| s in cands && PairOf(fs, s) == Some(t);
      var i :| 0 <= i < |cands| && cands[i] == s;
      assert bs[i] == Some(t);
    }
  }

  /** No candidate binds anything. */
  predicate NoneBound(bs: seq<Option<FastqPair>>)
  {
    forall i :: 0 <= i < |bs| ==> bs[i].None?
  }

  // ------------------------------------------------------------- as written

  /** The values bound by the last candidate that reached the binding lines. */
  function LastBound(bs: seq<Option<FastqPair>>): (r: Option<FastqPair>)
    ensures r.None? <==> NoneBound(bs)
    ensures r.Some? ==> r in bs
  {
    if bs == [] then None
    else
      var rest := LastBound(bs[1..]);
      assert forall i :: 1 <= i < |bs| ==> bs[i] == bs[1..][i - 1];
      if rest.Some? then rest else bs[0]
  }

  /** The bound values are those of the last candidate that binds: no
      candidate after it binds anything. */
  lemma {:induction false} LastBoundIsLast(bs: seq<Option<FastqPair>>, i: nat)
    requires i < |bs| && bs[i].Some?
    requires NoneBound(bs[i + 1..])
    ensures LastBound(bs) == bs[i]
  {
    if i == 0 {
      assert bs[1..] == bs[i + 1..];
    } else {
      assert bs[1..][i - 1] == bs[i];
      assert bs[1..][i - 1 + 1..] == bs[i + 1..];
      LastBoundIsLast(bs[1..], i - 1);
    }
  }

  /** `find_fastq_pairs` as written: the `yield` sits after the loop, so the
      generator yields once, with whatever the last binding candidate left
      behind, and raises `UnboundLocalError` when no candidate bound
      anything. The seen-set check never changes the outcome. */
  function FindFastqPairsAsWritten(fs: FS, matches: seq<seq<string>>): (r: Result<seq<FastqPair>>)
    ensures r.Ok? ==> |r.value| == 1 && Some(r.value[0]) in Bindings(fs, Candidates(matches))
    ensures r.Err? <==> NoneBound(Bindings(fs, Candidates(matches)))
  {
    match LastBound(Bindings(fs, Candidates(matches)))
      case None => Err("UnboundLocalError: cannot access local variable 'uuid'")
      case Some(t) => Ok([t])
  }

  // -------------------------------------------------------------- corrected

  /** The loop with the `yield` inside it: each new key is yielded once, in
      candidate order. */
  function NewPairs(bs: seq<Option<FastqPair>>, seen: set<FastqPair>): (r: seq<FastqPair>)
    ensures forall i :: 0 <= i < |r| ==> r[i] !in seen
    ensures forall i, j :: 0 <= i < j < |r| ==> r[i] != r[j]
    ensures NoneBound(bs) ==> r == []
  {
    if bs == [] then []
    else match bs[0]
      case None => NewPairs(bs[1..], seen)
      case Some(t) =>
        if t in seen then NewPairs(bs[1..], seen)
        else [t] + NewPairs(bs[1..], seen + {t})
  }

  /** Exactly the bound keys not seen before are yielded. */
  lemma {:induction false} NewPairsMembers(bs: seq<Option<FastqPair>>, seen: set<FastqPair>, t: FastqPair)
    ensures t in NewPairs(bs, seen) <==> t !in seen && Some(t) in bs
  {
    if bs != [] {
      assert bs == [bs[0]] + bs[1..];
      match bs[0] {
        case None =>
          NewPairsMembers(bs[1..], seen, t);
        case Some(u) =>
          if u in seen {
            NewPairsMembers(bs[1..], seen, t);
          } else {
            NewPairsMembers(bs[1..], seen + {u}, t);
          }
      }
    }
  }

  /** The pairs a sequence holds, as a set. */
  function Elems(r: seq<FastqPair>): set<FastqPair>
  {
    set t | t in r
  }

  /** The loop over a concatenation is the loop over the first part, then
      the loop over the second part with everything yielded so far seen:
      pairs come out in the order of the candidate that first binds them. */
  lemma {:induction false} NewPairsAppend(a: seq<Option<FastqPair>>, b: seq<Option<FastqPair>>,
                                          seen: set<FastqPair>)
    ensures NewPairs(a + b, seen) == NewPairs(a, seen) + NewPairs(b, seen + Elems(NewPairs(a, seen)))
  {
    if a == [] {
      assert a + b == b;
      assert seen + Elems([]) == seen;
    } else {
      assert (a + b)[0] == a[0] && (a + b)[1..] == a[1..] + b;
      match a[0] {
        case None =>
          NewPairsAppend(a[1..], b, seen);
        case Some(t) =>
          if t in seen {
            NewPairsAppend(a[1..], b, seen);
          } else {
            NewPairsAppend(a[1..], b, seen + {t});
            var rest := NewPairs(a[1..], seen + {t});
            assert Elems([t] + rest) == {t} + Elems(rest);
            assert seen + {t} + Elems(rest) == seen + Elems([t] + rest);
          }
      }
    }
  }

  lemma BindingsAppend(fs: FS, a: seq<string>, b: seq<string>)
    ensures Bindings(fs, a + b) == Bindings(fs, a) + Bindings(fs, b)
  {
  }

  /** `find_fastq_pairs` with the `yield` inside the loop, as its docstring
      describes: every discovered pair, each once, in candidate order. */
  function FindFastqPairs(fs: FS, matches: seq<seq<string>>): (r: seq<FastqPair>)
    ensures forall i, j :: 0 <= i < j < |r| ==> r[i] != r[j]
    ensures forall t :: t in r <==> exists s :: s in Candidates(matches) && PairOf(fs, s) == Some(t)
  {
    var cands := Candidates(matches);
    var bs := Bindings(fs, cands);
    var r := NewPairs(bs, {});
    forall t ensures t in r <==> exists s :: s in cands && PairOf(fs, s) == Some(t) {
      NewPairsMembers(bs, {}, t);
      BindingsMembers(fs, cands, t);
    }
    r
  }

  /** Pairs found through earlier patterns come first, in their own order;
      a later pattern only adds the pairs not found yet, in its candidate
      order. */
  lemma FindFastqPairsAppend(fs: FS, m1: seq<seq<string>>, m2: seq<seq<string>>)
    ensures FindFastqPairs(fs, m1 + m2) ==
            FindFastqPairs(fs, m1) + NewPairs(Bindings(fs, Candidates(m2)), Elems(FindFastqPairs(fs, m1)))
  {
    var c1, c2 := Candidates(m1), Candidates(m2);
    CandidatesAppend(m1, m2);
    BindingsAppend(fs, c1, c2);
    NewPairsAppend(Bindings(fs, c1), Bindings(fs, c2), {});
    assert {} + Elems(NewPairs(Bindings(fs, c1), {})) == Elems(NewPairs(Bindings(fs, c1), {}));
  }

  /** Two different bound keys give two yielded pairs, and the last binding
      is set. */
  lemma TwoKeysTwoPairs(bs: seq<Option<FastqPair>>, x: FastqPair, y: FastqPair)
    requires Some(x) in bs && Some(y) in bs && x != y
    ensures |NewPairs(bs, {})| >= 2
    ensures LastBound(bs).Some?
  {
    NewPairsMembers(bs, {}, x);
    NewPairsMembers(bs, {}, y);
    var r := NewPairs(bs, {});
    var i :| 0 <= i < |r| && r[i] == x;
    var j :| 0 <= j < |r| && r[j] == y;
    assert i != j;
  }

  /** The discrepancy: two candidates that bind different keys give two
      pairs, but the code as written yields only one of them. */
  lemma AsWrittenLosesPairs(fs: FS, matches: seq<seq<string>>, a: string, b: string)
    requires a in Candidates(matches) && b in Candidates(matches)
    requires PairOf(fs, a).Some? && PairOf(fs, b).Some? && PairOf(fs, a) != PairOf(fs, b)
    ensures |FindFastqPairs(fs, matches)| >= 2
    ensures FindFastqPairsAsWritten(fs, matches).Ok?
    ensures |FindFastqPairsAsWritten(fs, matches).value| == 1
  {
    var cands := Candidates(matches);
    var ta, tb := PairOf(fs, a).value, PairOf(fs, b).value;
    BindingsMembers(fs, cands, ta);
    BindingsMembers(fs, cands, tb);
    TwoKeysTwoPairs(Bindings(fs, cands), ta, tb);
  }

  /** The other half of the discrepancy: with no complete pair at all the
      code as written fails instead of yielding nothing. */
  lemma AsWrittenFailsWithoutPairs(fs: FS, matches: seq<seq<string>>)
    requires forall s :: s in Candidates(matches) ==> PairOf(fs, s).None?
    ensures FindFastqPairs(fs, matches) == []
    ensures FindFastqPairsAsWritten(fs, matches).Err?
  {
    var cands := Candidates(matches);
    assert forall i :: 0 <= i < |cands| ==> cands[i] in cands;
    assert NoneBound(Bindings(fs, cands));
  }
}

=== FILE: filesystem.dfy ===
/** The file system as the program sees it: a tree of named directories and
    files (a file's contents are its lines) plus the working directory that
    relative paths are resolved against. `exists()`, `is_file()`, `is_dir()`
    and opening a file all look a path up lexically in this tree. */
module FileSystem {
  import opened Wrappers
  import opened Paths

  datatype Node = File(lines: seq<string>) | Dir(entries: seq<Entry>)

  datatype Entry = Entry(name: string, node: Node)

  /** `root` is the directory `/`; `cwd` is the working directory's segments. */
  datatype FS = FS(root: Node, cwd: seq<string>)

  /** The entry of a directory listing with the given name. */
  function Child(entries: seq<Entry>, name: string): (r: Option<Node>)
    ensures r.Some? <==> exists i :: 0 <= i < |entries| && entries[i].name == name
  {
    if entries == [] then None
    else if entries[0].name == name then Some(entries[0].node)
    else Child(entries[1..], name)
  }

  function LookupParts(node: Node, parts: seq<string>): Option<Node>
    decreases |parts|
  {
    if parts == [] then Some(node)
    else match node
      case File(_) => None
      case Dir(entries) =>
        match Child(entries, parts[0])
        case None => None
        case Some(n) => LookupParts(n, parts[1..])
  }

  function Lookup(fs: FS, p: Path): Option<Node>
  {
    LookupParts(fs.root, Resolve(fs.cwd, p).parts)
  }

  predicate Exists(fs: FS, p: Path)
  {
    Lookup(fs, p).Some?
  }

  predicate IsFile(fs: FS, p: Path)
  {
    Lookup(fs, p).Some? && Lookup(fs, p).value.File?
  }

  predicate IsDir(fs: FS, p: Path)
  {
    Lookup(fs, p).Some? && Lookup(fs, p).value.Dir?
  }

  /** Opening a path for reading: the lines of a regular file, an error for a
      directory or a missing path. */
  function ReadLines(fs: FS, p: Path): (r: Result<seq<string>>)
    ensures r.Ok? <==> IsFile(fs, p)
    ensures r.Ok? ==> r.value == Lookup(fs, p).value.lines
  {
    match Lookup(fs, p)
    case Some(File(lines)) => Ok(lines)
    case Some(Dir(_)) => Err("Is a directory")
    case None => Err("No such file or directory")
  }
}

=== FILE: find_folders.dfy ===
/** The recursive folder scan: every child directory's own name is tested
    against excludes globs (a match prunes it), then includes globs (a match is
    returned and not descended into); any other child directory is searched
    in turn. Files are ignored and the scanned root itself is never tested. */
module FindFolders {
  import opened Paths
  import opened Glob
  import opened FileSystem
  import opened Sorting

  /** What one directory entry contributes to the scan of its parent at
      `at` (the parent's resolved segments); a searched subdirectory's
      findings come back sorted, as the recursive call returns them. */
  function Found(e: Entry, at: seq<string>, includes: seq<string>, excludes: seq<string>): seq<Path>
    decreases e
  {
    match e.node
    case File(_) => []
    case Dir(sub) =>
      if AnyMatch(excludes, e.name) then []
      else if AnyMatch(includes, e.name) then [Path(true, at + [e.name])]
      else Sort(Collect(sub, at + [e.name], includes, excludes))
  }

  /** The loop over one directory listing, before the final sort. */
  function Collect(entries: seq<Entry>, at: seq<string>, includes: seq<string>, excludes: seq<string>): seq<Path>
    decreases entries
  {
    if entries == [] then []
    else Found(entries[0], at, includes, excludes) + Collect(entries[1..], at, includes, excludes)
  }

  /** Reference reading of the scan: `rel` (relative to a directory with
      listing `entries`) names a directory that the scan returns. Every
      segment of `rel` is a directory not matching an exclude pattern; the
      last matches an include pattern and none before it does. */
  ghost predicate Selected(entries: seq<Entry>, rel: seq<string>, includes: seq<string>, excludes: seq<string>)
    decreases |rel|, 1
  {
    exists i :: 0 <= i < |entries| && SelectedVia(entries[i], rel, includes, excludes)
  }

  ghost predicate SelectedVia(e: Entry, rel: seq<string>, includes: seq<string>, excludes: seq<string>)
    decreases |rel|, 0
  {
    && |rel| >= 1
    && e.name == rel[0]
    && e.node.Dir?
    && !AnyMatch(excludes, rel[0])
    && if |rel| == 1 then AnyMatch(includes, rel[0])
       else !AnyMatch(includes, rel[0]) && Selected(e.node.entries, rel[1..], includes, excludes)
  }

  /** `p` lies strictly below `at`, and `Below(p, at)` is its relative part. */
  predicate Under(p: Path, at: seq<string>)
  {
    p.absolute && |p.parts| > |at| && p.parts[..|at|] == at
  }

  function Below(p: Path, at: seq<string>): seq<string>
    requires Under(p, at)
  {
    p.parts[|at|..]
  }

  /** The scan returns exactly the selected directories. */
  lemma {:induction false} CollectSelects(entries: seq<Entry>, at: seq<string>, includes: seq<string>, excludes: seq<string>, p: Path)
    ensures p in Collect(entries, at, includes, excludes) <==>
            Under(p, at) && Selected(entries, Below(p, at), includes, excludes)
    decreases entries
  {
    if entries != [] {
      FoundSelects(entries[0], at, includes, excludes, p);
      CollectSelects(entries[1..], at, includes, excludes, p);
      SelectedSplit(entries, if Under(p, at) then Below(p, at) else [], includes, excludes);
    }
  }

  lemma {:induction false} FoundSelects(e: Entry, at: seq<string>, includes: seq<string>, excludes: seq<string>, p: Path)
    ensures p in Found(e, at, includes, excludes) <==>
            Under(p, at) && SelectedVia(e, Below(p, at), includes, excludes)
    decreases e
  {
    match e.node {
      case File(_) =>
      case Dir(sub) =>
        if AnyMatch(excludes, e.name) {
        } else if AnyMatch(includes, e.name) {
          FoundIncluded(e, at, includes, excludes, p);
        } else {
          var at' := at + [e.name];
          CollectSelects(sub, at', includes, excludes, p);
          SortKeepsMembers(Collect(sub, at', includes, excludes), p);
          DescendRelation(p, at, e.name);
        }
    }
  }

  lemma FoundIncluded(e: Entry, at: seq<string>, includes: seq<string>, excludes: seq<string>, p: Path)
    requires e.node.Dir? && !AnyMatch(excludes, e.name) && AnyMatch(includes, e.name)
    ensures p in Found(e, at, includes, excludes) <==>
            Under(p, at) && SelectedVia(e, Below(p, at), includes, excludes)
  {
    if p == Path(true, at + [e.name]) {
      assert Below(p, at) == [e.name];
    }
    if Under(p, at) && SelectedVia(e, Below(p, at), includes, excludes) {
      assert p.parts == p.parts[..|at|] + Below(p, at);
    }
  }

  /** Being below `at + [name]` is being below `at` with `name` first. */
  lemma DescendRelation(p: Path, at: seq<string>, name: string)
    ensures Under(p, at + [name]) <==>
            Under(p, at) && |Below(p, at)| > 1 && Below(p, at)[0] == name
    ensures Under(p, at + [name]) ==> Below(p, at + [name]) == Below(p, at)[1..]
  {
    var at' := at + [name];
    if Under(p, at') {
      assert p.parts[..|at|] == p.parts[..|at'|][..|at|];
    }
    if Under(p, at) && |Below(p, at)| > 1 && Below(p, at)[0] == name {
      assert p.parts[..|at'|] == p.parts[..|at|] + [p.parts[|at|]];
    }
  }

  lemma SelectedSplit(entries: seq<Entry>, rel: seq<string>, includes: seq<string>, excludes: seq<string>)
    requires entries != []
    ensures Selected(entries, rel, includes, excludes) <==>
            SelectedVia(entries[0], rel, includes, excludes) || Selected(entries[1..], rel, includes, excludes)
  {
    if Selected(entries, rel, includes, excludes) {
      var i :| 0 <= i < |entries| && SelectedVia(entries[i], rel, includes, excludes);
      if i > 0 {
        assert entries[1..][i - 1] == entries[i];
      }
    }
    if Selected(entries[1..], rel, includes, excludes) {
      var i :| 0 <= i < |entries[1..]| && SelectedVia(entries[1..][i], rel, includes, excludes);
      assert entries[i + 1] == entries[1..][i];
    }
  }

  /** The listing scanned for `root`, when it is a directory. */
  function RootEntries(fs: FS, root: Path): seq<Entry>
  {
    match Lookup(fs, root)
    case Some(Dir(entries)) => entries
    case _ => []
  }

  /** Python's `patterns or ["*"]`: a missing or empty includes list matches every name. */
  function DefaultIncludes(includes: seq<string>): (r: seq<string>)
    ensures |r| >= 1
    ensures includes != [] ==> r == includes
    ensures includes == [] ==> forall name :: AnyMatch(r, name)
  {
    if includes == [] then
      assert forall name :: AnyMatch(["*"], name) by {
        forall name ensures AnyMatch(["*"], name) {
          StarPatternMatchesAll(name);
          assert ["*"][0] == "*";
        }
      }
      ["*"]
    else includes
  }

  /** `filter_folders(root, includes, excludes)`; an empty list stands for `None`. */
  function FilterFolders(fs: FS, root: Path, includes: seq<string>, excludes: seq<string>): (r: seq<Path>)
    ensures !IsDir(fs, root) ==> r == []
    ensures Sorted(r)
    ensures forall p :: p in r <==>
              IsDir(fs, root) && Under(p, Resolve(fs.cwd, root).parts) &&
              Selected(RootEntries(fs, root), Below(p, Resolve(fs.cwd, root).parts), DefaultIncludes(includes), excludes)
  {
    match Lookup(fs, root)
    case Some(Dir(entries)) =>
      var at := Resolve(fs.cwd, root).parts;
      var found := Collect(entries, at, DefaultIncludes(includes), excludes);
      forall p ensures p in Sort(found) <==> Under(p, at) && Selected(entries, Below(p, at), DefaultIncludes(includes), excludes) {
        SortKeepsMembers(found, p);
        CollectSelects(entries, at, DefaultIncludes(includes), excludes, p);
      }
      Sort(found)
    case _ => []
  }

  lemma {:induction false} SelectedSegments(entries: seq<Entry>, rel: seq<string>, includes: seq<string>, excludes: seq<string>)
    requires Selected(entries, rel, includes, excludes)
    ensures |rel| >= 1
    ensures forall k :: 0 <= k < |rel| ==> !AnyMatch(excludes, rel[k])
    ensures forall k :: 0 <= k < |rel| - 1 ==> !AnyMatch(includes, rel[k])
    ensures AnyMatch(includes, rel[|rel| - 1])
    decreases |rel|
  {
    var i :| 0 <= i < |entries| && SelectedVia(entries[i], rel, includes, excludes);
    if |rel| > 1 {
      SelectedSegments(entries[i].node.entries, rel[1..], includes, excludes);
      assert forall k :: 1 <= k < |rel| ==> rel[k] == rel[1..][k - 1];
    }
  }

  /** Exclusion wins: no segment between the root and a returned folder,
      the folder included, matches an exclude pattern, so nothing at or
      under an excluded directory is returned. */
  lemma ExcludedNeverReturned(fs: FS, root: Path, includes: seq<string>, excludes: seq<string>, p: Path)
    requires p in FilterFolders(fs, root, includes, excludes)
    ensures var rel := Below(p, Resolve(fs.cwd, root).parts);
            forall k :: 0 <= k < |rel| ==> !AnyMatch(excludes, rel[k])
  {
    SelectedSegments(RootEntries(fs, root), Below(p, Resolve(fs.cwd, root).parts), DefaultIncludes(includes), excludes);
  }

  /** A returned folder's own name matches an include pattern. */
  lemma ReturnedNameIncluded(fs: FS, root: Path, includes: seq<string>, excludes: seq<string>, p: Path)
    requires p in FilterFolders(fs, root, includes, excludes)
    ensures AnyMatch(DefaultIncludes(includes), Name(p))
  {
    var at := Resolve(fs.cwd, root).parts;
    SelectedSegments(RootEntries(fs, root), Below(p, at), DefaultIncludes(includes), excludes);
    assert Below(p, at)[|Below(p, at)| - 1] == Name(p);
  }

  /** Matches are never nested: the search stops at a match, so no returned
      folder lies inside another returned folder. */
  lemma NoNestedMatches(fs: FS, root: Path, includes: seq<string>, excludes: seq<string>, p: Path, q: Path)
    requires p in FilterFolders(fs, root, includes, excludes)
    requires q in FilterFolders(fs, root, includes, excludes)
    ensures !(|p.parts| < |q.parts| && q.parts[..|p.parts|] == p.parts)
  {
    var at := Resolve(fs.cwd, root).parts;
    var es := RootEntries(fs, root);
    SelectedSegments(es, Below(p, at), DefaultIncludes(includes), excludes);
    SelectedSegments(es, Below(q, at), DefaultIncludes(includes), excludes);
    if |p.parts| < |q.parts| {
      var last := |p.parts| - 1;
      assert Below(p, at)[last - |at|] == p.parts[last];
      assert Below(q, at)[last - |at|] == q.parts[last];
      assert p.parts[last] != q.parts[last];
      assert q.parts[..|p.parts|][last] != p.parts[last];
    }
  }

  /** With no include patterns every non-excluded immediate subdirectory is
      returned and nothing deeper is. */
  lemma DefaultIncludesImmediateChildren(fs: FS, root: Path, excludes: seq<string>, p: Path)
    requires IsDir(fs, root)
    ensures p in FilterFolders(fs, root, [], excludes) <==>
            var at := Resolve(fs.cwd, root).parts;
            Under(p, at) && |p.parts| == |at| + 1 &&
            (exists i :: 0 <= i < |RootEntries(fs, root)| && RootEntries(fs, root)[i].name == Name(p) && RootEntries(fs, root)[i].node.Dir?) &&
            !AnyMatch(excludes, Name(p))
  {
    var at := Resolve(fs.cwd, root).parts;
    var es := RootEntries(fs, root);
    StarPatternMatchesAll(Name(p));
    assert Fnmatch(Name(p), ["*"][0]);
    if p in FilterFolders(fs, root, [], excludes) {
      SelectedSegments(es, Below(p, at), ["*"], excludes);
      StarPatternMatchesAll(Below(p, at)[0]);
      assert Fnmatch(Below(p, at)[0], ["*"][0]);
      assert |Below(p, at)| == 1;
      var i :| 0 <= i < |es| && SelectedVia(es[i], Below(p, at), ["*"], excludes);
      assert es[i].name == Name(p);
    }
    if Under(p, at) && |p.parts| == |at| + 1 &&
       (exists i :: 0 <= i < |es| && es[i].name == Name(p) && es[i].node.Dir?) && !AnyMatch(excludes, Name(p)) {
      var i :| 0 <= i < |es| && es[i].name == Name(p) && es[i].node.Dir?;
      assert Below(p, at) == [Name(p)];
      assert SelectedVia(es[i], Below(p, at), ["*"], excludes);
    }
  }

  /** The name every run-output folder is recognised by. */
  const BclConvertName: string := "BCLConvert"

  /** `find_bclconvert_folders(roots, excludes)`: the set union of the scans
      of each root with the include pattern fixed to `BCLConvert`. */
  function FindBclconvertFolders(fs: FS, roots: seq<Path>, excludes: seq<string>): (r: set<Path>)
    ensures forall p :: p in r <==>
              exists i :: 0 <= i < |roots| && p in FilterFolders(fs, roots[i], [BclConvertName], excludes)
  {
    if roots == [] then {}
    else
      var here := set p | p in FilterFolders(fs, roots[0], [BclConvertName], excludes);
      var rest := FindBclconvertFolders(fs, roots[1..], excludes);
      assert forall i :: 1 <= i < |roots| ==> roots[i] == roots[1..][i - 1];
      here + rest
  }

  /** Every folder found is named exactly `BCLConvert`, letter case included:
      `bclconvert` and `BclConvert` are never found. */
  lemma FoundFoldersNamedBclConvert(fs: FS, roots: seq<Path>, excludes: seq<string>, p: Path)
    requires p in FindBclconvertFolders(fs, roots, excludes)
    ensures Name(p) == BclConvertName
  {
    var i :| 0 <= i < |roots| && p in FilterFolders(fs, roots[i], [BclConvertName], excludes);
    FilteredNamedBclConvert(fs, roots[i], excludes, p);
  }

  lemma FilteredNamedBclConvert(fs: FS, root: Path, excludes: seq<string>, p: Path)
    requires p in FilterFolders(fs, root, [BclConvertName], excludes)
    ensures Name(p) == BclConvertName
  {
    ReturnedNameIncluded(fs, root, [BclConvertName], excludes, p);
    assert DefaultIncludes([BclConvertName]) == [BclConvertName];
    assert IsLiteral(BclConvertName);
    SinglePatternMatch(BclConvertName, Name(p));
  }

  lemma SinglePatternMatch(pat: string, name: string)
    requires AnyMatch([pat], name)
    requires IsLiteral(pat)
    ensures name == pat
  {
    assert Fnmatch(name, [pat][0]);
    LiteralMatchesOnlyItself(pat, name);
  }

  /** Scanning several roots is the union of scanning each part of the list:
      the order of roots does not matter, a folder reached from two roots
      is reported once, and a missing root contributes nothing. */
  lemma FindDistributes(fs: FS, a: seq<Path>, b: seq<Path>, excludes: seq<string>)
    ensures FindBclconvertFolders(fs, a + b, excludes) ==
            FindBclconvertFolders(fs, a, excludes) + FindBclconvertFolders(fs, b, excludes)
  {
    var ab := a + b;
    forall p | p in FindBclconvertFolders(fs, ab, excludes)
      ensures p in FindBclconvertFolders(fs, a, excludes) + FindBclconvertFolders(fs, b, excludes)
    {
      var i :| 0 <= i < |ab| && p in FilterFolders(fs, ab[i], [BclConvertName], excludes);
      if i >= |a| {
        assert ab[i] == b[i - |a|];
      }
    }
    forall p | p in FindBclconvertFolders(fs, b, excludes)
      ensures p in FindBclconvertFolders(fs, ab, excludes)
    {
      var i :| 0 <= i < |b| && p in FilterFolders(fs, b[i], [BclConvertName], excludes);
      assert ab[|a| + i] == b[i];
    }
    forall p | p in FindBclconvertFolders(fs, a, excludes)
      ensures p in FindBclconvertFolders(fs, ab, excludes)
    {
      var i :| 0 <= i < |a| && p in FilterFolders(fs, a[i], [BclConvertName], excludes);
      assert ab[i] == a[i];
    }
  }

  /** A root that is missing or not a directory adds nothing, and the other
      roots are still scanned. */
  lemma MissingRootContributesNothing(fs: FS, a: seq<Path>, root: Path, b: seq<Path>, excludes: seq<string>)
    requires !IsDir(fs, root)
    ensures FindBclconvertFolders(fs, a + [root] + b, excludes) ==
            FindBclconvertFolders(fs, a + b, excludes)
  {
    FindDistributes(fs, a + [root], b, excludes);
    FindDistributes(fs, a, [root], excludes);
    FindDistributes(fs, a, b, excludes);
    assert FindBclconvertFolders(fs, [root], excludes) == {};
  }
}

=== FILE: glob.dfy ===
/** Shell-style name matching as `fnmatch.fnmatch` does it on POSIX (no case
    folding): `*` matches any run of characters, `?` any one character,
    `[...]` a character class (`!` negates it, `a-z` is a range, a `]` right
    after the opening bracket is literal), an unclosed `[` is a literal
    bracket, and every other character matches itself. */
module Glob {

  datatype ClassItem = Single(c: char) | Range(lo: char, hi: char)

  datatype Token =
    | Star
    | AnyChar
    | Lit(c: char)
    | Class(negated: bool, items: seq<ClassItem>)

  predicate InItem(c: char, item: ClassItem)
  {
    match item
    case Single(d) => c == d
    case Range(lo, hi) => lo <= c <= hi
  }

  predicate InClass(c: char, negated: bool, items: seq<ClassItem>)
  {
    (exists i :: 0 <= i < |items| && InItem(c, items[i])) != negated
  }

  /** The items of a class body: `x-y` is a range when a character follows
      the hyphen, any other character stands for itself. */
  function ClassItems(body: string): seq<ClassItem>
  {
    if |body| >= 3 && body[1] == '-' then [Range(body[0], body[2])] + ClassItems(body[3..])
    else if body == [] then []
    else [Single(body[0])] + ClassItems(body[1..])
  }

  /** Index of the first `]` at or after `from`, or `|s|`. */
  function CloseIndex(s: string, from: nat): (j: nat)
    requires from <= |s|
    ensures from <= j <= |s|
    ensures j < |s| ==> s[j] == ']'
    decreases |s| - from
  {
    if from == |s| then from
    else if s[from] == ']' then from
    else CloseIndex(s, from + 1)
  }

  /** Where the body of a class opened by `pat[0] == '['` starts. */
  function BodyStart(pat: string): nat
    requires |pat| >= 1
  {
    if |pat| >= 2 && pat[1] == '!' then 2 else 1
  }

  /** Where the class opened by `pat[0] == '['` closes (`|pat|` if it does not). */
  function ClassEnd(pat: string): (j: nat)
    requires |pat| >= 1
    ensures j <= |pat|
  {
    var b := BodyStart(pat);
    if b < |pat| && pat[b] == ']' then CloseIndex(pat, b + 1) else if b <= |pat| then CloseIndex(pat, b) else |pat|
  }

  /** The token sequence of a pattern. */
  function Compile(pat: string): seq<Token>
  {
    if pat == [] then []
    else if pat[0] == '*' then [Star] + Compile(pat[1..])
    else if pat[0] == '?' then [AnyChar] + Compile(pat[1..])
    else if pat[0] == '[' then
      var j := ClassEnd(pat);
      if j == |pat| then [Lit('[')] + Compile(pat[1..])
      else
        var b := BodyStart(pat);
        [Class(b == 2, ClassItems(pat[b..j]))] + Compile(pat[j + 1..])
    else [Lit(pat[0])] + Compile(pat[1..])
  }

  /** Whether the whole of `s` is matched by `toks`. */
  predicate Matches(toks: seq<Token>, s: string)
    decreases |toks|, |s|
  {
    if toks == [] then s == []
    else match toks[0]
      case Star => Matches(toks[1..], s) || (s != [] && Matches(toks, s[1..]))
      case AnyChar => s != [] && Matches(toks[1..], s[1..])
      case Lit(c) => s != [] && s[0] == c && Matches(toks[1..], s[1..])
      case Class(neg, items) => s != [] && InClass(s[0], neg, items) && Matches(toks[1..], s[1..])
  }

  /** `fnmatch.fnmatch(name, pattern)`. */
  predicate Fnmatch(name: string, pattern: string)
  {
    Matches(Compile(pattern), name)
  }

  /** `any(fnmatch.fnmatch(name, p) for p in patterns)`. */
  predicate AnyMatch(patterns: seq<string>, name: string)
  {
    exists i :: 0 <= i < |patterns| && Fnmatch(name, patterns[i])
  }

  /** A pattern with no wildcard or class characters. */
  predicate IsLiteral(pat: string)
  {
    forall i :: 0 <= i < |pat| ==> pat[i] != '*' && pat[i] != '?' && pat[i] != '['
  }

  lemma {:induction false} LiteralTokens(pat: string)
    requires IsLiteral(pat)
    ensures |Compile(pat)| == |pat|
    ensures forall i :: 0 <= i < |pat| ==> Compile(pat)[i] == Lit(pat[i])
  {
    if pat != [] {
      LiteralTokens(pat[1..]);
    }
  }

  lemma {:induction false} LiteralMatches(toks: seq<Token>, pat: string, s: string)
    requires |toks| == |pat|
    requires forall i :: 0 <= i < |pat| ==> toks[i] == Lit(pat[i])
    ensures Matches(toks, s) <==> s == pat
  {
    if pat != [] {
      LiteralMatches(toks[1..], pat[1..], if s == [] then s else s[1..]);
      if s != [] && s[0] == pat[0] {
        assert s == [s[0]] + s[1..];
        assert pat == [pat[0]] + pat[1..];
      }
    }
  }

  /** A literal pattern matches exactly the name spelled the same way, case
      included. */
  lemma LiteralMatchesOnlyItself(pat: string, name: string)
    requires IsLiteral(pat)
    ensures Fnmatch(name, pat) <==> name == pat
  {
    LiteralTokens(pat);
    LiteralMatches(Compile(pat), pat, name);
  }

  lemma {:induction false} StarMatchesAll(s: string)
    ensures Matches([Star], s)
  {
    if s != [] {
      StarMatchesAll(s[1..]);
    }
  }

  /** The pattern `*` matches every name. */
  lemma StarPatternMatchesAll(name: string)
    ensures Fnmatch(name, "*")
  {
    assert Compile("*") == [Star];
    StarMatchesAll(name);
  }

  /** The pattern `?` matches exactly the one-character names. */
  lemma QuestionMatchesOneChar(name: string)
    ensures Fnmatch(name, "?") <==> |name| == 1
  {
    assert Compile("?") == [AnyChar];
    assert [AnyChar][1..] == [];
    if name != [] {
      assert Matches([AnyChar], name) == Matches([], name[1..]);
    }
  }

  /** `[!]...]`-style classes: a negated class rejects exactly the listed characters. */
  lemma NegatedClassMatches(c: char)
    ensures Fnmatch([c], "[!ab]") <==> c != 'a' && c != 'b'
  {
    assert ClassPattern(true, "ab") == "[!ab]";
    ClassPatternMatches(true, "ab", [c]);
    assert ClassItems("ab") == [Single('a'), Single('b')];
    assert [c][0] == c;
    var items := [Single('a'), Single('b')];
    if c == 'a' {
      assert InItem(c, items[0]);
    } else if c == 'b' {
      assert InItem(c, items[1]);
    }
  }

  /** `CloseIndex` finds the first `]` at or after where it starts. */
  lemma {:induction false} CloseIndexAt(s: string, from: nat, j: nat)
    requires from <= j < |s| && s[j] == ']'
    requires forall k :: from <= k < j ==> s[k] != ']'
    ensures CloseIndex(s, from) == j
    decreases j - from
  {
    if from < j {
      CloseIndexAt(s, from + 1, j);
    }
  }

  /** The pattern `[body]`, or `[!body]` when negated. */
  function ClassPattern(negated: bool, body: string): string
  {
    (if negated then "[!" else "[") + body + "]"
  }

  /** A class body that the closing bracket ends: non-empty, no `]` after its
      first character, and no leading `!` unless the class is negated. */
  predicate ClassBody(negated: bool, body: string)
  {
    |body| >= 1 && (!negated ==> body[0] != '!') && forall k :: 1 <= k < |body| ==> body[k] != ']'
  }

  /** A class pattern matches exactly the one-character names whose
      character is in one of its items, or in none of them when negated. */
  lemma ClassPatternMatches(negated: bool, body: string, name: string)
    requires ClassBody(negated, body)
    ensures Fnmatch(name, ClassPattern(negated, body)) <==>
            |name| == 1 && InClass(name[0], negated, ClassItems(body))
  {
    var pat := ClassPattern(negated, body);
    var b := if negated then 2 else 1;
    var j := |pat| - 1;
    assert BodyStart(pat) == b;
    assert pat[b..j] == body;
    assert forall k :: b + 1 <= k < j ==> pat[k] == body[k - b];
    if pat[b] == ']' {
      CloseIndexAt(pat, b + 1, j);
    } else {
      CloseIndexAt(pat, b, j);
    }
    assert ClassEnd(pat) == j;
    assert pat[j + 1..] == [];
    var toks := [Class(negated, ClassItems(body))];
    assert Compile(pat) == toks;
    assert toks[1..] == [];
    if name != [] {
      assert Matches(toks, name) == (InClass(name[0], negated, ClassItems(body)) && Matches([], name[1..]));
    }
  }

  /** A range class `[lo-hi]` matches exactly the characters from `lo` to
      `hi`, by code point. */
  lemma RangeClassMatches(lo: char, hi: char, c: char)
    requires lo != '!' && hi != ']'
    ensures Fnmatch([c], ClassPattern(false, [lo, '-', hi])) <==> lo <= c <= hi
  {
    var body := [lo, '-', hi];
    assert |body| >= 3 && body[1] == '-' && body[3..] == [];
    assert ClassItems(body[3..]) == [];
    var items := ClassItems(body);
    assert items == [Range(lo, hi)];
    ClassPatternMatches(false, body, [c]);
    assert [c][0] == c;
    if lo <= c <= hi {
      assert InItem(c, items[0]);
    }
  }

  /** `CloseIndex` runs off the end when no `]` is left. */
  lemma {:induction false} CloseIndexNone(s: string, from: nat)
    requires from <= |s|
    requires forall k :: from <= k < |s| ==> s[k] != ']'
    ensures CloseIndex(s, from) == |s|
    decreases |s| - from
  {
    if from < |s| {
      CloseIndexNone(s, from + 1);
    }
  }

  /** A `[` with no `]` anywhere after it opens no class: it is an ordinary
      character, and the rest of the pattern is read as usual. */
  lemma UnclosedBracketPrefix(rest: string, name: string)
    requires forall k :: 0 <= k < |rest| ==> rest[k] != ']'
    ensures Fnmatch(name, "[" + rest) <==> |name| >= 1 && name[0] == '[' && Fnmatch(name[1..], rest)
  {
  }

  /** An unclosed bracket is an ordinary character: `[` followed by text
      without wildcards or `]` matches exactly its own spelling. */
  lemma UnclosedBracketIsLiteral(rest: string, name: string)
    requires IsLiteral(rest)
    requires forall k :: 0 <= k < |rest| ==> rest[k] != ']'
    ensures Fnmatch(name, "[" + rest) <==> name == "[" + rest
  {
    UnclosedBracketPrefix(rest, name);
    if |name| >= 1 {
      LiteralMatchesOnlyItself(rest, name[1..]);
      if name[0] == '[' && name[1..] == rest {
        assert name == [name[0]] + name[1..];
      }
    }
  }
}

=== FILE: legacy_models.dfy ===
/** The older copy of the record types. Its metric records also require the
    `Sample_Project` column and keep its text; everything else is decoded and
    validated exactly as in the current records, which this module reuses. */
module LegacyModels {
  import opened Wrappers
  import opened Models

  datatype LegacyQualityMetrics = LegacyQualityMetrics(metrics: QualityMetrics, sampleProject: string)

  datatype LegacyDemuxStats = LegacyDemuxStats(stats: DemuxStats, sampleProject: string)

  datatype LegacyCombinedSampleData = LegacyCombinedSampleData(
    fastq: FastqListEntry,
    demuxStats: LegacyDemuxStats,
    qualityMetricsRead1: LegacyQualityMetrics,
    qualityMetricsRead2: Option<LegacyQualityMetrics>)

  /** The legacy `QualityMetrics(**row)`. */
  function DecodeLegacyQualityMetrics(row: Row): (r: Result<LegacyQualityMetrics>)
    ensures r.Ok? <==> QualityRowOk(row) && "Sample_Project" in row
    ensures r.Ok? ==> Ok(r.value.metrics) == DecodeQualityMetrics(row)
    ensures r.Ok? ==> r.value.sampleProject == row["Sample_Project"]
  {
    var project :- TextField(row, "Sample_Project");
    var metrics :- DecodeQualityMetrics(row);
    Ok(LegacyQualityMetrics(metrics, project))
  }

  /** The legacy `DemuxStats(**row)`. */
  function DecodeLegacyDemuxStats(row: Row): (r: Result<LegacyDemuxStats>)
    ensures r.Ok? <==> DemuxRowOk(row) && "Sample_Project" in row
    ensures r.Ok? ==> Ok(r.value.stats) == DecodeDemuxStats(row)
    ensures r.Ok? ==> r.value.sampleProject == row["Sample_Project"]
  {
    var project :- TextField(row, "Sample_Project");
    var stats :- DecodeDemuxStats(row);
    Ok(LegacyDemuxStats(stats, project))
  }

  /** A row without a project column decodes under the current records but
      not under the legacy ones. */
  lemma ProjectColumnRequired(row: Row)
    requires "Sample_Project" !in row
    ensures DecodeLegacyQualityMetrics(row).Err? && DecodeLegacyDemuxStats(row).Err?
    ensures QualityRowOk(row) ==> DecodeQualityMetrics(row).Ok?
    ensures DemuxRowOk(row) ==> DecodeDemuxStats(row).Ok?
  {
  }

  /** Adding the project column to a row is all the legacy records need more. */
  lemma ProjectColumnSuffices(row: Row, project: string)
    requires "Sample_Project" !in row
    requires QualityRowOk(row)
    ensures DecodeLegacyQualityMetrics(row["Sample_Project" := project]) ==
            Ok(LegacyQualityMetrics(DecodeQualityMetrics(row).value, project))
  {
    var row' := row["Sample_Project" := project];
    assert AgreeOn(row, row', QualityColumns) by {
      forall i | 0 <= i < |QualityColumns|
        ensures QualityColumns[i] != "Sample_Project"
      {
      }
    }
    QualityMetricsIgnoresOtherColumns(row, row');
  }

  /** The legacy record with its project texts set aside. */
  function Current(c: LegacyCombinedSampleData): CombinedSampleData
  {
    CombinedSampleData(c.fastq, c.demuxStats.stats, c.qualityMetricsRead1.metrics,
                       match c.qualityMetricsRead2
                         case None => None
                         case Some(q) => Some(q.metrics))
  }

  /** The legacy `CombinedSampleData(...)`: the same three validators, which
      never look at the project texts. */
  function CombineLegacy(fastq: FastqListEntry, demux: LegacyDemuxStats, read1: LegacyQualityMetrics,
                         read2: Option<LegacyQualityMetrics>): (r: Result<LegacyCombinedSampleData>)
    ensures r.Ok? <==> ValidCombined(Current(LegacyCombinedSampleData(fastq, demux, read1, read2)))
    ensures r.Ok? ==> r.value == LegacyCombinedSampleData(fastq, demux, read1, read2)
  {
    var c := LegacyCombinedSampleData(fastq, demux, read1, read2);
    var d := Current(c);
    var _ :- Combine(Fragment(Some(d.fastq), Some(d.demuxStats), Some(d.qualityMetricsRead1),
                              d.qualityMetricsRead2));
    Ok(c)
  }

  /** The projects of the parts play no part in validation: two legacy
      records that differ only there are both accepted or both refused. */
  lemma ProjectsIgnoredByValidation(fastq: FastqListEntry, demux: LegacyDemuxStats,
                                    read1: LegacyQualityMetrics, read2: Option<LegacyQualityMetrics>,
                                    p1: string, p2: string, p3: string)
    ensures CombineLegacy(fastq, demux, read1, read2).Ok? <==>
            CombineLegacy(fastq, demux.(sampleProject := p1), read1.(sampleProject := p2),
                          match read2 case None => None case Some(q) => Some(q.(sampleProject := p3))).Ok?
  {
  }
}

=== FILE: models.dfy ===
/** The validated record types of the report reader. Each pydantic model
    becomes a datatype plus a constructor function returning a `Result`: the
    row decoders look every aliased column up by name and coerce integer and
    float columns from text, and the cross-field validators become explicit
    checks. Columns without a field (such as `Sample_Project`) are ignored. */
module Models {
  import opened Wrappers
  import opened Text
  import opened Paths
  import opened FileSystem

  /** A decoded CSV line: column name to text. */
  type Row = map<string, string>

  datatype QualityMetrics = QualityMetrics(
    lane: int,
    sampleId: string,
    index: string,
    index2: string,
    readNumber: int,
    totalYield: int,
    yieldQ30: int,
    qualityScoreSum: int,
    meanQualityScorePf: real,
    percentQ30: real)

  datatype DemuxStats = DemuxStats(
    lane: int,
    sampleId: string,
    index: string,
    numReads: int,
    numPerfectIndexReads: int,
    numOneMismatchIndexReads: int,
    numTwoMismatchIndexReads: int,
    percentReads: real,
    percentPerfectIndexReads: real,
    percentOneMismatchIndexReads: real,
    percentTwoMismatchIndexReads: real)

  datatype FastqListEntry = FastqListEntry(
    file: Path,
    readGroup: string,
    sampleId: string,
    library: string,
    lane: int,
    read1File: Path,
    read2File: Option<Path>)

  datatype CombinedSampleData = CombinedSampleData(
    fastq: FastqListEntry,
    demuxStats: DemuxStats,
    qualityMetricsRead1: QualityMetrics,
    qualityMetricsRead2: Option<QualityMetrics>)

  datatype BclConvertFolder = BclConvertFolder(
    path: Path,
    demultiplexStatsPaths: seq<Path>,
    qualityMetricsPaths: seq<Path>,
    fastqListPaths: seq<Path>)

  // ---------------------------------------------------------------- columns

  function TextField(row: Row, key: string): (r: Result<string>)
    ensures r.Ok? <==> key in row
    ensures r.Ok? ==> r.value == row[key]
  {
    if key in row then Ok(row[key]) else Err("Field required: " + key)
  }

  function IntField(row: Row, key: string): (r: Result<int>)
    ensures r.Ok? <==> key in row && ParseInt(row[key]).Some?
    ensures r.Ok? ==> Some(r.value) == ParseInt(row[key])
  {
    if key !in row then Err("Field required: " + key)
    else match ParseInt(row[key])
      case None => Err("Input should be a valid integer: " + key)
      case Some(n) => Ok(n)
  }

  function RealField(row: Row, key: string): (r: Result<real>)
    ensures r.Ok? <==> key in row && ParseDecimal(row[key]).Some?
    ensures r.Ok? ==> Some(r.value) == ParseDecimal(row[key])
  {
    if key !in row then Err("Field required: " + key)
    else match ParseDecimal(row[key])
      case None => Err("Input should be a valid number: " + key)
      case Some(x) => Ok(x)
  }

  /** An integer written into a column is read back from it. */
  lemma IntFieldReadsFormatted(row: Row, key: string, n: int)
    ensures IntField(row[key := FormatInt(n)], key) == Ok(n)
  {
    IntRoundTrip(n);
  }

  predicate IntColumn(row: Row, key: string)
  {
    key in row && ParseInt(row[key]).Some?
  }

  predicate RealColumn(row: Row, key: string)
  {
    key in row && ParseDecimal(row[key]).Some?
  }

  /** Two rows agree on a column: both lack it or both hold the same text. */
  predicate SameColumn(row: Row, other: Row, key: string)
  {
    (key in row <==> key in other) && (key in row ==> row[key] == other[key])
  }

  /** Two rows agree on the given columns. */
  predicate AgreeOn(row: Row, other: Row, keys: seq<string>)
  {
    forall i :: 0 <= i < |keys| ==> SameColumn(row, other, keys[i])
  }

  /** A column is read from the row alone. */
  lemma ColumnReadersAgree(row: Row, other: Row, key: string)
    requires SameColumn(row, other, key)
    ensures TextField(row, key) == TextField(other, key)
    ensures IntField(row, key) == IntField(other, key)
    ensures RealField(row, key) == RealField(other, key)
  {
  }

  // ------------------------------------------------------- quality metrics

  /** The columns `QualityMetrics` reads. */
  const QualityColumns: seq<string> :=
    ["Lane", "SampleID", "index", "index2", "ReadNumber", "Yield", "YieldQ30", "QualityScoreSum",
     "Mean Quality Score (PF)", "% Q30"]

  /** A row a `QualityMetrics` can be built from: every column present and
      each numeric column readable as its type. */
  predicate QualityRowOk(row: Row)
  {
    && IntColumn(row, "Lane") && "SampleID" in row && "index" in row && "index2" in row
    && IntColumn(row, "ReadNumber") && IntColumn(row, "Yield") && IntColumn(row, "YieldQ30")
    && IntColumn(row, "QualityScoreSum")
    && RealColumn(row, "Mean Quality Score (PF)") && RealColumn(row, "% Q30")
  }

  /** `QualityMetrics(**row)`. */
  function DecodeQualityMetrics(row: Row): (r: Result<QualityMetrics>)
    ensures r.Ok? <==> QualityRowOk(row)
    ensures r.Ok? ==>
      && r.value.sampleId == row["SampleID"]
      && r.value.index == row["index"] && r.value.index2 == row["index2"]
      && Some(r.value.lane) == ParseInt(row["Lane"])
      && Some(r.value.readNumber) == ParseInt(row["ReadNumber"])
      && Some(r.value.totalYield) == ParseInt(row["Yield"])
      && Some(r.value.yieldQ30) == ParseInt(row["YieldQ30"])
      && Some(r.value.qualityScoreSum) == ParseInt(row["QualityScoreSum"])
      && Some(r.value.meanQualityScorePf) == ParseDecimal(row["Mean Quality Score (PF)"])
      && Some(r.value.percentQ30) == ParseDecimal(row["% Q30"])
  {
    var lane :- IntField(row, "Lane");
    var sampleId :- TextField(row, "SampleID");
    var index :- TextField(row, "index");
    var index2 :- TextField(row, "index2");
    var readNumber :- IntField(row, "ReadNumber");
    var totalYield :- IntField(row, "Yield");
    var yieldQ30 :- IntField(row, "YieldQ30");
    var qualityScoreSum :- IntField(row, "QualityScoreSum");
    var mean :- RealField(row, "Mean Quality Score (PF)");
    var percentQ30 :- RealField(row, "% Q30");
    Ok(QualityMetrics(lane, sampleId, index, index2, readNumber, totalYield, yieldQ30,
                      qualityScoreSum, mean, percentQ30))
  }

  /** Only the aliased columns matter: `Sample_Project` and any other extra
      column is ignored. */
  lemma QualityMetricsIgnoresOtherColumns(row: Row, other: Row)
    requires AgreeOn(row, other, QualityColumns)
    ensures DecodeQualityMetrics(row) == DecodeQualityMetrics(other)
  {
    var ks := QualityColumns;
    assert SameColumn(row, other, ks[0]);
    ColumnReadersAgree(row, other, ks[0]);
    assert SameColumn(row, other, ks[1]);
    ColumnReadersAgree(row, other, ks[1]);
    assert SameColumn(row, other, ks[2]);
    ColumnReadersAgree(row, other, ks[2]);
    assert SameColumn(row, other, ks[3]);
    ColumnReadersAgree(row, other, ks[3]);
    assert SameColumn(row, other, ks[4]);
    ColumnReadersAgree(row, other, ks[4]);
    assert SameColumn(row, other, ks[5]);
    ColumnReadersAgree(row, other, ks[5]);
    assert SameColumn(row, other, ks[6]);
    ColumnReadersAgree(row, other, ks[6]);
    assert SameColumn(row, other, ks[7]);
    ColumnReadersAgree(row, other, ks[7]);
    assert SameColumn(row, other, ks[8]);
    ColumnReadersAgree(row, other, ks[8]);
    assert SameColumn(row, other, ks[9]);
    ColumnReadersAgree(row, other, ks[9]);
  }

  // ------------------------------------------------------------ demux stats

  /** The columns `DemuxStats` reads. */
  const DemuxColumns: seq<string> :=
    ["Lane", "SampleID", "Index", "# Reads", "# Perfect Index Reads", "# One Mismatch Index Reads",
     "# Two Mismatch Index Reads", "% Reads", "% Perfect Index Reads", "% One Mismatch Index Reads",
     "% Two Mismatch Index Reads"]

  predicate DemuxRowOk(row: Row)
  {
    && IntColumn(row, "Lane") && "SampleID" in row && "Index" in row
    && IntColumn(row, "# Reads") && IntColumn(row, "# Perfect Index Reads")
    && IntColumn(row, "# One Mismatch Index Reads") && IntColumn(row, "# Two Mismatch Index Reads")
    && RealColumn(row, "% Reads") && RealColumn(row, "% Perfect Index Reads")
    && RealColumn(row, "% One Mismatch Index Reads") && RealColumn(row, "% Two Mismatch Index Reads")
  }

  /** `DemuxStats(**row)`. */
  function DecodeDemuxStats(row: Row): (r: Result<DemuxStats>)
    ensures r.Ok? <==> DemuxRowOk(row)
    ensures r.Ok? ==>
      && r.value.sampleId == row["SampleID"]
      && r.value.index == row["Index"]
      && Some(r.value.lane) == ParseInt(row["Lane"])
      && Some(r.value.numReads) == ParseInt(row["# Reads"])
      && Some(r.value.numPerfectIndexReads) == ParseInt(row["# Perfect Index Reads"])
      && Some(r.value.numOneMismatchIndexReads) == ParseInt(row["# One Mismatch Index Reads"])
      && Some(r.value.numTwoMismatchIndexReads) == ParseInt(row["# Two Mismatch Index Reads"])
      && Some(r.value.percentReads) == ParseDecimal(row["% Reads"])
      && Some(r.value.percentPerfectIndexReads) == ParseDecimal(row["% Perfect Index Reads"])
      && Some(r.value.percentOneMismatchIndexReads) == ParseDecimal(row["% One Mismatch Index Reads"])
      && Some(r.value.percentTwoMismatchIndexReads) == ParseDecimal(row["% Two Mismatch Index Reads"])
  {
    var lane :- IntField(row, "Lane");
    var sampleId :- TextField(row, "SampleID");
    var index :- TextField(row, "Index");
    var numReads :- IntField(row, "# Reads");
    var perfect :- IntField(row, "# Perfect Index Reads");
    var one :- IntField(row, "# One Mismatch Index Reads");
    var two :- IntField(row, "# Two Mismatch Index Reads");
    var pReads :- RealField(row, "% Reads");
    var pPerfect :- RealField(row, "% Perfect Index Reads");
    var pOne :- RealField(row, "% One Mismatch Index Reads");
    var pTwo :- RealField(row, "% Two Mismatch Index Reads");
    Ok(DemuxStats(lane, sampleId, index, numReads, perfect, one, two, pReads, pPerfect, pOne, pTwo))
  }

  lemma DemuxStatsIgnoresOtherColumns(row: Row, other: Row)
    requires AgreeOn(row, other, DemuxColumns)
    ensures DecodeDemuxStats(row) == DecodeDemuxStats(other)
  {
    var ks := DemuxColumns;
    assert SameColumn(row, other, ks[0]);
    ColumnReadersAgree(row, other, ks[0]);
    assert SameColumn(row, other, ks[1]);
    ColumnReadersAgree(row, other, ks[1]);
    assert SameColumn(row, other, ks[2]);
    ColumnReadersAgree(row, other, ks[2]);
    assert SameColumn(row, other, ks[3]);
    ColumnReadersAgree(row, other, ks[3]);
    assert SameColumn(row, other, ks[4]);
    ColumnReadersAgree(row, other, ks[4]);
    assert SameColumn(row, other, ks[5]);
    ColumnReadersAgree(row, other, ks[5]);
    assert SameColumn(row, other, ks[6]);
    ColumnReadersAgree(row, other, ks[6]);
    assert SameColumn(row, other, ks[7]);
    ColumnReadersAgree(row, other, ks[7]);
    assert SameColumn(row, other, ks[8]);
    ColumnReadersAgree(row, other, ks[8]);
    assert SameColumn(row, other, ks[9]);
    ColumnReadersAgree(row, other, ks[9]);
    assert SameColumn(row, other, ks[10]);
    ColumnReadersAgree(row, other, ks[10]);
  }

  // ------------------------------------------------------ fastq list entries

  /** The `Read2File` validator that runs before coercion: an empty string
      means there is no read-2 file. */
  function EmptyToNone(text: string): (r: Option<Path>)
    ensures r.None? <==> text == ""
    ensures r.Some? ==> r.value == Parse(text)
  {
    if text == "" then None else Some(Parse(text))
  }

  /** A read path as stored: a relative path is resolved against the
      directory holding the list file, an absolute one is left alone. */
  function ResolveRead(fs: FS, listFile: Path, read: Path): (r: Path)
    ensures read.absolute ==> r == read
    ensures !read.absolute ==> r == Resolve(fs.cwd, JoinPath(Parent(listFile), read))
  {
    if read.absolute then read else Resolve(fs.cwd, JoinPath(Parent(listFile), read))
  }

  /** The text of a well-formed path is read back as that path: only the
      empty text stands for a missing read-2 file. */
  lemma EmptyToNoneRoundTrip(p: Path)
    requires WellFormed(p)
    ensures EmptyToNone(ToString(p)) == Some(p)
  {
    ParseToString(p);
    if !p.absolute && p.parts != [] {
      JoinHead(p.parts, '/');
    }
  }

  /** A stored read path is final: storing it again changes nothing, and a
      relative input ends up absolute with no `..` left in it. */
  lemma ResolveReadStable(fs: FS, listFile: Path, read: Path)
    ensures ResolveRead(fs, listFile, ResolveRead(fs, listFile, read)) == ResolveRead(fs, listFile, read)
    ensures !read.absolute ==>
              ResolveRead(fs, listFile, read).absolute &&
              forall i :: 0 <= i < |ResolveRead(fs, listFile, read).parts| ==> ResolveRead(fs, listFile, read).parts[i] != ".."
  {
  }

  /** A row a `FastqListEntry` can be decoded from before the file checks. */
  predicate FastqRowOk(row: Row)
  {
    && "RGID" in row && "RGSM" in row && "RGLB" in row && IntColumn(row, "Lane")
    && "Read1File" in row && "Read2File" in row
  }

  /** `FastqListEntry(file=listFile, **row)`: the list file must be an
      existing regular file; after decoding, read paths are resolved, must
      differ, and must exist. */
  function MakeFastqListEntry(fs: FS, listFile: Path, row: Row): (r: Result<FastqListEntry>)
    ensures r.Ok? <==>
      && IsFile(fs, listFile)
      && FastqRowOk(row)
      && var r1 := ResolveRead(fs, listFile, Parse(row["Read1File"]));
         var r2 := EmptyToNone(row["Read2File"]);
         && (r2.None? || r1 != ResolveRead(fs, listFile, r2.value))
         && Exists(fs, r1)
         && (r2.None? || Exists(fs, ResolveRead(fs, listFile, r2.value)))
    ensures r.Ok? ==>
      && r.value.file == listFile
      && r.value.readGroup == row["RGID"]
      && r.value.sampleId == row["RGSM"]
      && r.value.library == row["RGLB"]
      && Some(r.value.lane) == ParseInt(row["Lane"])
      && r.value.read1File == ResolveRead(fs, listFile, Parse(row["Read1File"]))
      && (r.value.read2File.None? <==> row["Read2File"] == "")
      && (r.value.read2File.Some? ==>
            r.value.read2File.value == ResolveRead(fs, listFile, Parse(row["Read2File"])))
  {
    if !IsFile(fs, listFile) then Err("Path does not point to a file")
    else
      var readGroup :- TextField(row, "RGID");
      var sampleId :- TextField(row, "RGSM");
      var library :- TextField(row, "RGLB");
      var lane :- IntField(row, "Lane");
      var read1Text :- TextField(row, "Read1File");
      var read2Text :- TextField(row, "Read2File");
      var r1 := ResolveRead(fs, listFile, Parse(read1Text));
      var r2 := match EmptyToNone(read2Text)
        case None => None
        case Some(p) => Some(ResolveRead(fs, listFile, p));
      if Some(r1) == r2 then Err("Read1File and Read2File cannot be the same")
      else if !Exists(fs, r1) then Err("Read1File does not exist")
      else if r2.Some? && !Exists(fs, r2.value) then Err("Read2File does not exist")
      else Ok(FastqListEntry(listFile, readGroup, sampleId, library, lane, r1, r2))
  }

  /** Removing the read-1 file from disk makes the entry invalid. */
  lemma MissingRead1Rejected(fs: FS, listFile: Path, row: Row)
    requires "Read1File" in row
    requires !Exists(fs, ResolveRead(fs, listFile, Parse(row["Read1File"])))
    ensures MakeFastqListEntry(fs, listFile, row).Err?
  {
  }

  // ------------------------------------------------------- combined record

  /** A sample's partially joined data, as the correlator accumulates it. */
  datatype Fragment = Fragment(
    fastq: Option<FastqListEntry>,
    demuxStats: Option<DemuxStats>,
    qualityMetricsRead1: Option<QualityMetrics>,
    qualityMetricsRead2: Option<QualityMetrics>)

  /** The invariant of a combined record: one sample id throughout, read-2
      metrics present exactly when a read-2 file is, and metrics tagged with
      the read they describe. */
  predicate ValidCombined(c: CombinedSampleData)
  {
    var id := c.fastq.sampleId;
    && c.demuxStats.sampleId == id
    && c.qualityMetricsRead1.sampleId == id
    && c.qualityMetricsRead1.readNumber == 1
    && (c.fastq.read2File.Some? <==> c.qualityMetricsRead2.Some?)
    && (c.qualityMetricsRead2.Some? ==>
          c.qualityMetricsRead2.value.sampleId == id && c.qualityMetricsRead2.value.readNumber == 2)
  }

  /** `CombinedSampleData(**fragment)`: the three required parts must be
      present, then the three model validators run in declaration order. */
  function Combine(f: Fragment): (r: Result<CombinedSampleData>)
    ensures r.Ok? <==>
      && f.fastq.Some? && f.demuxStats.Some? && f.qualityMetricsRead1.Some?
      && ValidCombined(CombinedSampleData(f.fastq.value, f.demuxStats.value,
                                          f.qualityMetricsRead1.value, f.qualityMetricsRead2))
    ensures r.Ok? ==>
      r.value == CombinedSampleData(f.fastq.value, f.demuxStats.value,
                                    f.qualityMetricsRead1.value, f.qualityMetricsRead2)
  {
    if f.fastq.None? then Err("Field required: fastq")
    else if f.demuxStats.None? then Err("Field required: demux_stats")
    else if f.qualityMetricsRead1.None? then Err("Field required: quality_metrics_read1")
    else
      var c := CombinedSampleData(f.fastq.value, f.demuxStats.value,
                                  f.qualityMetricsRead1.value, f.qualityMetricsRead2);
      var _ :- CheckConsistency(c);
      var _ :- CheckReadCount(c);
      var _ :- CheckReadNumbers(c);
      Ok(c)
  }

  function CheckConsistency(c: CombinedSampleData): Result<()>
  {
    if c.fastq.sampleId != c.demuxStats.sampleId then
      Err("Sample ID mismatch between FastqListEntry and DemuxStats")
    else if c.fastq.sampleId != c.qualityMetricsRead1.sampleId then
      Err("Sample ID mismatch between FastqListEntry and QualityMetrics (Read 1)")
    else if c.fastq.read2File.Some? && c.qualityMetricsRead2.None? then
      Err("Read 2 file is present but QualityMetrics for Read 2 is missing")
    else if c.fastq.read2File.Some? && c.fastq.sampleId != c.qualityMetricsRead2.value.sampleId then
      Err("Sample ID mismatch between FastqListEntry and QualityMetrics (Read 2)")
    else Ok(())
  }

  function CheckReadCount(c: CombinedSampleData): Result<()>
  {
    if c.fastq.read2File.None? && c.qualityMetricsRead2.Some? then
      Err("QualityMetrics for Read 2 is present but Read 2 file is missing")
    else if c.fastq.read2File.Some? && c.qualityMetricsRead2.None? then
      Err("Read 2 file is present but QualityMetrics for Read 2 is missing")
    else Ok(())
  }

  function CheckReadNumbers(c: CombinedSampleData): Result<()>
  {
    if c.qualityMetricsRead1.readNumber != 1 then
      Err("Read number for quality_metrics_read1 must be 1")
    else if c.qualityMetricsRead2.Some? && c.qualityMetricsRead2.value.readNumber != 2 then
      Err("Read number for quality_metrics_read2 must be 2")
    else Ok(())
  }

  // ------------------------------------------------------ run-output folder

  /** The six places each report file has been written to over tool
      versions, in the order they are tried. */
  function Candidates(folder: Path, fileName: string): (r: seq<Path>)
    ensures |r| == 6
    ensures forall i :: 0 <= i < 6 ==> Name(r[i]) == fileName
  {
    [ JoinPath(folder, Path(false, [fileName])),
      JoinPath(folder, Path(false, ["Demux", fileName])),
      JoinPath(folder, Path(false, ["DragenGermline", "fastq", "Reports", fileName])),
      JoinPath(folder, Path(false, ["DragenGermline", "ora_fastq", "Reports", fileName])),
      JoinPath(folder, Path(false, ["BCLConvert", "fastq", "Reports", fileName])),
      JoinPath(folder, Path(false, ["BCLConvert", "ora_fastq", "Reports", fileName])) ]
  }

  /** The elements of `xs` satisfying `keep`, in their original order. */
  function Filter<T>(xs: seq<T>, keep: T -> bool): (r: seq<T>)
    ensures |r| <= |xs|
  {
    if xs == [] then []
    else if keep(xs[0]) then [xs[0]] + Filter(xs[1..], keep)
    else Filter(xs[1..], keep)
  }

  lemma {:induction false} FilterMembers<T>(xs: seq<T>, keep: T -> bool, x: T)
    ensures x in Filter(xs, keep) <==> x in xs && keep(x)
  {
    if xs != [] {
      FilterMembers(xs[1..], keep, x);
      assert xs == [xs[0]] + xs[1..];
    }
  }

  /** Filtering keeps order: what is kept from earlier elements comes
      before what is kept from later ones. */
  lemma {:induction false} FilterAppend<T>(a: seq<T>, b: seq<T>, keep: T -> bool)
    ensures Filter(a + b, keep) == Filter(a, keep) + Filter(b, keep)
  {
    if a == [] {
      assert a + b == b;
    } else {
      var ab := a + b;
      assert ab[0] == a[0] && ab[1..] == a[1..] + b;
      FilterAppend(a[1..], b, keep);
      if keep(a[0]) {
        calc {
          Filter(ab, keep);
          [a[0]] + Filter(a[1..] + b, keep);
          [a[0]] + (Filter(a[1..], keep) + Filter(b, keep));
          ([a[0]] + Filter(a[1..], keep)) + Filter(b, keep);
        }
      }
    }
  }

  /** The candidates that are existing regular files, in candidate order. */
  function ExistingFiles(fs: FS, candidates: seq<Path>): (r: seq<Path>)
    ensures forall p :: p in r <==> p in candidates && IsFile(fs, p)
    ensures AllFiles(fs, r)
  {
    var r := Filter(candidates, p => IsFile(fs, p));
    forall p ensures p in r <==> p in candidates && IsFile(fs, p) {
      FilterMembers(candidates, p => IsFile(fs, p), p);
    }
    r
  }

  /** The files among earlier candidates are listed before those among later ones. */
  lemma ExistingFilesAppend(fs: FS, a: seq<Path>, b: seq<Path>)
    ensures ExistingFiles(fs, a + b) == ExistingFiles(fs, a) + ExistingFiles(fs, b)
  {
    FilterAppend(a, b, p => IsFile(fs, p));
  }

  lemma SomeFileKept(fs: FS, candidates: seq<Path>)
    ensures |ExistingFiles(fs, candidates)| > 0 <==>
            exists i :: 0 <= i < |candidates| && IsFile(fs, candidates[i])
  {
    if |ExistingFiles(fs, candidates)| > 0 {
      assert ExistingFiles(fs, candidates)[0] in ExistingFiles(fs, candidates);
    }
    if exists i :: 0 <= i < |candidates| && IsFile(fs, candidates[i]) {
      var i :| 0 <= i < |candidates| && IsFile(fs, candidates[i]);
      assert candidates[i] in ExistingFiles(fs, candidates);
    }
  }

  function ResolveAll(fs: FS, ps: seq<Path>): (r: seq<Path>)
    ensures |r| == |ps|
    ensures forall i :: 0 <= i < |ps| ==> r[i] == Resolve(fs.cwd, ps[i])
  {
    seq(|ps|, i requires 0 <= i < |ps| => Resolve(fs.cwd, ps[i]))
  }

  /** Stored paths are final: resolving them again changes nothing, and each
      is absolute. */
  lemma ResolveAllIdempotent(fs: FS, ps: seq<Path>)
    ensures ResolveAll(fs, ResolveAll(fs, ps)) == ResolveAll(fs, ps)
    ensures forall i :: 0 <= i < |ps| ==> ResolveAll(fs, ps)[i].absolute
  {
    var r := ResolveAll(fs, ps);
    forall i | 0 <= i < |ps| ensures ResolveAll(fs, r)[i] == r[i] {
      ResolveIdempotent(fs.cwd, ps[i]);
    }
  }

  /** Every element of a report tuple names an existing regular file, as the
      `FilePath` element type demands. */
  predicate AllFiles(fs: FS, ps: seq<Path>)
  {
    forall i :: 0 <= i < |ps| ==> IsFile(fs, ps[i])
  }

  /** The message `resolve_paths` raises for an empty report tuple; the
      closing quote is missing in the original message too. */
  function MissingFile(field: string): string
  {
    "Missing file for '" + field
  }

  function NotAFile(field: string): string
  {
    field + ": Path does not point to a file"
  }

  const NotADirectory: string := "path: Path does not point to a directory"

  /** The errors of one report tuple. A non-file element fails the
      `FilePath` element type, and then the after-validator does not run;
      otherwise an empty tuple fails the after-validator. */
  function ReportErrors(fs: FS, field: string, ps: seq<Path>): (errs: seq<string>)
    ensures errs == [] <==> AllFiles(fs, ps) && |ps| > 0
    ensures |ps| == 0 ==> errs == [MissingFile(field)]
    ensures !AllFiles(fs, ps) ==> errs == [NotAFile(field)]
  {
    if !AllFiles(fs, ps) then [NotAFile(field)]
    else if |ps| == 0 then [MissingFile(field)]
    else []
  }

  /** Every field is validated on its own, and the `ValidationError` lists
      the errors of all of them, in field order. */
  function FolderErrors(fs: FS, path: Path, demux: seq<Path>, quality: seq<Path>, fastqList: seq<Path>)
    : seq<string>
  {
    (if IsDir(fs, path) then [] else [NotADirectory])
    + ReportErrors(fs, "demultiplex_stats_paths", demux)
    + ReportErrors(fs, "quality_metrics_paths", quality)
    + ReportErrors(fs, "fastq_list_paths", fastqList)
  }

  /** `BCLConvertFolder(path=..., ...)`: the folder must be a directory,
      every report path a regular file, and each report list non-empty; the
      error names every failing field, and the paths are stored resolved. */
  function MakeBclConvertFolder(fs: FS, path: Path, demux: seq<Path>, quality: seq<Path>, fastqList: seq<Path>)
    : (r: Result<BclConvertFolder>)
    ensures r.Ok? <==>
      && IsDir(fs, path)
      && AllFiles(fs, demux) && AllFiles(fs, quality) && AllFiles(fs, fastqList)
      && |demux| > 0 && |quality| > 0 && |fastqList| > 0
    ensures !IsDir(fs, path) ==> r.Err? && Contains(r.error, NotADirectory)
    ensures |demux| == 0 ==> r.Err? && Contains(r.error, MissingFile("demultiplex_stats_paths"))
    ensures |quality| == 0 ==> r.Err? && Contains(r.error, MissingFile("quality_metrics_paths"))
    ensures |fastqList| == 0 ==> r.Err? && Contains(r.error, MissingFile("fastq_list_paths"))
    ensures !AllFiles(fs, demux) ==> r.Err? && Contains(r.error, NotAFile("demultiplex_stats_paths"))
    ensures !AllFiles(fs, quality) ==> r.Err? && Contains(r.error, NotAFile("quality_metrics_paths"))
    ensures !AllFiles(fs, fastqList) ==> r.Err? && Contains(r.error, NotAFile("fastq_list_paths"))
    ensures r.Ok? ==> r.value == BclConvertFolder(path, ResolveAll(fs, demux), ResolveAll(fs, quality),
                                                  ResolveAll(fs, fastqList))
  {
    var errs := FolderErrors(fs, path, demux, quality, fastqList);
    if errs == [] then
      Ok(BclConvertFolder(path, ResolveAll(fs, demux), ResolveAll(fs, quality), ResolveAll(fs, fastqList)))
    else
      assert forall m :: m in errs ==> Contains(Join(errs, '\n'), m) by {
        forall m | m in errs ensures Contains(Join(errs, '\n'), m) {
          var i :| 0 <= i < |errs| && errs[i] == m;
          JoinContains(errs, '\n', i);
        }
      }
      Err(Join(errs, '\n'))
  }

  /** An empty report tuple is named in the error whatever the other fields
      hold: a non-file path elsewhere does not hide it. */
  lemma EmptyQualityNamedBesideFileError(fs: FS, path: Path, p: Path, fastqList: seq<Path>)
    requires !IsFile(fs, p)
    ensures var r := MakeBclConvertFolder(fs, path, [p], [], fastqList);
            && r.Err?
            && Contains(r.error, NotAFile("demultiplex_stats_paths"))
            && Contains(r.error, MissingFile("quality_metrics_paths"))
  {
    assert !AllFiles(fs, [p]) by {
      assert !IsFile(fs, [p][0]);
    }
  }

  /** A report path that is not a regular file is refused, wherever it sits
      in its tuple. */
  lemma NonFileReportRejected(fs: FS, path: Path, demux: seq<Path>, quality: seq<Path>, fastqList: seq<Path>, p: Path)
    requires p in demux || p in quality || p in fastqList
    requires !IsFile(fs, p)
    ensures MakeBclConvertFolder(fs, path, demux, quality, fastqList).Err?
  {
  }

  /** `BCLConvertFolder.from_path(path)`: for each report keeps every
      candidate location that is a regular file, in the listed order. */
  function FromPath(fs: FS, path: Path): (r: Result<BclConvertFolder>)
    ensures r.Ok? <==>
      && IsDir(fs, path)
      && (exists i :: 0 <= i < 6 && IsFile(fs, Candidates(path, "Demultiplex_Stats.csv")[i]))
      && (exists i :: 0 <= i < 6 && IsFile(fs, Candidates(path, "Quality_Metrics.csv")[i]))
      && (exists i :: 0 <= i < 6 && IsFile(fs, Candidates(path, "fastq_list.csv")[i]))
    ensures r.Ok? ==>
      && r.value.path == path
      && r.value.demultiplexStatsPaths == ResolveAll(fs, ExistingFiles(fs, Candidates(path, "Demultiplex_Stats.csv")))
      && r.value.qualityMetricsPaths == ResolveAll(fs, ExistingFiles(fs, Candidates(path, "Quality_Metrics.csv")))
      && r.value.fastqListPaths == ResolveAll(fs, ExistingFiles(fs, Candidates(path, "fastq_list.csv")))
  {
    var demux := ExistingFiles(fs, Candidates(path, "Demultiplex_Stats.csv"));
    var quality := ExistingFiles(fs, Candidates(path, "Quality_Metrics.csv"));
    var fastqList := ExistingFiles(fs, Candidates(path, "fastq_list.csv"));
    SomeFileKept(fs, Candidates(path, "Demultiplex_Stats.csv"));
    SomeFileKept(fs, Candidates(path, "Quality_Metrics.csv"));
    SomeFileKept(fs, Candidates(path, "fastq_list.csv"));
    MakeBclConvertFolder(fs, path, demux, quality, fastqList)
  }

  /** Every stored report path names an existing regular file: resolving a
      path does not change what it refers to. */
  lemma FolderPathsAreFiles(fs: FS, path: Path, i: nat)
    requires FromPath(fs, path).Ok?
    requires i < |FromPath(fs, path).value.fastqListPaths|
    ensures IsFile(fs, FromPath(fs, path).value.fastqListPaths[i])
  {
    var cands := ExistingFiles(fs, Candidates(path, "fastq_list.csv"));
    assert cands[i] in cands;
    ResolveIdempotent(fs.cwd, cands[i]);
  }
}

=== FILE: parse_folder.dfy ===
/** The correlator: reads the fastq-list, demultiplexing and quality reports of
    one run folder, joins their rows by sample id and validates each joined
    fragment. The generator of the original becomes a function returning a
    `Result`: every exception it can raise happens before its first record is
    produced, so a failed run yields nothing at all. */
module ParseFolder {
  import opened Wrappers
  import opened Text
  import opened Paths
  import opened FileSystem
  import opened Models

  // ------------------------------------------------------------ CSV lines

  function Min(a: nat, b: nat): nat
  {
    if a <= b then a else b
  }

  /** `dict(zip(header, fields))`: the i-th header names the i-th field, pairing
      stops at the shorter of the two, and of two equal header names the later
      one supplies the value. */
  function ZipRow(header: seq<string>, fields: seq<string>): (r: Row)
    ensures forall k :: k in r <==> exists i :: 0 <= i < Min(|header|, |fields|) && header[i] == k
    decreases |header|
  {
    var n := Min(|header|, |fields|);
    if n == 0 then map[]
    else
      var prev := ZipRow(header[..n - 1], fields[..n - 1]);
      assert forall i :: 0 <= i < n - 1 ==> header[..n - 1][i] == header[i];
      prev[header[n - 1] := fields[n - 1]]
  }

  /** The value stored under a header name is the field under its last
      occurrence. */
  lemma {:induction false} ZipRowLastWins(header: seq<string>, fields: seq<string>, i: nat)
    requires i < Min(|header|, |fields|)
    requires forall j :: i < j < Min(|header|, |fields|) ==> header[j] != header[i]
    ensures header[i] in ZipRow(header, fields)
    ensures ZipRow(header, fields)[header[i]] == fields[i]
    decreases |header|
  {
    var n := Min(|header|, |fields|);
    if i < n - 1 {
      var h, f := header[..n - 1], fields[..n - 1];
      assert Min(|h|, |f|) == n - 1;
      forall j | i < j < n - 1 ensures h[j] != h[i] {
        assert h[j] == header[j] && h[i] == header[i];
      }
      ZipRowLastWins(h, f, i);
      assert h[i] == header[i] && f[i] == fields[i];
    }
  }

  /** A report line decoded against its header. Lines carry no newline here;
      there is no quoting, so a comma always separates fields. */
  function DecodeLine(header: seq<string>, line: string): Row
  {
    ZipRow(header, Split(line, ','))
  }

  predicate NoComma(s: string)
  {
    forall i :: 0 <= i < |s| ==> s[i] != ','
  }

  /** Writing a row as comma-joined values under a header of distinct names
      and reading it back gives each header name its value. */
  lemma DecodeEncodedLine(header: seq<string>, values: seq<string>)
    requires |header| == |values| > 0
    requires forall i, j :: 0 <= i < j < |header| ==> header[i] != header[j]
    requires forall i :: 0 <= i < |values| ==> NoComma(values[i])
    ensures forall k :: k in DecodeLine(header, Join(values, ',')) <==> k in header
    ensures forall i :: 0 <= i < |header| ==> DecodeLine(header, Join(values, ','))[header[i]] == values[i]
  {
    SplitJoin(values, ',');
    assert Split(Join(values, ','), ',') == values;
    forall i | 0 <= i < |header|
      ensures DecodeLine(header, Join(values, ','))[header[i]] == values[i]
    {
      ZipRowLastWins(header, values, i);
    }
  }

  /** The filter applied to every report row before decoding. */
  predicate Undetermined(row: Row)
  {
    "SampleID" in row && row["SampleID"] == "Undetermined"
  }

  /** A fastq list has no `SampleID` column, so the filter never drops one of
      its rows. */
  lemma FastqListRowsNeverUndetermined(row: Row)
    requires "SampleID" !in row
    ensures !Undetermined(row)
  {
  }

  // ------------------------------------------------------ the joined table

  /** The insertion-ordered dictionary of fragments keyed by sample id. */
  datatype Table = Table(order: seq<string>, frags: map<string, Fragment>)

  /** Keys in insertion order, each once, and exactly the mapped ones. */
  predicate Good(t: Table)
  {
    && (forall i, j :: 0 <= i < j < |t.order| ==> t.order[i] != t.order[j])
    && (forall id :: id in t.frags ==> id in t.order)
    && (forall i :: 0 <= i < |t.order| ==> t.order[i] in t.frags)
  }

  const EmptyTable: Table := Table([], map[])

  const NoFragment: Fragment := Fragment(None, None, None, None)

  /** `d[id] = f`: an existing key keeps its position, a new key goes last. */
  function Put(t: Table, id: string, f: Fragment): (r: Table)
    ensures Good(t) ==> Good(r)
    ensures r.frags == t.frags[id := f]
    ensures |t.order| <= |r.order| && r.order[..|t.order|] == t.order
    ensures Good(t) && id in t.frags ==> r.order == t.order
  {
    if id in t.frags then Table(t.order, t.frags[id := f])
    else Table(t.order + [id], t.frags[id := f])
  }

  /** The fragment stored under `id`, or an empty one. */
  function Get(t: Table, id: string): Fragment
  {
    if id in t.frags then t.frags[id] else NoFragment
  }

  // -------------------------------------------------------------- row steps

  datatype Report = FastqList | DemuxReport | QualityReport

  /** A fastq-list row. The list file is passed as the keyword `file`, so a
      column of that name collides with it and raises a `TypeError`, which
      is not a validation error and ends the run. A row that fails validation
      is skipped; a valid one replaces the whole fragment of its sample. */
  function FastqStep(fs: FS, listFile: Path, t: Table, row: Row): (r: Result<Table>)
    ensures r.Err? <==> "file" in row
    ensures r.Ok? ==> match MakeFastqListEntry(fs, listFile, row)
      case Err(_) => r.value == t
      case Ok(e) => r.value.frags == t.frags[e.sampleId := Fragment(Some(e), None, None, None)]
  {
    if "file" in row then Err("TypeError: got multiple values for keyword argument 'file'")
    else match MakeFastqListEntry(fs, listFile, row)
      case Err(_) => Ok(t)
      case Ok(e) => Ok(Put(t, e.sampleId, Fragment(Some(e), None, None, None)))
  }

  /** A demultiplexing row: creates the fragment when missing, then replaces
      only its demultiplexing statistics. */
  function DemuxStep(t: Table, row: Row): (r: Table)
    ensures DecodeDemuxStats(row).Err? ==> r == t
    ensures DecodeDemuxStats(row).Ok? ==>
      var d := DecodeDemuxStats(row).value;
      && d.sampleId in r.frags
      && r.frags[d.sampleId] == Get(t, d.sampleId).(demuxStats := Some(d))
      && (forall id :: id != d.sampleId ==> (id in r.frags <==> id in t.frags))
      && (forall id :: id != d.sampleId && id in t.frags ==> r.frags[id] == t.frags[id])
  {
    match DecodeDemuxStats(row)
      case Err(_) => t
      case Ok(d) => Put(t, d.sampleId, Get(t, d.sampleId).(demuxStats := Some(d)))
  }

  /** A quality row: read 1 and read 2 go to their slot of an existing
      fragment, an unknown sample id raises `KeyError` and ends the run, any
      other read number is dropped. */
  function QualityStep(t: Table, row: Row): (r: Result<Table>)
    ensures r.Err? <==>
      && DecodeQualityMetrics(row).Ok?
      && DecodeQualityMetrics(row).value.readNumber in {1, 2}
      && DecodeQualityMetrics(row).value.sampleId !in t.frags
    ensures r.Ok? && DecodeQualityMetrics(row).Ok? ==>
      var q := DecodeQualityMetrics(row).value;
      && (q.readNumber == 1 ==> r.value.frags == t.frags[q.sampleId := t.frags[q.sampleId].(qualityMetricsRead1 := Some(q))])
      && (q.readNumber == 2 ==> r.value.frags == t.frags[q.sampleId := t.frags[q.sampleId].(qualityMetricsRead2 := Some(q))])
      && (q.readNumber !in {1, 2} ==> r.value == t)
    ensures DecodeQualityMetrics(row).Err? ==> r == Ok(t)
  {
    match DecodeQualityMetrics(row)
      case Err(_) => Ok(t)
      case Ok(q) =>
        if q.readNumber == 1 then
          if q.sampleId !in t.frags then Err("KeyError: " + q.sampleId)
          else Ok(Put(t, q.sampleId, t.frags[q.sampleId].(qualityMetricsRead1 := Some(q))))
        else if q.readNumber == 2 then
          if q.sampleId !in t.frags then Err("KeyError: " + q.sampleId)
          else Ok(Put(t, q.sampleId, t.frags[q.sampleId].(qualityMetricsRead2 := Some(q))))
        else Ok(t)
  }

  function Apply(fs: FS, kind: Report, path: Path, t: Table, row: Row): Result<Table>
  {
    match kind
      case FastqList => FastqStep(fs, path, t, row)
      case DemuxReport => Ok(DemuxStep(t, row))
      case QualityReport => QualityStep(t, row)
  }

  // ------------------------------------------------------------------ folds

  /** The loop over the data lines of one report file. */
  function FoldLines(fs: FS, kind: Report, path: Path, t: Table, header: seq<string>, lines: seq<string>)
    : Result<Table>
    decreases |lines|
  {
    if lines == [] then Ok(t)
    else
      var row := DecodeLine(header, lines[0]);
      if Undetermined(row) then FoldLines(fs, kind, path, t, header, lines[1..])
      else
        var u :- Apply(fs, kind, path, t, row);
        FoldLines(fs, kind, path, u, header, lines[1..])
  }

  /** One report file: its first line is the header. An empty file makes
      `next` raise `StopIteration` inside the generator, which Python turns
      into a `RuntimeError`. */
  function FoldFile(fs: FS, kind: Report, path: Path, t: Table): (r: Result<Table>)
    ensures ReadLines(fs, path).Err? ==> r.Err?
    ensures ReadLines(fs, path) == Ok([]) ==> r.Err?
  {
    var lines :- ReadLines(fs, path);
    if lines == [] then Err("RuntimeError: generator raised StopIteration")
    else FoldLines(fs, kind, path, t, Split(lines[0], ','), lines[1..])
  }

  /** The report files of one kind, in tuple order. */
  function FoldFiles(fs: FS, kind: Report, t: Table, paths: seq<Path>): Result<Table>
    decreases |paths|
  {
    if paths == [] then Ok(t)
    else
      var u :- FoldFile(fs, kind, paths[0], t);
      FoldFiles(fs, kind, u, paths[1..])
  }

  // ------------------------------------------------------ last write wins

  /** The fastq-list entries a list file's data lines decode to, in file
      order: `Undetermined` rows and rows that fail validation are absent. */
  function FastqEntries(fs: FS, path: Path, header: seq<string>, lines: seq<string>): seq<FastqListEntry>
    decreases |lines|
  {
    if lines == [] then []
    else
      var row := DecodeLine(header, lines[0]);
      var rest := FastqEntries(fs, path, header, lines[1..]);
      if Undetermined(row) then rest
      else match MakeFastqListEntry(fs, path, row)
        case Ok(e) => [e] + rest
        case Err(_) => rest
  }

  /** The last entry for a sample id. */
  function LastFastq(entries: seq<FastqListEntry>, id: string): (r: Option<FastqListEntry>)
    ensures r.Some? ==> r.value in entries && r.value.sampleId == id
    ensures r.None? ==> forall i :: 0 <= i < |entries| ==> entries[i].sampleId != id
  {
    if entries == [] then None
    else match LastFastq(entries[1..], id)
      case Some(e) => Some(e)
      case None => if entries[0].sampleId == id then Some(entries[0]) else None
  }

  /** After a fastq list, a sample's fragment holds exactly its last valid
      entry and nothing else; a sample without entries is untouched. */
  lemma {:induction false} FastqLinesLastWins(fs: FS, path: Path, t: Table, header: seq<string>,
                                              lines: seq<string>, id: string)
    requires FoldLines(fs, FastqList, path, t, header, lines).Ok?
    ensures var u := FoldLines(fs, FastqList, path, t, header, lines).value;
            match LastFastq(FastqEntries(fs, path, header, lines), id)
              case Some(e) => id in u.frags && u.frags[id] == Fragment(Some(e), None, None, None)
              case None => Get(u, id) == Get(t, id) && (id in u.frags <==> id in t.frags)
    decreases |lines|
  {
    if lines != [] {
      var row := DecodeLine(header, lines[0]);
      if Undetermined(row) {
        FastqLinesLastWins(fs, path, t, header, lines[1..], id);
      } else {
        var u := FastqStep(fs, path, t, row).value;
        FastqLinesLastWins(fs, path, u, header, lines[1..], id);
      }
    }
  }

  /** The demultiplexing statistics a report's data lines decode to, in
      file order. */
  function DemuxEntries(header: seq<string>, lines: seq<string>): seq<DemuxStats>
    decreases |lines|
  {
    if lines == [] then []
    else
      var row := DecodeLine(header, lines[0]);
      var rest := DemuxEntries(header, lines[1..]);
      if Undetermined(row) then rest
      else match DecodeDemuxStats(row)
        case Ok(d) => [d] + rest
        case Err(_) => rest
  }

  function LastDemux(entries: seq<DemuxStats>, id: string): (r: Option<DemuxStats>)
    ensures r.Some? ==> r.value in entries && r.value.sampleId == id
    ensures r.None? ==> forall i :: 0 <= i < |entries| ==> entries[i].sampleId != id
  {
    if entries == [] then None
    else match LastDemux(entries[1..], id)
      case Some(d) => Some(d)
      case None => if entries[0].sampleId == id then Some(entries[0]) else None
  }

  /** One demultiplexing row, seen from one sample id. */
  lemma DemuxStepAt(t: Table, row: Row, id: string)
    ensures DecodeDemuxStats(row).Ok? && DecodeDemuxStats(row).value.sampleId == id ==>
              id in DemuxStep(t, row).frags &&
              Get(DemuxStep(t, row), id) == Get(t, id).(demuxStats := Some(DecodeDemuxStats(row).value))
    ensures !(DecodeDemuxStats(row).Ok? && DecodeDemuxStats(row).value.sampleId == id) ==>
              Get(DemuxStep(t, row), id) == Get(t, id) && (id in DemuxStep(t, row).frags <==> id in t.frags)
  {
  }

  /** After a demultiplexing report, a sample with rows has its last row's
      statistics and keeps every other part of its fragment; a sample without
      rows is untouched. */
  lemma {:induction false} DemuxLinesLastWins(fs: FS, path: Path, t: Table, header: seq<string>,
                                              lines: seq<string>, id: string)
    ensures FoldLines(fs, DemuxReport, path, t, header, lines).Ok?
    ensures var u := FoldLines(fs, DemuxReport, path, t, header, lines).value;
            match LastDemux(DemuxEntries(header, lines), id)
              case Some(d) => id in u.frags && u.frags[id] == Get(t, id).(demuxStats := Some(d))
              case None => Get(u, id) == Get(t, id) && (id in u.frags <==> id in t.frags)
    decreases |lines|
  {
    if lines != [] {
      var row := DecodeLine(header, lines[0]);
      if Undetermined(row) {
        DemuxLinesLastWins(fs, path, t, header, lines[1..], id);
      } else {
        var u := DemuxStep(t, row);
        DemuxStepAt(t, row, id);
        DemuxLinesLastWins(fs, path, u, header, lines[1..], id);
      }
    }
  }

  /** A valid quality row for read 1 or 2 of a sample that has no fragment
      ends the whole run with an error. */
  lemma UnknownSampleQualityRowAborts(fs: FS, path: Path, t: Table, header: seq<string>, lines: seq<string>)
    requires lines != []
    requires !Undetermined(DecodeLine(header, lines[0]))
    requires DecodeQualityMetrics(DecodeLine(header, lines[0])).Ok?
    requires DecodeQualityMetrics(DecodeLine(header, lines[0])).value.readNumber in {1, 2}
    requires DecodeQualityMetrics(DecodeLine(header, lines[0])).value.sampleId !in t.frags
    ensures FoldLines(fs, QualityReport, path, t, header, lines).Err?
  {
  }

  /** The quality metrics a report's data lines decode to, in file order. */
  function QualityEntries(header: seq<string>, lines: seq<string>): seq<QualityMetrics>
    decreases |lines|
  {
    if lines == [] then []
    else
      var row := DecodeLine(header, lines[0]);
      var rest := QualityEntries(header, lines[1..]);
      if Undetermined(row) then rest
      else match DecodeQualityMetrics(row)
        case Ok(q) => [q] + rest
        case Err(_) => rest
  }

  /** The last metrics for one read of a sample. */
  function LastQuality(entries: seq<QualityMetrics>, id: string, n: int): (r: Option<QualityMetrics>)
    ensures r.Some? ==> r.value in entries && r.value.sampleId == id && r.value.readNumber == n
    ensures r.None? ==> forall i :: 0 <= i < |entries| ==>
              entries[i].sampleId != id || entries[i].readNumber != n
  {
    if entries == [] then None
    else match LastQuality(entries[1..], id, n)
      case Some(q) => Some(q)
      case None =>
        if entries[0].sampleId == id && entries[0].readNumber == n then Some(entries[0]) else None
  }

  /** The slot of a fragment that read `n` (1 or 2) is written to. */
  function Slot(f: Fragment, n: int): Option<QualityMetrics>
  {
    if n == 1 then f.qualityMetricsRead1 else f.qualityMetricsRead2
  }

  /** One quality row, seen from one read of one sample id: a matching row
      fills the slot, anything else leaves it; the key set, the fastq entry
      and the demultiplexing statistics never change. */
  lemma QualityStepAt(t: Table, row: Row, id: string, n: int)
    requires n == 1 || n == 2
    requires QualityStep(t, row).Ok?
    ensures var u := QualityStep(t, row).value;
            && (id in u.frags <==> id in t.frags)
            && Get(u, id).fastq == Get(t, id).fastq
            && Get(u, id).demuxStats == Get(t, id).demuxStats
    ensures var u := QualityStep(t, row).value;
            var d := DecodeQualityMetrics(row);
            if d.Ok? && d.value.sampleId == id && d.value.readNumber == n
            then Slot(Get(u, id), n) == Some(d.value)
            else Slot(Get(u, id), n) == Slot(Get(t, id), n)
  {
  }

  /** After a quality report that does not abort, read `n` of a sample holds
      its last row's metrics, or is untouched when the sample has none; the
      rest of the fragment and the key set never change. */
  lemma {:induction false} QualityLinesLastWins(fs: FS, path: Path, t: Table, header: seq<string>,
                                                lines: seq<string>, id: string, n: int)
    requires n == 1 || n == 2
    requires FoldLines(fs, QualityReport, path, t, header, lines).Ok?
    ensures var u := FoldLines(fs, QualityReport, path, t, header, lines).value;
            && (id in u.frags <==> id in t.frags)
            && Get(u, id).fastq == Get(t, id).fastq
            && Get(u, id).demuxStats == Get(t, id).demuxStats
    ensures var u := FoldLines(fs, QualityReport, path, t, header, lines).value;
            match LastQuality(QualityEntries(header, lines), id, n)
              case Some(q) => Slot(Get(u, id), n) == Some(q)
              case None => Slot(Get(u, id), n) == Slot(Get(t, id), n)
    decreases |lines|
  {
    if lines != [] {
      var row := DecodeLine(header, lines[0]);
      if Undetermined(row) {
        QualityLinesLastWins(fs, path, t, header, lines[1..], id, n);
      } else {
        var u := QualityStep(t, row).value;
        QualityStepAt(t, row, id, n);
        QualityLinesLastWins(fs, path, u, header, lines[1..], id, n);
      }
    }
  }

  /** A quality report never adds a sample or moves one. */
  lemma {:induction false} QualityLinesKeepOrder(fs: FS, path: Path, t: Table, header: seq<string>,
                                                 lines: seq<string>)
    requires Good(t)
    requires FoldLines(fs, QualityReport, path, t, header, lines).Ok?
    ensures Good(FoldLines(fs, QualityReport, path, t, header, lines).value)
    ensures FoldLines(fs, QualityReport, path, t, header, lines).value.order == t.order
    decreases |lines|
  {
    if lines != [] {
      var row := DecodeLine(header, lines[0]);
      if Undetermined(row) {
        QualityLinesKeepOrder(fs, path, t, header, lines[1..]);
      } else {
        var u := QualityStep(t, row).value;
        assert Good(u) && u.order == t.order;
        QualityLinesKeepOrder(fs, path, u, header, lines[1..]);
      }
    }
  }

  // -------------------------------------------------------------- invariant

  /** Every part of a fragment belongs to the sample it is filed under, read
      metrics sit in the slot of their read number, and the fastq entry comes
      from one of the given list files. */
  predicate FragmentOf(f: Fragment, id: string, listFiles: seq<Path>)
  {
    && (f.fastq.Some? ==> f.fastq.value.sampleId == id && f.fastq.value.file in listFiles)
    && (f.demuxStats.Some? ==> f.demuxStats.value.sampleId == id)
    && (f.qualityMetricsRead1.Some? ==>
          f.qualityMetricsRead1.value.sampleId == id && f.qualityMetricsRead1.value.readNumber == 1)
    && (f.qualityMetricsRead2.Some? ==>
          f.qualityMetricsRead2.value.sampleId == id && f.qualityMetricsRead2.value.readNumber == 2)
  }

  predicate Inv(t: Table, listFiles: seq<Path>)
  {
    Good(t) && forall id :: id in t.frags ==> FragmentOf(t.frags[id], id, listFiles)
  }

  /** Storing a fragment that belongs to its key keeps the invariant. */
  lemma PutKeepsInv(t: Table, id: string, f: Fragment, listFiles: seq<Path>)
    requires Inv(t, listFiles) && FragmentOf(f, id, listFiles)
    ensures Inv(Put(t, id, f), listFiles)
  {
  }

  lemma FastqStepKeepsInv(fs: FS, path: Path, t: Table, row: Row, listFiles: seq<Path>)
    requires Inv(t, listFiles) && path in listFiles
    requires FastqStep(fs, path, t, row).Ok?
    ensures Inv(FastqStep(fs, path, t, row).value, listFiles)
  {
    var e := MakeFastqListEntry(fs, path, row);
    if e.Ok? {
      PutKeepsInv(t, e.value.sampleId, Fragment(Some(e.value), None, None, None), listFiles);
    }
  }

  lemma DemuxStepKeepsInv(t: Table, row: Row, listFiles: seq<Path>)
    requires Inv(t, listFiles)
    ensures Inv(DemuxStep(t, row), listFiles)
  {
    if DecodeDemuxStats(row).Ok? {
      var d := DecodeDemuxStats(row).value;
      assert FragmentOf(Get(t, d.sampleId), d.sampleId, listFiles);
      PutKeepsInv(t, d.sampleId, Get(t, d.sampleId).(demuxStats := Some(d)), listFiles);
    }
  }

  lemma QualityStepKeepsInv(t: Table, row: Row, listFiles: seq<Path>)
    requires Inv(t, listFiles)
    requires QualityStep(t, row).Ok?
    ensures Inv(QualityStep(t, row).value, listFiles)
  {
    if DecodeQualityMetrics(row).Ok? {
      var q := DecodeQualityMetrics(row).value;
      if q.readNumber == 1 {
        PutKeepsInv(t, q.sampleId, t.frags[q.sampleId].(qualityMetricsRead1 := Some(q)), listFiles);
      } else if q.readNumber == 2 {
        PutKeepsInv(t, q.sampleId, t.frags[q.sampleId].(qualityMetricsRead2 := Some(q)), listFiles);
      }
    }
  }

  /** Every step keeps the fragments tied to their keys and the fastq files
      to the lists they were read from. */
  lemma ApplyKeepsInv(fs: FS, kind: Report, path: Path, t: Table, row: Row, listFiles: seq<Path>)
    requires Inv(t, listFiles)
    requires kind == FastqList ==> path in listFiles
    requires Apply(fs, kind, path, t, row).Ok?
    ensures Inv(Apply(fs, kind, path, t, row).value, listFiles)
  {
    match kind {
      case FastqList => FastqStepKeepsInv(fs, path, t, row, listFiles);
      case DemuxReport => DemuxStepKeepsInv(t, row, listFiles);
      case QualityReport => QualityStepKeepsInv(t, row, listFiles);
    }
  }

  lemma {:induction false} FoldLinesKeepsInv(fs: FS, kind: Report, path: Path, t: Table,
                                             header: seq<string>, lines: seq<string>, listFiles: seq<Path>)
    requires Inv(t, listFiles)
    requires kind == FastqList ==> path in listFiles
    ensures FoldLines(fs, kind, path, t, header, lines).Ok? ==>
            Inv(FoldLines(fs, kind, path, t, header, lines).value, listFiles)
    decreases |lines|
  {
    if lines != [] {
      var row := DecodeLine(header, lines[0]);
      if Undetermined(row) {
        FoldLinesKeepsInv(fs, kind, path, t, header, lines[1..], listFiles);
      } else if Apply(fs, kind, path, t, row).Ok? {
        var u := Apply(fs, kind, path, t, row).value;
        ApplyKeepsInv(fs, kind, path, t, row, listFiles);
        FoldLinesKeepsInv(fs, kind, path, u, header, lines[1..], listFiles);
      }
    }
  }

  lemma {:induction false} FoldFilesKeepsInv(fs: FS, kind: Report, t: Table, paths: seq<Path>,
                                             listFiles: seq<Path>)
    requires Inv(t, listFiles)
    requires kind == FastqList ==> forall i :: 0 <= i < |paths| ==> paths[i] in listFiles
    ensures FoldFiles(fs, kind, t, paths).Ok? ==> Inv(FoldFiles(fs, kind, t, paths).value, listFiles)
    decreases |paths|
  {
    if paths != [] && FoldFile(fs, kind, paths[0], t).Ok? {
      var lines := ReadLines(fs, paths[0]).value;
      FoldLinesKeepsInv(fs, kind, paths[0], t, Split(lines[0], ','), lines[1..], listFiles);
      var u := FoldFile(fs, kind, paths[0], t).value;
      FoldFilesKeepsInv(fs, kind, u, paths[1..], listFiles);
    }
  }

  // ------------------------------------------------------------------ output

  /** The records of the fragments that validate, in key order. */
  function Emit(keys: seq<string>, frags: map<string, Fragment>): (r: seq<CombinedSampleData>)
    requires forall i :: 0 <= i < |keys| ==> keys[i] in frags
    ensures |r| <= |keys|
    ensures forall i :: 0 <= i < |r| ==> ValidCombined(r[i])
  {
    if keys == [] then []
    else match Combine(frags[keys[0]])
      case Ok(c) => [c] + Emit(keys[1..], frags)
      case Err(_) => Emit(keys[1..], frags)
  }

  /** A record is emitted exactly when some key's fragment combines into it. */
  lemma {:induction false} EmitMembers(keys: seq<string>, frags: map<string, Fragment>, c: CombinedSampleData)
    requires forall i :: 0 <= i < |keys| ==> keys[i] in frags
    ensures c in Emit(keys, frags) <==> exists i :: 0 <= i < |keys| && Combine(frags[keys[i]]) == Ok(c)
  {
    if keys != [] {
      EmitMembers(keys[1..], frags, c);
      if exists i :: 0 <= i < |keys| && Combine(frags[keys[i]]) == Ok(c) {
        var i :| 0 <= i < |keys| && Combine(frags[keys[i]]) == Ok(c);
        if i > 0 {
          assert keys[1..][i - 1] == keys[i];
        }
      }
      if exists i :: 0 <= i < |keys| - 1 && Combine(frags[keys[1..][i]]) == Ok(c) {
        var i :| 0 <= i < |keys| - 1 && Combine(frags[keys[1..][i]]) == Ok(c);
        assert keys[i + 1] == keys[1..][i];
      }
    }
  }

  /** Records follow the keys: each record's sample id is its key, so
      records come out in key order and no sample id repeats. */
  lemma {:induction false} EmitFollowsKeys(keys: seq<string>, frags: map<string, Fragment>, listFiles: seq<Path>)
    requires forall i :: 0 <= i < |keys| ==> keys[i] in frags
    requires forall i :: 0 <= i < |keys| ==> FragmentOf(frags[keys[i]], keys[i], listFiles)
    requires forall i, j :: 0 <= i < j < |keys| ==> keys[i] != keys[j]
    ensures forall i :: 0 <= i < |Emit(keys, frags)| ==>
              Emit(keys, frags)[i].fastq.sampleId in keys && Emit(keys, frags)[i].fastq.file in listFiles
    ensures forall i, j :: 0 <= i < j < |Emit(keys, frags)| ==>
              Emit(keys, frags)[i].fastq.sampleId != Emit(keys, frags)[j].fastq.sampleId
  {
    if keys != [] {
      var rest := Emit(keys[1..], frags);
      EmitFollowsKeys(keys[1..], frags, listFiles);
      forall i | 0 <= i < |rest| ensures rest[i].fastq.sampleId != keys[0] {
        var k :| k in keys[1..] && k == rest[i].fastq.sampleId;
        var m :| 0 <= m < |keys| - 1 && keys[1..][m] == k;
        assert keys[m + 1] == k;
      }
    }
  }

  /** Emitting a concatenation emits each part in turn. */
  lemma {:induction false} EmitAppend(a: seq<string>, b: seq<string>, frags: map<string, Fragment>)
    requires forall i :: 0 <= i < |a| ==> a[i] in frags
    requires forall i :: 0 <= i < |b| ==> b[i] in frags
    ensures forall i :: 0 <= i < |a + b| ==> (a + b)[i] in frags
    ensures Emit(a + b, frags) == Emit(a, frags) + Emit(b, frags)
  {
    if a == [] {
      assert a + b == b;
    } else {
      assert (a + b)[0] == a[0] && (a + b)[1..] == a[1..] + b;
      EmitAppend(a[1..], b, frags);
    }
  }

  /** A key whose fragment combines yields its record right after the
      records of the keys before it. */
  lemma EmitAt(keys: seq<string>, frags: map<string, Fragment>, i: int)
    requires forall k :: 0 <= k < |keys| ==> keys[k] in frags
    requires 0 <= i < |keys| && Combine(frags[keys[i]]).Ok?
    ensures |Emit(keys[..i], frags)| < |Emit(keys, frags)|
    ensures Emit(keys, frags)[|Emit(keys[..i], frags)|] == Combine(frags[keys[i]]).value
  {
    var tail := keys[i..];
    assert keys == keys[..i] + tail;
    EmitAppend(keys[..i], tail, frags);
    assert tail[0] == keys[i];
  }

  /** When every fragment combines, there is one record per key, in key
      order. */
  lemma {:induction false} EmitAllCombine(keys: seq<string>, frags: map<string, Fragment>)
    requires forall k :: 0 <= k < |keys| ==> keys[k] in frags && Combine(frags[keys[k]]).Ok?
    ensures |Emit(keys, frags)| == |keys|
    ensures forall k :: 0 <= k < |keys| ==> Emit(keys, frags)[k] == Combine(frags[keys[k]]).value
  {
    if keys != [] {
      EmitAllCombine(keys[1..], frags);
      forall k | 1 <= k < |keys|
        ensures Emit(keys, frags)[k] == Combine(frags[keys[k]]).value
      {
        assert keys[1..][k - 1] == keys[k];
      }
    }
  }

  // ------------------------------------------------------------------- run

  /** The joined table: all fastq lists, then all demultiplexing reports,
      then all quality reports, each in tuple order. */
  function JoinReports(fs: FS, folder: BclConvertFolder): (r: Result<Table>)
    ensures r.Ok? ==> Inv(r.value, folder.fastqListPaths)
  {
    var listFiles := folder.fastqListPaths;
    FoldFilesKeepsInv(fs, FastqList, EmptyTable, listFiles, listFiles);
    var t1 :- FoldFiles(fs, FastqList, EmptyTable, listFiles);
    FoldFilesKeepsInv(fs, DemuxReport, t1, folder.demultiplexStatsPaths, listFiles);
    var t2 :- FoldFiles(fs, DemuxReport, t1, folder.demultiplexStatsPaths);
    FoldFilesKeepsInv(fs, QualityReport, t2, folder.qualityMetricsPaths, listFiles);
    FoldFiles(fs, QualityReport, t2, folder.qualityMetricsPaths)
  }

  /** `parse_bclconvert_folder`: the joined table, then one record per
      fragment that validates, in first-insertion order of its sample id. */
  function ParseBclconvertFolder(fs: FS, folder: BclConvertFolder): (r: Result<seq<CombinedSampleData>>)
    ensures r.Ok? <==> JoinReports(fs, folder).Ok?
    ensures r.Ok? ==> r.value == Emit(JoinReports(fs, folder).value.order, JoinReports(fs, folder).value.frags)
    ensures r.Ok? ==> forall i :: 0 <= i < |r.value| ==>
      && ValidCombined(r.value[i])
      && r.value[i].fastq.file in folder.fastqListPaths
    ensures r.Ok? ==> forall i, j :: 0 <= i < j < |r.value| ==>
      r.value[i].fastq.sampleId != r.value[j].fastq.sampleId
  {
    var t :- JoinReports(fs, folder);
    EmitFollowsKeys(t.order, t.frags, folder.fastqListPaths);
    Ok(Emit(t.order, t.frags))
  }

  /** A sample whose joined fragment validates yields exactly one record,
      placed after the records of the samples inserted before it. */
  lemma SampleRecordAtInsertion(fs: FS, folder: BclConvertFolder, i: int)
    requires JoinReports(fs, folder).Ok?
    requires 0 <= i < |JoinReports(fs, folder).value.order|
    requires var t := JoinReports(fs, folder).value; Combine(t.frags[t.order[i]]).Ok?
    ensures var t := JoinReports(fs, folder).value;
            var out := ParseBclconvertFolder(fs, folder).value;
            var at := |Emit(t.order[..i], t.frags)|;
            && at < |out|
            && out[at] == Combine(t.frags[t.order[i]]).value
            && out[at].fastq.sampleId == t.order[i]
            && forall j :: 0 <= j < |out| && j != at ==> out[j].fastq.sampleId != t.order[i]
  {
    var t := JoinReports(fs, folder).value;
    EmitAt(t.order, t.frags, i);
    var at := |Emit(t.order[..i], t.frags)|;
    var out := ParseBclconvertFolder(fs, folder).value;
    assert FragmentOf(t.frags[t.order[i]], t.order[i], folder.fastqListPaths);
    assert out[at].fastq.sampleId == t.order[i];
  }

  /** When every sample's fragment validates, the run returns one record per
      sample, in first-insertion order. */
  lemma EverySampleEmitted(fs: FS, folder: BclConvertFolder)
    requires JoinReports(fs, folder).Ok?
    requires var t := JoinReports(fs, folder).value;
             forall k :: 0 <= k < |t.order| ==> Combine(t.frags[t.order[k]]).Ok?
    ensures var t := JoinReports(fs, folder).value;
            var out := ParseBclconvertFolder(fs, folder).value;
            && |out| == |t.order|
            && forall k :: 0 <= k < |out| ==> out[k].fastq.sampleId == t.order[k]
  {
    var t := JoinReports(fs, folder).value;
    EmitAllCombine(t.order, t.frags);
    forall k | 0 <= k < |t.order|
      ensures Emit(t.order, t.frags)[k].fastq.sampleId == t.order[k]
    {
      assert FragmentOf(t.frags[t.order[k]], t.order[k], folder.fastqListPaths);
    }
  }
}

=== FILE: paths.dfy ===
/** POSIX `pathlib` paths, lexically. A path is absolute or relative plus its
    segments; construction drops empty and `.` segments as pathlib does, and
    `resolve()` joins with the working directory and collapses `..`
    segments without consulting symbolic links. */
module Paths {
  import opened Text

  datatype Path = Path(absolute: bool, parts: seq<string>)

  /** A segment as pathlib keeps it. */
  predicate ValidPart(s: string)
  {
    s != "" && s != "." && '/' !in s
  }

  predicate WellFormed(p: Path)
  {
    forall i :: 0 <= i < |p.parts| ==> ValidPart(p.parts[i])
  }

  /** Drops the empty and `.` pieces of a split path string. */
  function KeepParts(xs: seq<string>): (r: seq<string>)
    ensures forall i :: 0 <= i < |r| ==> r[i] != "" && r[i] != "."
    ensures forall i :: 0 <= i < |xs| && xs[i] != "" && xs[i] != "." ==> xs[i] in r
  {
    if xs == [] then []
    else if xs[0] == "" || xs[0] == "." then KeepParts(xs[1..])
    else [xs[0]] + KeepParts(xs[1..])
  }

  lemma {:induction false} KeepPartsInvariant(xs: seq<string>)
    requires forall i :: 0 <= i < |xs| ==> ValidPart(xs[i])
    ensures KeepParts(xs) == xs
  {
    if xs != [] {
      KeepPartsInvariant(xs[1..]);
      assert [xs[0]] + xs[1..] == xs;
    }
  }

  lemma {:induction false} KeepPartsNoSlash(xs: seq<string>)
    requires forall i :: 0 <= i < |xs| ==> '/' !in xs[i]
    ensures forall i :: 0 <= i < |KeepParts(xs)| ==> '/' !in KeepParts(xs)[i]
  {
    if xs != [] {
      KeepPartsNoSlash(xs[1..]);
    }
  }

  /** `Path(s)` for a path string. */
  function Parse(s: string): (p: Path)
    ensures WellFormed(p)
    ensures p.absolute <==> |s| > 0 && s[0] == '/'
  {
    KeepPartsNoSlash(Split(s, '/'));
    Path(|s| > 0 && s[0] == '/', KeepParts(Split(s, '/')))
  }

  /** `str(p)`. */
  function ToString(p: Path): string
  {
    if p.absolute then "/" + Join(p.parts, '/')
    else if p.parts == [] then "."
    else Join(p.parts, '/')
  }

  /** Printing a path and reading it back gives the same path. */
  lemma ParseToString(p: Path)
    requires WellFormed(p)
    ensures Parse(ToString(p)) == p
  {
    if p.parts == [] {
      if p.absolute {
        assert ToString(p) == "/";
        assert Split("/", '/') == ["", ""];
      } else {
        SplitNoSep(".", '/');
      }
    } else if p.absolute {
      ParseAbsolute(p.parts);
    } else {
      ParseRelative(p.parts);
    }
  }

  lemma ParseAbsolute(parts: seq<string>)
    requires |parts| > 0
    requires forall i :: 0 <= i < |parts| ==> ValidPart(parts[i])
    ensures Parse(ToString(Path(true, parts))) == Path(true, parts)
  {
    var s := ToString(Path(true, parts));
    assert s == [] + ['/'] + Join(parts, '/');
    SplitPrefix([], Join(parts, '/'), '/');
    SplitJoin(parts, '/');
    assert Split(s, '/') == [""] + parts;
    KeepPartsInvariant(parts);
    assert KeepParts([""] + parts) == KeepParts(parts);
  }

  lemma ParseRelative(parts: seq<string>)
    requires |parts| > 0
    requires forall i :: 0 <= i < |parts| ==> ValidPart(parts[i])
    ensures Parse(ToString(Path(false, parts))) == Path(false, parts)
  {
    var s := ToString(Path(false, parts));
    assert s == Join(parts, '/');
    SplitJoin(parts, '/');
    KeepPartsInvariant(parts);
    JoinHead(parts, '/');
    assert parts[0][0] != '/';
  }

  lemma JoinHead(parts: seq<string>, sep: char)
    requires |parts| >= 1 && |parts[0]| >= 1
    ensures |Join(parts, sep)| >= 1 && Join(parts, sep)[0] == parts[0][0]
  {
  }

  /** `base / rel`: an absolute right-hand side replaces the base. */
  function JoinPath(base: Path, rel: Path): (r: Path)
    ensures rel.absolute ==> r == rel
    ensures !rel.absolute ==> r.absolute == base.absolute && r.parts == base.parts + rel.parts
  {
    if rel.absolute then rel else Path(base.absolute, base.parts + rel.parts)
  }

  /** `/` is associative: joining step by step is joining the joined tail. */
  lemma JoinPathAssociative(a: Path, b: Path, c: Path)
    ensures JoinPath(JoinPath(a, b), c) == JoinPath(a, JoinPath(b, c))
  {
    if !b.absolute && !c.absolute {
      assert (a.parts + b.parts) + c.parts == a.parts + (b.parts + c.parts);
    }
  }

  /** `p.name`: the last segment, or the empty string. */
  function Name(p: Path): string
  {
    if |p.parts| == 0 then "" else p.parts[|p.parts| - 1]
  }

  /** `p.parent`: the path without its last segment (`/` and `.` are their own parent). */
  function Parent(p: Path): (r: Path)
    ensures r.absolute == p.absolute
    ensures |p.parts| > 0 ==> JoinPath(r, Path(false, [Name(p)])) == p
    ensures |p.parts| == 0 ==> r == p
  {
    if |p.parts| == 0 then p else Path(p.absolute, p.parts[..|p.parts| - 1])
  }

  /** `p.with_name(name)`; pathlib refuses a path without a name. */
  function WithName(p: Path, name: string): (r: Path)
    requires |p.parts| > 0
    ensures Parent(r) == Parent(p) && Name(r) == name
  {
    Path(p.absolute, p.parts[..|p.parts| - 1] + [name])
  }

  /** One step of `..` collapsing: `..` drops the previous segment (and is
      ignored at the root), anything else is appended. */
  function Step(acc: seq<string>, part: string): seq<string>
  {
    if part == ".." then (if |acc| > 0 then acc[..|acc| - 1] else acc)
    else acc + [part]
  }

  function Collapse(parts: seq<string>): (r: seq<string>)
    ensures forall i :: 0 <= i < |r| ==> r[i] != ".."
    ensures |r| <= |parts|
  {
    if |parts| == 0 then []
    else Step(Collapse(parts[..|parts| - 1]), parts[|parts| - 1])
  }

  /** `p.resolve()` with working directory `cwd` (an absolute, collapsed
      segment list). */
  function Resolve(cwd: seq<string>, p: Path): (r: Path)
    ensures r.absolute
    ensures forall i :: 0 <= i < |r.parts| ==> r.parts[i] != ".."
  {
    Path(true, Collapse(if p.absolute then p.parts else cwd + p.parts))
  }

  lemma {:induction false} CollapseNoDots(parts: seq<string>)
    requires forall i :: 0 <= i < |parts| ==> parts[i] != ".."
    ensures Collapse(parts) == parts
  {
    if |parts| > 0 {
      CollapseNoDots(parts[..|parts| - 1]);
      assert parts[..|parts| - 1] + [parts[|parts| - 1]] == parts;
    }
  }

  /** Resolving is idempotent. */
  lemma ResolveIdempotent(cwd: seq<string>, p: Path)
    ensures Resolve(cwd, Resolve(cwd, p)) == Resolve(cwd, p)
  {
    CollapseNoDots(Resolve(cwd, p).parts);
  }

  /** Resolving `p / name` for a real directory entry name appends that name
      to the resolved `p`: this is how the folder scanner's `item.resolve()`
      is modelled. */
  lemma ResolveChild(cwd: seq<string>, p: Path, name: string)
    requires ValidPart(name) && name != ".."
    ensures Resolve(cwd, JoinPath(p, Path(false, [name]))) == Path(true, Resolve(cwd, p).parts + [name])
  {
    var base := if p.absolute then p.parts else cwd + p.parts;
    var joined := JoinPath(p, Path(false, [name]));
    var full := if joined.absolute then joined.parts else cwd + joined.parts;
    assert full == base + [name];
    assert full[..|full| - 1] == base;
    assert Collapse(full) == Step(Collapse(base), name);
  }

  /** Lexicographic order on sequences, from a strict order on elements; a
      proper prefix comes first, as in Python's list comparison. */
  predicate LexLe<T(==)>(a: seq<T>, b: seq<T>, lt: (T, T) -> bool)
  {
    |a| == 0 || (|b| > 0 && (lt(a[0], b[0]) || (a[0] == b[0] && LexLe(a[1..], b[1..], lt))))
  }

  lemma {:induction false} LexTotal<T>(a: seq<T>, b: seq<T>, lt: (T, T) -> bool)
    requires forall x, y :: lt(x, y) || lt(y, x) || x == y
    ensures LexLe(a, b, lt) || LexLe(b, a, lt)
  {
    if |a| > 0 && |b| > 0 && a[0] == b[0] {
      LexTotal(a[1..], b[1..], lt);
    }
  }

  predicate CharLt(x: char, y: char)
  {
    x < y
  }

  /** Python's `<` on strings: code point by code point. */
  predicate StrLt(a: string, b: string)
  {
    LexLe(a, b, CharLt) && a != b
  }

  lemma StrTrichotomy()
    ensures forall x: string, y: string :: StrLt(x, y) || StrLt(y, x) || x == y
  {
    forall x: string, y: string
      ensures StrLt(x, y) || StrLt(y, x) || x == y
    {
      LexTotal(x, y, CharLt);
    }
  }

  /** `p <= q` for absolute paths: segment lists compared as Python lists. */
  predicate PathLe(p: Path, q: Path)
  {
    LexLe(p.parts, q.parts, StrLt)
  }

  lemma PathLeTotal(p: Path, q: Path)
    ensures PathLe(p, q) || PathLe(q, p)
  {
    StrTrichotomy();
    LexTotal(p.parts, q.parts, StrLt);
  }
}

=== FILE: sapio_types.dfy ===
/** The QC record mapper: turns one combined sample record into the
    `SequencingFile` record of the LIMS, with its derived metrics, its
    computed fields and the payload handed to the client. Floating-point
    metrics are exact reals here. */
module SapioTypes {
  import opened Wrappers
  import opened Text
  import opened Paths
  import opened Models
  import opened Uuids

  // ---------------------------------------------------------- path inputs

  /** What a path field of the record may be given as. */
  datatype PathInput = PathText(text: string) | PathValue(path: Path) | NoInput

  /** `empty_string_to_none`: the empty string stands for no path; any other
      text is read as a path. */
  function EmptyStringToNone(v: PathInput): (r: Option<Path>)
    ensures r.None? <==> v == NoInput || v == PathText("")
    ensures v.PathValue? ==> r == Some(v.path)
  {
    match v
      case NoInput => None
      case PathValue(p) => Some(p)
      case PathText(s) => if s == "" then None else Some(Parse(s))
  }

  /** A path written out as text and given back is the same path: the text
      of a path is never empty. */
  lemma PathTextRoundTrip(p: Path)
    requires WellFormed(p)
    ensures EmptyStringToNone(PathText(ToString(p))) == Some(p)
  {
    ParseToString(p);
    assert ToString(p) != "" by {
      if p.absolute {
        assert ToString(p)[0] == '/';
      }
    }
  }

  // ----------------------------------------------------------- the record

  datatype SequencingFile = SequencingFile(
    recordId: Option<int>,
    sampleGuid: string,
    fastqPathR1: Option<Path>,
    fastqPathR2: Option<Path>,
    fastqPathI1: Option<Path>,
    fastqPathI2: Option<Path>,
    sampleName: Option<string>,
    allFilesAvailable: bool,
    readsPf: Option<int>,
    pfClustersPercentPerLane: Option<real>,
    perfectIndexReadPercent: Option<real>,
    oneMismatchIndexReadPercent: Option<real>,
    yieldPfGb: Option<real>,
    basesQ30Percent: Option<real>,
    averageQScore: Option<real>)

  /** `dataReadPasses`: how many data reads have a FASTQ file. A path is
      always truthy, so only presence matters. */
  function DataReadPasses(f: SequencingFile): (r: Option<int>)
    ensures r == Some(2) <==> f.fastqPathR1.Some? && f.fastqPathR2.Some?
    ensures r == Some(1) <==> f.fastqPathR1.Some? && f.fastqPathR2.None?
    ensures r.None? <==> f.fastqPathR1.None?
  {
    if f.fastqPathR1.Some? && f.fastqPathR2.Some? then Some(2)
    else if f.fastqPathR1.Some? then Some(1)
    else None
  }

  /** `oraCompressionEnabled`: whether the R1 file name mentions `.ora`. */
  function OraCompressionEnabled(f: SequencingFile): (r: Option<bool>)
    ensures r.None? <==> f.fastqPathR1.None?
    ensures r.Some? ==> (r.value <==> exists i :: OccursAt(Name(f.fastqPathR1.value), ".ora", i))
  {
    if f.fastqPathR1.None? then None
    else Some(Contains(Name(f.fastqPathR1.value), ".ora"))
  }

  /** The end of the run of decimal digits starting at `i`. */
  function DigitRunEnd(s: string, i: nat): (e: nat)
    requires i <= |s|
    ensures i <= e <= |s|
    ensures AllDigits(s[i..e])
    ensures e < |s| ==> !IsDigit(s[e])
    decreases |s| - i
  {
    if i < |s| && IsDigit(s[i]) then
      var e := DigitRunEnd(s, i + 1);
      assert s[i..e] == [s[i]] + s[i + 1..e];
      e
    else i
  }

  /** `_S<digits>_` starts at `k`, with the whole digit run before the `_`. */
  predicate PositionTokenAt(name: string, k: nat)
  {
    && k + 2 <= |name| && name[k] == '_' && name[k + 1] == 'S'
    && var e := DigitRunEnd(name, k + 2);
       e > k + 2 && e < |name| && name[e] == '_'
  }

  /** The token the pattern `.*?_S(\d+)_.*?` anchored at the start finds at
      `k`: the lazy prefix cannot cross a newline. */
  predicate PositionMatchAt(name: string, k: nat)
  {
    PositionTokenAt(name, k) && forall j :: 0 <= j < k ==> name[j] != '\n'
  }

  function PositionValue(name: string, k: nat): nat
    requires PositionTokenAt(name, k)
  {
    DigitsValue(name[k + 2..DigitRunEnd(name, k + 2)])
  }

  /** Where the pattern's group starts, trying the lazy prefix lengths from
      `k` upwards. */
  function PositionFrom(name: string, k: nat): (r: Option<nat>)
    requires k <= |name|
    requires forall j :: 0 <= j < k ==> name[j] != '\n'
    ensures r.Some? ==> k <= r.value <= |name| && PositionMatchAt(name, r.value)
    ensures r.Some? ==> forall j :: k <= j < r.value ==> !PositionMatchAt(name, j)
    ensures r.None? ==> forall m :: k <= m <= |name| ==> !PositionMatchAt(name, m)
    decreases |name| - k
  {
    if PositionTokenAt(name, k) then Some(k)
    else if k < |name| && name[k] != '\n' then PositionFrom(name, k + 1)
    else None
  }

  /** `int(re.match(r".*?_S(\d+)_.*?", name).group(1))`. */
  function PositionInName(name: string): (r: Option<nat>)
    ensures r.Some? ==> exists m :: 0 <= m <= |name| && PositionMatchAt(name, m) &&
                                    r.value == PositionValue(name, m) &&
                                    forall j :: 0 <= j < m ==> !PositionMatchAt(name, j)
    ensures r.None? ==> forall m :: 0 <= m <= |name| ==> !PositionMatchAt(name, m)
  {
    match PositionFrom(name, 0)
      case None => None
      case Some(m) => Some(PositionValue(name, m))
  }

  /** `sampleSheetPosition`, from the R1 file name. */
  function SampleSheetPosition(f: SequencingFile): (r: Option<nat>)
    ensures f.fastqPathR1.None? ==> r.None?
    ensures f.fastqPathR1.Some? ==> r == PositionInName(Name(f.fastqPathR1.value))
  {
    if f.fastqPathR1.None? then None else PositionInName(Name(f.fastqPathR1.value))
  }

  /** No `_S` followed by a digit and no newline: text that cannot hold or
      hide the position token. */
  predicate NoPositionToken(sample: string)
  {
    && (forall j :: 0 <= j < |sample| ==> sample[j] != '\n')
    && (forall j :: 0 <= j < |sample| - 2 ==>
          !(sample[j] == '_' && sample[j + 1] == 'S' && IsDigit(sample[j + 2])))
  }

  /** A BCL Convert file name `<sample>_S<n>_<rest>` gives back `n`, when the
      sample part has no `_S` followed by a digit and no newline. */
  lemma {:induction false} PositionOfBclConvertName(sample: string, n: nat, rest: string)
    requires NoPositionToken(sample)
    ensures PositionInName(sample + "_S" + NatToDigits(n) + "_" + rest) == Some(n)
  {
    var digits := NatToDigits(n);
    var name := sample + "_S" + digits + "_" + rest;
    var k := |sample|;
    var e := k + 2 + |digits|;
    assert name[k] == '_' && name[k + 1] == 'S';
    assert name[k + 2..e] == digits;
    assert name[e] == '_';
    DigitRunExact(name, k + 2, e);
    assert PositionTokenAt(name, k);
    forall j | 0 <= j < k ensures !PositionTokenAt(name, j) {
      assert name[j] == sample[j];
      if j + 2 < k {
        assert name[j + 1] == sample[j + 1] && name[j + 2] == sample[j + 2];
      }
    }
    forall j | 0 <= j < k ensures name[j] != '\n' {
      assert name[j] == sample[j];
    }
    PositionFromSkips(name, 0, k);
    assert PositionFrom(name, k) == Some(k);
    DigitsRoundTrip(n);
  }

  /** An underscore in the sample part, as in `Sample_1`, does not hide the
      position that follows it. */
  lemma PositionOfUnderscoredSampleName(name: string)
    requires name == "Sample_1_S1_L001_R1_001.fastq.gz"
    ensures PositionInName(name) == Some(1)
  {
    var sample, rest := "Sample_1", "L001_R1_001.fastq.gz";
    assert NoPositionToken(sample) by {
      forall j | 0 <= j < |sample| - 2
        ensures !(sample[j] == '_' && sample[j + 1] == 'S' && IsDigit(sample[j + 2]))
      {
        assert sample[j + 1] != 'S';
      }
    }
    assert NatToDigits(1) == "1";
    assert name == sample + "_S" + NatToDigits(1) + "_" + rest;
    PositionOfBclConvertName(sample, 1, rest);
  }

  /** A digit run followed by a non-digit ends there. */
  lemma {:induction false} DigitRunExact(s: string, i: nat, e: nat)
    requires i <= e < |s|
    requires AllDigits(s[i..e]) && !IsDigit(s[e])
    ensures DigitRunEnd(s, i) == e
    decreases e - i
  {
    if i < e {
      assert s[i] == s[i..e][0];
      assert s[i + 1..e] == s[i..e][1..];
      DigitRunExact(s, i + 1, e);
    }
  }

  /** The search passes over positions holding no token and no newline. */
  lemma {:induction false} PositionFromSkips(name: string, k: nat, m: nat)
    requires k <= m <= |name|
    requires forall j :: 0 <= j < m ==> name[j] != '\n'
    requires forall j :: k <= j < m ==> !PositionTokenAt(name, j)
    ensures PositionFrom(name, k) == PositionFrom(name, m)
    decreases m - k
  {
    if k < m {
      assert !PositionTokenAt(name, k) && name[k] != '\n';
      assert PositionFrom(name, k) == PositionFrom(name, k + 1);
      PositionFromSkips(name, k + 1, m);
    }
  }

  /** `onboardAnalysisType`: DRAGEN germline output is recognised before
      BCL Convert output, on the whole R1 path string. */
  function OnboardAnalysisType(f: SequencingFile): (r: Option<string>)
    ensures r.None? <==>
      || f.fastqPathR1.None?
      || (!Contains(ToString(f.fastqPathR1.value), "/DragenGermline/") &&
          !Contains(ToString(f.fastqPathR1.value), "/BCLConvert"))
    ensures r == Some("DragenGermline") <==>
      f.fastqPathR1.Some? && Contains(ToString(f.fastqPathR1.value), "/DragenGermline/")
    ensures r == Some("BCLConvert") <==>
      && f.fastqPathR1.Some?
      && !Contains(ToString(f.fastqPathR1.value), "/DragenGermline/")
      && Contains(ToString(f.fastqPathR1.value), "/BCLConvert")
  {
    if f.fastqPathR1.None? then None
    else
      var s := ToString(f.fastqPathR1.value);
      if Contains(s, "/DragenGermline/") then Some("DragenGermline")
      else if Contains(s, "/BCLConvert") then Some("BCLConvert")
      else None
  }

  // ------------------------------------------------------- from BCL Convert

  const GigaBases: real := 1000000000.0

  /** The stand-in read-2 metrics of single-end data: read 1's columns with
      read number 2 and no yield, Q30 yield or score. */
  function SyntheticRead2(qc1: QualityMetrics): (r: QualityMetrics)
    ensures r.readNumber == 2 && r.totalYield == 0 && r.yieldQ30 == 0 && r.qualityScoreSum == 0
    ensures r.sampleId == qc1.sampleId && r.lane == qc1.lane
  {
    qc1.(readNumber := 2, totalYield := 0, yieldQ30 := 0, qualityScoreSum := 0)
  }

  function Read2Metrics(c: CombinedSampleData): QualityMetrics
  {
    match c.qualityMetricsRead2
      case None => SyntheticRead2(c.qualityMetricsRead1)
      case Some(q) => q
  }

  /** `SequencingFile.from_bclconvert`: the sample id must contain a UUID;
      the yield metrics divide by the total yield, which must not be zero. */
  function FromBclconvert(c: CombinedSampleData): (r: Result<SequencingFile>)
    ensures SearchUuid(c.fastq.sampleId).None? ==> r.Err?
    ensures r.Ok? <==>
      SearchUuid(c.fastq.sampleId).Some? &&
      c.qualityMetricsRead1.totalYield + Read2Metrics(c).totalYield != 0
    ensures r.Ok? ==>
      && r.value.recordId.None?
      && UuidShaped(r.value.sampleGuid)
      && r.value.sampleGuid == Lower(SearchUuid(c.fastq.sampleId).value)
      && r.value.fastqPathR1 == Some(c.fastq.read1File)
      && r.value.fastqPathR2 == c.fastq.read2File
      && r.value.fastqPathI1.None? && r.value.fastqPathI2.None?
      && r.value.sampleName == Some(c.fastq.sampleId)
      && r.value.allFilesAvailable
      && r.value.readsPf == Some(c.demuxStats.numReads)
      && r.value.pfClustersPercentPerLane == Some(100.0 * c.demuxStats.percentReads)
      && r.value.perfectIndexReadPercent == Some(100.0 * c.demuxStats.percentPerfectIndexReads)
      && r.value.oneMismatchIndexReadPercent == Some(100.0 * c.demuxStats.percentOneMismatchIndexReads)
  {
    match SearchUuid(c.fastq.sampleId)
      case None => Err("Unable to extract sample GUID from " + c.fastq.sampleId)
      case Some(guid) =>
        var qc1 := c.qualityMetricsRead1;
        var qc2 := Read2Metrics(c);
        var total := qc1.totalYield + qc2.totalYield;
        if total == 0 then Err("ZeroDivisionError: division by zero")
        else
          var r2 := match c.fastq.read2File
            case None => NoInput
            case Some(p) => PathValue(p);
          Ok(SequencingFile(
            None,
            CanonicalUuid(guid),
            EmptyStringToNone(PathValue(c.fastq.read1File)),
            EmptyStringToNone(r2),
            EmptyStringToNone(NoInput),
            EmptyStringToNone(NoInput),
            Some(c.fastq.sampleId),
            true,
            Some(c.demuxStats.numReads),
            Some(100.0 * c.demuxStats.percentReads),
            Some(100.0 * c.demuxStats.percentPerfectIndexReads),
            Some(100.0 * c.demuxStats.percentOneMismatchIndexReads),
            Some(total as real / GigaBases),
            Some(100.0 * (qc1.yieldQ30 + qc2.yieldQ30) as real / total as real),
            Some((qc1.qualityScoreSum + qc2.qualityScoreSum) as real / total as real)))
  }

  /** Paired-end data: the metrics pool both reads. */
  lemma PairedEndMetrics(c: CombinedSampleData)
    requires SearchUuid(c.fastq.sampleId).Some?
    requires c.qualityMetricsRead2.Some?
    requires c.qualityMetricsRead1.totalYield + c.qualityMetricsRead2.value.totalYield != 0
    ensures var q1, q2 := c.qualityMetricsRead1, c.qualityMetricsRead2.value;
            var total := (q1.totalYield + q2.totalYield) as real;
            && FromBclconvert(c).Ok?
            && FromBclconvert(c).value.yieldPfGb == Some(total / 1000000000.0)
            && FromBclconvert(c).value.basesQ30Percent == Some(100.0 * (q1.yieldQ30 + q2.yieldQ30) as real / total)
            && FromBclconvert(c).value.averageQScore == Some((q1.qualityScoreSum + q2.qualityScoreSum) as real / total)
  {
  }

  /** Single-end data: the stand-in read 2 contributes nothing, so the
      metrics are read 1's alone. */
  lemma SingleEndMetrics(c: CombinedSampleData)
    requires SearchUuid(c.fastq.sampleId).Some?
    requires c.qualityMetricsRead2.None?
    requires c.qualityMetricsRead1.totalYield != 0
    ensures var q1 := c.qualityMetricsRead1;
            && FromBclconvert(c).Ok?
            && FromBclconvert(c).value.yieldPfGb == Some(q1.totalYield as real / 1000000000.0)
            && FromBclconvert(c).value.basesQ30Percent == Some(100.0 * q1.yieldQ30 as real / q1.totalYield as real)
            && FromBclconvert(c).value.averageQScore == Some(q1.qualityScoreSum as real / q1.totalYield as real)
  {
  }

  /** No yield at all is a division by zero. */
  lemma ZeroYieldRejected(c: CombinedSampleData)
    requires c.qualityMetricsRead1.totalYield == 0
    requires c.qualityMetricsRead2.None? || c.qualityMetricsRead2.value.totalYield == 0
    ensures FromBclconvert(c).Err?
  {
  }

  /** A part of a positive whole is at most a hundred percent of it. */
  lemma RatioPercent(part: real, whole: real)
    requires 0.0 <= part <= whole && whole > 0.0
    ensures 0.0 <= 100.0 * part / whole <= 100.0
  {
    assert part / whole <= 1.0;
  }

  /** With Q30 yields between zero and their read's yield, the Q30 share is
      a percentage. */
  lemma Q30PercentIsPercentage(c: CombinedSampleData)
    requires FromBclconvert(c).Ok?
    requires 0 <= c.qualityMetricsRead1.yieldQ30 <= c.qualityMetricsRead1.totalYield
    requires c.qualityMetricsRead2.Some? ==>
               0 <= c.qualityMetricsRead2.value.yieldQ30 <= c.qualityMetricsRead2.value.totalYield
    ensures FromBclconvert(c).value.basesQ30Percent.Some?
    ensures 0.0 <= FromBclconvert(c).value.basesQ30Percent.value <= 100.0
  {
    var q1, q2 := c.qualityMetricsRead1, Read2Metrics(c);
    var total := (q1.totalYield + q2.totalYield) as real;
    var q30 := (q1.yieldQ30 + q2.yieldQ30) as real;
    assert FromBclconvert(c).value.basesQ30Percent == Some(100.0 * q30 / total);
    RatioPercent(q30, total);
  }

  // --------------------------------------------------------------- payload

  /** JSON values as `model_dump(mode="json")` produces them. */
  datatype Json = JNull | JBool(b: bool) | JInt(i: int) | JReal(x: real) | JStr(s: string)

  function IntJson(v: Option<int>): Json
  {
    match v case None => JNull case Some(i) => JInt(i)
  }

  function NatJson(v: Option<nat>): Json
  {
    match v case None => JNull case Some(i) => JInt(i)
  }

  function RealJson(v: Option<real>): Json
  {
    match v case None => JNull case Some(x) => JReal(x)
  }

  function TextJson(v: Option<string>): Json
  {
    match v case None => JNull case Some(s) => JStr(s)
  }

  function PathJson(v: Option<Path>): Json
  {
    match v case None => JNull case Some(p) => JStr(ToString(p))
  }

  function BoolJson(v: Option<bool>): Json
  {
    match v case None => JNull case Some(b) => JBool(b)
  }

  /** The record's field aliases, spelled as they are sent: the stored
      fields, then the computed ones. */
  datatype Alias =
    | RecordId | SampleGuid | FASTQ_path_R1 | FASTQ_path_R2 | FASTQ_path_I1 | FASTQ_path_I2
    | SampleName | AllFilesAvailable | readsPf | pfClustersPercentPerLane
    | perfectIndexReadPercent | oneMismatchIndexReadPercent | yieldPfGb | basesQ30Percent
    | averageQScore | dataReadPasses | oraCompressionEnabled | sampleSheetPosition
    | onboardAnalysisType

  /** `model_dump(mode="json", by_alias=True, exclude={"record_id"})`: every
      stored field but the record id, then the computed fields. */
  function DumpFields(f: SequencingFile): map<Alias, Json>
  {
    map[
      SampleGuid := JStr(f.sampleGuid),
      FASTQ_path_R1 := PathJson(f.fastqPathR1),
      FASTQ_path_R2 := PathJson(f.fastqPathR2),
      FASTQ_path_I1 := PathJson(f.fastqPathI1),
      FASTQ_path_I2 := PathJson(f.fastqPathI2),
      SampleName := TextJson(f.sampleName),
      AllFilesAvailable := JBool(f.allFilesAvailable),
      readsPf := IntJson(f.readsPf),
      pfClustersPercentPerLane := RealJson(f.pfClustersPercentPerLane),
      perfectIndexReadPercent := RealJson(f.perfectIndexReadPercent),
      oneMismatchIndexReadPercent := RealJson(f.oneMismatchIndexReadPercent),
      yieldPfGb := RealJson(f.yieldPfGb),
      basesQ30Percent := RealJson(f.basesQ30Percent),
      averageQScore := RealJson(f.averageQScore),
      dataReadPasses := IntJson(DataReadPasses(f)),
      oraCompressionEnabled := BoolJson(OraCompressionEnabled(f)),
      sampleSheetPosition := NatJson(SampleSheetPosition(f)),
      onboardAnalysisType := TextJson(OnboardAnalysisType(f))]
  }

  /** Only the record id is left out of the dump. */
  lemma DumpFieldsKeys(f: SequencingFile, a: Alias)
    ensures a in DumpFields(f) <==> a != RecordId
  {
    match a {
      case RecordId =>
      case SampleGuid =>
      case FASTQ_path_R1 =>
      case FASTQ_path_R2 =>
      case FASTQ_path_I1 =>
      case FASTQ_path_I2 =>
      case SampleName =>
      case AllFilesAvailable =>
      case readsPf =>
      case pfClustersPercentPerLane =>
      case perfectIndexReadPercent =>
      case oneMismatchIndexReadPercent =>
      case yieldPfGb =>
      case basesQ30Percent =>
      case averageQScore =>
      case dataReadPasses =>
      case oraCompressionEnabled =>
      case sampleSheetPosition =>
      case onboardAnalysisType =>
    }
  }

  /** The argument of the field-setting call. */
  datatype Payload = Payload(
    dataTypeName: string,
    recordId: Json,
    fields: map<Alias, Json>,
    deleted: bool,
    isNew: bool)

  /** `update_payload(deleted, new)`: the record id travels beside the
      fields rather than among them, and the computed fields travel with the
      stored ones. */
  function UpdatePayload(f: SequencingFile, deleted: bool, isNew: bool): (r: Payload)
    ensures r.dataTypeName == "SequencingFile"
    ensures r.recordId == IntJson(f.recordId) && RecordId !in r.fields
    ensures dataReadPasses in r.fields && r.fields[dataReadPasses] == IntJson(DataReadPasses(f))
    ensures oraCompressionEnabled in r.fields && r.fields[oraCompressionEnabled] == BoolJson(OraCompressionEnabled(f))
    ensures sampleSheetPosition in r.fields && r.fields[sampleSheetPosition] == NatJson(SampleSheetPosition(f))
    ensures onboardAnalysisType in r.fields && r.fields[onboardAnalysisType] == TextJson(OnboardAnalysisType(f))
    ensures r.deleted == deleted && r.isNew == isNew
  {
    Payload("SequencingFile", IntJson(f.recordId), DumpFields(f), deleted, isNew)
  }

  /** The defaults of `update_payload()`: neither deleted nor new. */
  function DefaultPayload(f: SequencingFile): (r: Payload)
    ensures !r.deleted && !r.isNew
    ensures r.fields == UpdatePayload(f, true, true).fields
  {
    UpdatePayload(f, false, false)
  }

  // ----------------------------------------------------- reading it back

  function JsonInt(j: Json): Option<int>
  {
    match j case JInt(i) => Some(i) case _ => None
  }

  function JsonReal(j: Json): Option<real>
  {
    match j case JReal(x) => Some(x) case _ => None
  }

  function JsonText(j: Json): Option<string>
  {
    match j case JStr(s) => Some(s) case _ => None
  }

  /** A dumped path field given back to the model: text goes through
      `empty_string_to_none`. */
  function JsonPath(j: Json): Option<Path>
  {
    match j
      case JStr(s) => EmptyStringToNone(PathText(s))
      case _ => EmptyStringToNone(NoInput)
  }

  predicate StoredFieldsPresent(m: map<Alias, Json>)
  {
    && SampleGuid in m && FASTQ_path_R1 in m && FASTQ_path_R2 in m && FASTQ_path_I1 in m
    && FASTQ_path_I2 in m && SampleName in m && AllFilesAvailable in m && readsPf in m
    && pfClustersPercentPerLane in m && perfectIndexReadPercent in m
    && oneMismatchIndexReadPercent in m && yieldPfGb in m && basesQ30Percent in m
    && averageQScore in m
  }

  /** Rebuilding the record from a payload: the record id and the stored
      fields are read back; the computed fields are extra keys, which the
      model ignores. */
  function FromPayload(p: Payload): Option<SequencingFile>
  {
    var m := p.fields;
    if !StoredFieldsPresent(m) || !m[SampleGuid].JStr? || !m[AllFilesAvailable].JBool? then None
    else Some(SequencingFile(
      JsonInt(p.recordId),
      m[SampleGuid].s,
      JsonPath(m[FASTQ_path_R1]),
      JsonPath(m[FASTQ_path_R2]),
      JsonPath(m[FASTQ_path_I1]),
      JsonPath(m[FASTQ_path_I2]),
      JsonText(m[SampleName]),
      m[AllFilesAvailable].b,
      JsonInt(m[readsPf]),
      JsonReal(m[pfClustersPercentPerLane]),
      JsonReal(m[perfectIndexReadPercent]),
      JsonReal(m[oneMismatchIndexReadPercent]),
      JsonReal(m[yieldPfGb]),
      JsonReal(m[basesQ30Percent]),
      JsonReal(m[averageQScore])))
  }

  predicate PathsWellFormed(f: SequencingFile)
  {
    && (f.fastqPathR1.Some? ==> WellFormed(f.fastqPathR1.value))
    && (f.fastqPathR2.Some? ==> WellFormed(f.fastqPathR2.value))
    && (f.fastqPathI1.Some? ==> WellFormed(f.fastqPathI1.value))
    && (f.fastqPathI2.Some? ==> WellFormed(f.fastqPathI2.value))
  }

  lemma PathJsonRoundTrip(v: Option<Path>)
    requires v.Some? ==> WellFormed(v.value)
    ensures JsonPath(PathJson(v)) == v
  {
    if v.Some? {
      PathTextRoundTrip(v.value);
    }
  }

  /** The dump holds every stored field the record is rebuilt from. */
  lemma StoredFieldsDumped(f: SequencingFile)
    ensures StoredFieldsPresent(DumpFields(f))
  {
  }

  lemma IdentityReadBack(f: SequencingFile, m: map<Alias, Json>)
    requires m == DumpFields(f)
    ensures SampleGuid in m && m[SampleGuid] == JStr(f.sampleGuid)
    ensures AllFilesAvailable in m && m[AllFilesAvailable] == JBool(f.allFilesAvailable)
    ensures SampleName in m && JsonText(m[SampleName]) == f.sampleName
    ensures readsPf in m && JsonInt(m[readsPf]) == f.readsPf
  {
  }

  lemma ReadPathsReadBack(f: SequencingFile, m: map<Alias, Json>)
    requires PathsWellFormed(f)
    requires m == DumpFields(f)
    ensures FASTQ_path_R1 in m && JsonPath(m[FASTQ_path_R1]) == f.fastqPathR1
    ensures FASTQ_path_R2 in m && JsonPath(m[FASTQ_path_R2]) == f.fastqPathR2
  {
    assert m[FASTQ_path_R1] == PathJson(f.fastqPathR1);
    assert m[FASTQ_path_R2] == PathJson(f.fastqPathR2);
    PathJsonRoundTrip(f.fastqPathR1);
    PathJsonRoundTrip(f.fastqPathR2);
  }

  lemma IndexPathsReadBack(f: SequencingFile, m: map<Alias, Json>)
    requires PathsWellFormed(f)
    requires m == DumpFields(f)
    ensures FASTQ_path_I1 in m && JsonPath(m[FASTQ_path_I1]) == f.fastqPathI1
    ensures FASTQ_path_I2 in m && JsonPath(m[FASTQ_path_I2]) == f.fastqPathI2
  {
    assert m[FASTQ_path_I1] == PathJson(f.fastqPathI1);
    assert m[FASTQ_path_I2] == PathJson(f.fastqPathI2);
    PathJsonRoundTrip(f.fastqPathI1);
    PathJsonRoundTrip(f.fastqPathI2);
  }

  lemma IndexMetricsReadBack(f: SequencingFile, m: map<Alias, Json>)
    requires m == DumpFields(f)
    ensures pfClustersPercentPerLane in m && JsonReal(m[pfClustersPercentPerLane]) == f.pfClustersPercentPerLane
    ensures perfectIndexReadPercent in m && JsonReal(m[perfectIndexReadPercent]) == f.perfectIndexReadPercent
    ensures oneMismatchIndexReadPercent in m &&
            JsonReal(m[oneMismatchIndexReadPercent]) == f.oneMismatchIndexReadPercent
  {
  }

  lemma YieldMetricsReadBack(f: SequencingFile, m: map<Alias, Json>)
    requires m == DumpFields(f)
    ensures yieldPfGb in m && JsonReal(m[yieldPfGb]) == f.yieldPfGb
    ensures basesQ30Percent in m && JsonReal(m[basesQ30Percent]) == f.basesQ30Percent
    ensures averageQScore in m && JsonReal(m[averageQScore]) == f.averageQScore
  {
  }

  /** Fields that hold the dump of a record give that record back. */
  lemma ReadBack(f: SequencingFile, p: Payload)
    requires PathsWellFormed(f)
    requires p.recordId == IntJson(f.recordId) && p.fields == DumpFields(f)
    ensures FromPayload(p) == Some(f)
  {
    StoredFieldsDumped(f);
    IdentityReadBack(f, p.fields);
    ReadPathsReadBack(f, p.fields);
    IndexPathsReadBack(f, p.fields);
    IndexMetricsReadBack(f, p.fields);
    YieldMetricsReadBack(f, p.fields);
    assert JsonInt(IntJson(f.recordId)) == f.recordId;
  }

  /** The payload carries the whole record: reading it back gives the record
      it was built from, whatever the flags. */
  lemma PayloadRoundTrip(f: SequencingFile, deleted: bool, isNew: bool)
    requires PathsWellFormed(f)
    ensures FromPayload(UpdatePayload(f, deleted, isNew)) == Some(f)
  {
    ReadBack(f, UpdatePayload(f, deleted, isNew));
  }
}

=== FILE: sorting.dfy ===
/** `sorted()` on a list of paths, as an insertion sort over `Paths.PathLe`. */
module Sorting {
  import opened Paths

  predicate Sorted(s: seq<Path>)
  {
    forall i :: 0 <= i < |s| - 1 ==> PathLe(s[i], s[i + 1])
  }

  function Insert(x: Path, s: seq<Path>): (r: seq<Path>)
    requires Sorted(s)
    ensures Sorted(r)
    ensures multiset(r) == multiset(s) + multiset{x}
    ensures |r| == |s| + 1
    ensures r[0] == x || (|s| > 0 && r[0] == s[0])
  {
    if s == [] || PathLe(x, s[0]) then [x] + s
    else
      PathLeTotal(x, s[0]);
      var rest := Insert(x, s[1..]);
      assert s == [s[0]] + s[1..];
      [s[0]] + rest
  }

  /** The sorted permutation of `s`. */
  function Sort(s: seq<Path>): (r: seq<Path>)
    ensures Sorted(r)
    ensures multiset(r) == multiset(s)
  {
    if s == [] then []
    else
      assert s == [s[0]] + s[1..];
      Insert(s[0], Sort(s[1..]))
  }

  lemma SortKeepsMembers(s: seq<Path>, p: Path)
    ensures p in Sort(s) <==> p in s
  {
    assert p in Sort(s) <==> p in multiset(Sort(s));
    assert p in s <==> p in multiset(s);
  }
}

=== FILE: text.dfy ===
/** String helpers with Python's meaning: `str.split` on one separator
    character, `in` on strings, `str.endswith`, and the decimal text forms
    that the row decoders accept for integer and float columns. */
module Text {
  import opened Wrappers

  /** `s.split(sep)`: the pieces between separators; never empty. */
  function Split(s: string, sep: char): (r: seq<string>)
    ensures |r| >= 1
    ensures forall i :: 0 <= i < |r| ==> sep !in r[i]
  {
    if s == [] then [""]
    else if s[0] == sep then [""] + Split(s[1..], sep)
    else
      var rest := Split(s[1..], sep);
      [[s[0]] + rest[0]] + rest[1..]
  }

  /** `sep.join(parts)`. */
  function Join(parts: seq<string>, sep: char): string
  {
    if |parts| == 0 then ""
    else if |parts| == 1 then parts[0]
    else parts[0] + [sep] + Join(parts[1..], sep)
  }

  lemma {:induction false} JoinSplit(s: string, sep: char)
    ensures Join(Split(s, sep), sep) == s
  {
    if s == [] {
    } else if s[0] == sep {
      JoinSplit(s[1..], sep);
      var rest := Split(s[1..], sep);
      assert Split(s, sep) == [""] + rest;
      assert Join([""] + rest, sep) == "" + [sep] + Join(rest, sep);
    } else {
      JoinSplit(s[1..], sep);
      var rest := Split(s[1..], sep);
      var r := Split(s, sep);
      assert r == [[s[0]] + rest[0]] + rest[1..];
      if |rest| == 1 {
        assert Join(r, sep) == [s[0]] + rest[0];
      } else {
        assert r[1..] == rest[1..];
        assert Join(rest, sep) == rest[0] + [sep] + Join(rest[1..], sep);
        assert Join(r, sep) == [s[0]] + rest[0] + [sep] + Join(rest[1..], sep);
      }
    }
  }

  /** Splitting a join of separator-free pieces gives the pieces back. */
  lemma {:induction false} SplitJoin(parts: seq<string>, sep: char)
    requires |parts| >= 1
    requires forall i :: 0 <= i < |parts| ==> sep !in parts[i]
    ensures Split(Join(parts, sep), sep) == parts
  {
    if |parts| == 1 {
      SplitNoSep(parts[0], sep);
    } else {
      SplitJoin(parts[1..], sep);
      SplitPrefix(parts[0], Join(parts[1..], sep), sep);
      assert parts == [parts[0]] + parts[1..];
    }
  }

  lemma {:induction false} SplitNoSep(s: string, sep: char)
    requires sep !in s
    ensures Split(s, sep) == [s]
  {
    if s != [] {
      SplitNoSep(s[1..], sep);
      assert [s[0]] + s[1..] == s;
    }
  }

  lemma {:induction false} SplitPrefix(a: string, b: string, sep: char)
    requires sep !in a
    ensures Split(a + [sep] + b, sep) == [a] + Split(b, sep)
  {
    if a == [] {
      assert a + [sep] + b == [sep] + b;
      assert ([sep] + b)[1..] == b;
    } else {
      assert (a + [sep] + b)[1..] == a[1..] + [sep] + b;
      SplitPrefix(a[1..], b, sep);
      assert [a[0]] + a[1..] == a;
    }
  }

  /** `sub` occurs in `s` starting at index `i`. */
  predicate OccursAt(s: string, sub: string, i: int)
  {
    0 <= i <= |s| - |sub| && s[i..i + |sub|] == sub
  }

  /** Python's `sub in s`. */
  predicate Contains(s: string, sub: string)
  {
    exists i :: 0 <= i <= |s| - |sub| && OccursAt(s, sub, i)
  }

  /** Every piece of a joined text occurs in it. */
  lemma {:induction false} JoinContains(parts: seq<string>, sep: char, i: nat)
    requires i < |parts|
    ensures Contains(Join(parts, sep), parts[i])
  {
    var s := Join(parts, sep);
    if i == 0 {
      assert OccursAt(s, parts[0], 0);
    } else {
      JoinContains(parts[1..], sep, i - 1);
      var rest := Join(parts[1..], sep);
      var k :| 0 <= k <= |rest| - |parts[i]| && OccursAt(rest, parts[1..][i - 1], k);
      var off := |parts[0]| + 1;
      assert s == parts[0] + [sep] + rest;
      assert s[off + k..off + k + |parts[i]|] == rest[k..k + |parts[i]|];
      assert OccursAt(s, parts[i], off + k);
    }
  }

  /** Python's `s.endswith(suffix)`. */
  predicate EndsWith(s: string, suffix: string)
  {
    |suffix| <= |s| && s[|s| - |suffix|..] == suffix
  }

  predicate IsDigit(c: char)
  {
    '0' <= c <= '9'
  }

  predicate AllDigits(s: string)
  {
    forall i :: 0 <= i < |s| ==> IsDigit(s[i])
  }

  predicate IsHexDigit(c: char)
  {
    IsDigit(c) || 'a' <= c <= 'f' || 'A' <= c <= 'F'
  }

  function DigitValue(c: char): nat
    requires IsDigit(c)
  {
    (c as int - '0' as int) as nat
  }

  /** The value of a run of decimal digits, most significant first. */
  function DigitsValue(s: string): nat
    requires AllDigits(s)
  {
    if |s| == 0 then 0
    else DigitsValue(s[..|s| - 1]) * 10 + DigitValue(s[|s| - 1])
  }

  /** Decimal digits of a natural number, without leading zeros. */
  function NatToDigits(n: nat): (r: string)
    ensures |r| >= 1 && AllDigits(r)
  {
    if n < 10 then [('0' as int + n) as char]
    else NatToDigits(n / 10) + [('0' as int + n % 10) as char]
  }

  lemma {:induction false} DigitsRoundTrip(n: nat)
    ensures DigitsValue(NatToDigits(n)) == n
  {
    if n >= 10 {
      DigitsRoundTrip(n / 10);
      var s := NatToDigits(n);
      assert s[..|s| - 1] == NatToDigits(n / 10);
    }
  }

  /** The text form of an integer: an optional sign followed by at least one
      decimal digit. */
  function ParseInt(s: string): (r: Option<int>)
    ensures r.Some? <==> (|s| >= 1 && AllDigits(s)) ||
                         (|s| >= 2 && (s[0] == '-' || s[0] == '+') && AllDigits(s[1..]))
  {
    if |s| >= 1 && AllDigits(s) then Some(DigitsValue(s))
    else if |s| >= 2 && s[0] == '-' && AllDigits(s[1..]) then Some(0 - DigitsValue(s[1..]))
    else if |s| >= 2 && s[0] == '+' && AllDigits(s[1..]) then Some(DigitsValue(s[1..]))
    else None
  }

  /** `str(n)` for an integer. */
  function FormatInt(n: int): string
  {
    if n < 0 then "-" + NatToDigits(-n) else NatToDigits(n)
  }

  lemma IntRoundTrip(n: int)
    ensures ParseInt(FormatInt(n)) == Some(n)
  {
    if n < 0 {
      DigitsRoundTrip(-n);
      assert FormatInt(n)[1..] == NatToDigits(-n);
    } else {
      DigitsRoundTrip(n);
    }
  }

  /** The value of a fraction's digits, `0.d1d2...` */
  function FractionValue(s: string): real
    requires AllDigits(s)
  {
    if |s| == 0 then 0.0
    else (DigitValue(s[0]) as real + FractionValue(s[1..])) / 10.0
  }

  /** Index of the first `c` in `s`, or `|s|` when there is none. */
  function FirstIndex(s: string, c: char): (k: nat)
    ensures k <= |s|
    ensures k < |s| ==> s[k] == c
    ensures forall j :: 0 <= j < k ==> s[j] != c
  {
    if s == [] then 0
    else if s[0] == c then 0
    else 1 + FirstIndex(s[1..], c)
  }

  function ParseUnsignedDecimal(s: string): Option<real>
  {
    var k := FirstIndex(s, '.');
    if |s| >= 1 && k == |s| && AllDigits(s) then Some(DigitsValue(s) as real)
    else if |s| >= 2 && k < |s| && AllDigits(s[..k]) && AllDigits(s[k + 1..]) then
      Some(DigitsValue(s[..k]) as real + FractionValue(s[k + 1..]))
    else None
  }

  /** The decimal text form of a float column: an optional sign, digits and an
      optional fractional part (`12`, `0.9500`, `.5`, `3.`). */
  function ParseDecimal(s: string): Option<real>
  {
    if |s| >= 1 && (s[0] == '-' || s[0] == '+') then
      match ParseUnsignedDecimal(s[1..])
      case None => None
      case Some(v) => if s[0] == '-' then Some(-v) else Some(v)
    else ParseUnsignedDecimal(s)
  }

  function LowerChar(c: char): char
  {
    if 'A' <= c <= 'Z' then (c as int + 32) as char else c
  }

  /** ASCII lower-casing, as `str(UUID(...))` prints hex digits. */
  function Lower(s: string): (r: string)
    ensures |r| == |s|
  {
    seq(|s|, i requires 0 <= i < |s| => LowerChar(s[i]))
  }
}

=== FILE: uuid.dfy ===
/** UUID-shaped substrings, as the pattern
    `[0-9a-fA-F]{8}-[0-9a-fA-F]{4}-[0-9a-fA-F]{4}-[0-9a-fA-F]{4}-[0-9a-fA-F]{12}`
    finds them with `search`, and their canonical text form. */
module Uuids {
  import opened Wrappers
  import opened Text

  /** Characters of an 8-4-4-4-12 UUID: hyphens at offsets 8, 13, 18 and 23,
      hexadecimal digits of either case elsewhere (section 3 of RFC 4122). */
  predicate UuidShaped(w: string)
  {
    && |w| == 36
    && forall j :: 0 <= j < 36 ==>
         if j == 8 || j == 13 || j == 18 || j == 23 then w[j] == '-' else IsHexDigit(w[j])
  }

  predicate UuidAt(s: string, i: int)
  {
    0 <= i && i + 36 <= |s| && UuidShaped(s[i..i + 36])
  }

  /** The first position at or after `i` where a UUID starts. */
  function FindUuidFrom(s: string, i: nat): (r: Option<nat>)
    requires i <= |s|
    ensures r.Some? ==> i <= r.value && UuidAt(s, r.value)
    ensures r.Some? ==> forall k :: i <= k < r.value ==> !UuidAt(s, k)
    ensures r.None? ==> forall k :: i <= k <= |s| ==> !UuidAt(s, k)
    decreases |s| - i
  {
    if i + 36 > |s| then None
    else if UuidAt(s, i) then Some(i)
    else FindUuidFrom(s, i + 1)
  }

  /** `UUID_RE.search(s).group()`: the leftmost UUID-shaped substring. */
  function SearchUuid(s: string): (r: Option<string>)
    ensures r.None? <==> forall k :: 0 <= k <= |s| ==> !UuidAt(s, k)
    ensures r.Some? ==> exists k :: 0 <= k <= |s| && UuidAt(s, k) && r.value == s[k..k + 36] &&
                                    forall j :: 0 <= j < k ==> !UuidAt(s, j)
  {
    match FindUuidFrom(s, 0)
      case None => None
      case Some(k) => Some(s[k..k + 36])
  }

  /** `str(UUID(text))` for a UUID-shaped text: the hex digits lower-cased. */
  function CanonicalUuid(w: string): (r: string)
    requires UuidShaped(w)
    ensures UuidShaped(r)
  {
    var r := Lower(w);
    assert forall j :: 0 <= j < 36 ==> r[j] == LowerChar(w[j]);
    r
  }

  /** A canonical UUID is its own canonical form and is found at its start. */
  lemma CanonicalUuidStable(w: string)
    requires UuidShaped(w)
    ensures CanonicalUuid(CanonicalUuid(w)) == CanonicalUuid(w)
    ensures SearchUuid(CanonicalUuid(w)) == Some(CanonicalUuid(w))
  {
    var c := CanonicalUuid(w);
    assert c[0..36] == c;
    assert UuidAt(c, 0);
  }
}

=== FILE: wrappers.dfy ===
/** Failure-carrying values shared by every module of the model: `Option` for
    Python's `None`-or-value, and `Result` for a value or the message of the
    exception the code would raise. */
module Wrappers {

  datatype Option<+T> = None | Some(value: T)

  datatype Result<+T> = Ok(value: T) | Err(error: string) {

    predicate IsFailure() {
      Err?
    }

    function PropagateFailure<U>(): Result<U>
      requires Err?
    {
      Err(error)
    }

    function Extract(): T
      requires Ok?
    {
      value
    }
  }
}
